=== FILE: README.md ===
# flugo core in Dafny

A model of the core of flugo, an administration tool for employees
(*colaboradores*) and departments (*departamentos*) stored in Firestore,
with the properties of that model proved. The model covers:

- **The department collection** (`departamento.collection.ts`). A
  department document is a map from field names to JSON values. The model
  covers the shape check, `docToDTO`, the payload `criar` writes, the
  partial update `atualizar` merges in, and `listar`.
- **The in-memory employee repository** (`colaboradores.mock.ts`). The mock
  is a class over a `seq` with `listar`, `criar`, `atualizar`, `remover` and
  `removerEmMassa`. Fresh ids come from `proximoId` (`parseInt` plus one).
- **A repository store** (`document_store.dfy`) used by the services. It
  holds the departments, their listing order and the employees. Every call
  goes through a failure oracle that decides which calls throw. Each call
  appends an entry to a log, and replaying the log gives the state.
- **The two-sided services.**
  - `updateColaboradorESincronizarDepartamentos` moves an employee between
    two department rosters.
  - `criarDepartamentoEAtualizarColaboradores` creates a department and
    moves the chosen employees into it.
  - `updateDepartamentoEAtualizarColaboradores` edits a department and moves
    the employees added to or removed from its roster.
  - Each of these writes, stops at the first error, undoes what it did and
    rethrows. The model states which calls are issued, in order, the state
    after success, and what the compensation puts back.
- **Smaller pieces.**
  - `formatBr`: currency formatting, parsing and the input mask.
  - `authService`: mapping Firebase error codes and wrapping errors.
  - The `zod` schema and `getFieldErrors` of `validation.ts`.
- **The pages and hooks.**
  - Pages: sign-up, sign-in, the two-step new-employee form, new department,
    edit department, and the employee list's labels.
  - Hooks: `useDepartamentos` and `useColaboradores`.
  - The new-employee, new-department and edit-department pages and the two
    hooks are classes whose fields are their React state. Their handlers
    are methods whose contracts state the new value of every field they may
    change. An asynchronous handler is split into the part before the call
    and the part after it settles. The call's outcome is a parameter of the
    second part.
  - The sign-up and sign-in pages are modelled as functions: from the form
    fields to the errors shown and the request sent, and from a thrown error
    to the message shown.

Strings are `seq<char>`. `String.prototype.trim` is modelled over the
white-space characters of ECMAScript, and `toLowerCase` over ASCII and the
Latin-1 capitals. The e-mail regular expression
`^[^\s@]+@[^\s@]+\.[^\s@]+$` is a computed check, and it is proved equal to
its shape: some characters, '@', some, '.', some.

## Model

| member | source | states |
|---|---|---|
| Strings.TrimShape | src/pages/Cadastro.tsx:68 | `trim()` returns a slice of the string with only white space cut from both ends |
| Strings.TrimEnds | src/pages/Cadastro.tsx:68 | a trimmed string neither starts nor ends with white space |
| Strings.TrimIdempotent | src/pages/Departamentos/NovoDepartamento.tsx:55-56 | trimming twice is trimming once |
| Strings.BlankIffAllSpace | src/pages/Departamentos/NovoDepartamento.tsx:46-47 | `!s.trim()` holds exactly when every character is white space |
| Strings.ToLower | src/pages/Colaboradores/hooks/useColaboradores.ts:41-42 | same length; each character lowered on its own |
| Strings.IncludesIff | src/pages/Colaboradores/hooks/useColaboradores.ts:45-46 | `includes` holds exactly when the needle occurs at some position |
| Strings.MatchesEmailIffShape | src/pages/Cadastro.tsx:9 | the e-mail check accepts exactly strings of the form some + '@' + some + '.' + some, with no white space or extra '@' in the parts |
| Strings.DigitsAppend | src/utils/formatBr.ts:16 | removing non-digits distributes over concatenation |
| Strings.DigitsOfDigits | src/utils/formatBr.ts:16 | removing non-digits from a digit string changes nothing |
| Strings.DigitsValueAppend | src/utils/formatBr.ts:18 | the value of two digit strings joined is the left value shifted plus the right |
| Strings.NatToString | src/pages/Colaboradores/ColaboradoresPage.tsx:95 | `String(n)` is a non-empty digit string with no leading zero unless n is 0 |
| Strings.NatToStringValue | src/pages/Colaboradores/ColaboradoresPage.tsx:95 | reading `String(n)` back as decimal gives n |
| Lists.Ids | src/pages/Departamentos/NovoDepartamento.tsx:57 | `map((c) => c.id)`: same length, each position the id of that employee |
| Lists.WithoutId | src/pages/Departamentos/hooks/useDepartamentos.ts:72 | `filter((d) => d.id !== id)`: exactly the departments without that id, in their order, each as many times as before |
| Lists.SubsequenceMembers | src/pages/Colaboradores/hooks/useColaboradores.ts:44 | every element of a subsequence comes from the sequence |
| DepartamentoCollection.OptionalString | back-end/data/firebase/departamento.collection.ts:53-54 | present exactly when the field holds a string, and then that string |
| DepartamentoCollection.DocToDTO | back-end/data/firebase/departamento.collection.ts:47-56 | keeps the id; copies the three required fields of a document that passes the shape check; defaults a missing roster to empty; optional texts only when they are strings |
| DepartamentoCollection.KeepText | back-end/data/firebase/departamento.collection.ts:95-96 | an optional text is stored trimmed and only when not blank; other fields untouched |
| DepartamentoCollection.CriarPayload | back-end/data/firebase/departamento.collection.ts:91-97 | the document `criar` writes passes the shape check, holds the name, manager and roster given, and holds a description or acronym exactly when one that is not blank was given, trimmed |
| DepartamentoCollection.CriarReadBack | back-end/data/firebase/departamento.collection.ts:88-110 | reading back the stored document gives the returned record, except that optional texts come back trimmed and blank ones dropped |
| DepartamentoCollection.SetField | back-end/data/firebase/departamento.collection.ts:125-130 | a defined field is written; every other field stays |
| DepartamentoCollection.Updates | back-end/data/firebase/departamento.collection.ts:125-130 | the update holds exactly the defined fields, with the texts trimmed and nothing else |
| DepartamentoCollection.Atualizar | back-end/data/firebase/departamento.collection.ts:112-144 | a missing document is 'not found'; one failing the shape check is 'invalid'; otherwise the stored document is merged with the updates, still passes the check, and the reply is that document read back |
| DepartamentoCollection.AtualizarFields | back-end/data/firebase/departamento.collection.ts:125-139 | fields the update does not name keep their values; the reply carries each defined value and the stored one otherwise |
| DepartamentoCollection.Listar | back-end/data/firebase/departamento.collection.ts:69-86 | fails exactly when some listed document fails the shape check, and then names the first such id in listing order; otherwise the records are exactly the listed documents read back, in listing order |
| ColaboradoresMock.DigitPrefix | back-end/data/mocks/colaboradores.mock.ts:40 | the longest run of digits at the start |
| ColaboradoresMock.ParseInt | back-end/data/mocks/colaboradores.mock.ts:40 | `parseInt` is NaN exactly when no digit follows the white space and sign |
| ColaboradoresMock.ParseIntToString | back-end/data/mocks/colaboradores.mock.ts:40-42 | `parseInt(String(k)) == k` for every integer |
| ColaboradoresMock.ParsedIds | back-end/data/mocks/colaboradores.mock.ts:40 | holds every numeric id, at most one per record |
| ColaboradoresMock.ParsedIdSource | back-end/data/mocks/colaboradores.mock.ts:40 | every parsed id is the `parseInt` of some stored record's id |
| ColaboradoresMock.ParsedIdsEmpty | back-end/data/mocks/colaboradores.mock.ts:40-41 | no id is read exactly when no id is numeric |
| ColaboradoresMock.ParsedIdsAppend | back-end/data/mocks/colaboradores.mock.ts:40 | the ids are read in list order: the reading of a concatenation is the readings one after the other |
| ColaboradoresMock.ParsedIdsSingle | back-end/data/mocks/colaboradores.mock.ts:40 | one record reads as its numeric id, or as nothing when it is not numeric |
| ColaboradoresMock.Max | back-end/data/mocks/colaboradores.mock.ts:41 | an element of the list, and no element is larger |
| ColaboradoresMock.ProximoId | back-end/data/mocks/colaboradores.mock.ts:39-43 | the decimal form of one more than the largest id `parseInt` reads, so it reads back above every numeric id; "1" when no id is numeric |
| ColaboradoresMock.NextIdFacts | back-end/data/mocks/colaboradores.mock.ts:40-42 | the largest numeric id (0 when there is none) bounds every numeric id, one more than it reads back, and with no numeric id that is "1" |
| ColaboradoresMock.ProximoIdFresh | back-end/data/mocks/colaboradores.mock.ts:39-43 | the next id differs from every id already stored |
| ColaboradoresMock.FindIndex | back-end/data/mocks/colaboradores.mock.ts:66 | the first index with that id, or none exactly when no record has it |
| ColaboradoresMock.Merge | back-end/data/mocks/colaboradores.mock.ts:71-77 | keeps the id; each defined field replaces the stored one |
| ColaboradoresMock.MergeLaws | back-end/data/mocks/colaboradores.mock.ts:71-77 | an empty update changes nothing; applying an update twice is applying it once |
| ColaboradoresMock.RemoveId | back-end/data/mocks/colaboradores.mock.ts:83 | exactly the records without that id |
| ColaboradoresMock.RemoveIdAppend | back-end/data/mocks/colaboradores.mock.ts:83 | removal keeps order: it distributes over concatenation |
| ColaboradoresMock.RemoveIdIdempotent | back-end/data/mocks/colaboradores.mock.ts:83 | removing twice is removing once |
| ColaboradoresMock.RemoveIds | back-end/data/mocks/colaboradores.mock.ts:87-88 | exactly the records whose id is not in the set |
| ColaboradoresMock.RemoveIdsSingleton | back-end/data/mocks/colaboradores.mock.ts:82-89 | a bulk delete of one id is the single delete |
| ColaboradoresMock.ColaboradorRepositoryMock.constructor | back-end/data/mocks/colaboradores.mock.ts:8-37 | starts with the fixed sample records |
| ColaboradoresMock.ColaboradorRepositoryMock.Listar | back-end/data/mocks/colaboradores.mock.ts:48-50 | returns the stored list |
| ColaboradoresMock.ColaboradorRepositoryMock.Criar | back-end/data/mocks/colaboradores.mock.ts:52-63 | appends one record with the next id, which no stored record has |
| ColaboradoresMock.ColaboradorRepositoryMock.Atualizar | back-end/data/mocks/colaboradores.mock.ts:65-80 | an unknown id fails with 'not found' and changes nothing; otherwise the first record with that id is replaced by the merge and returned |
| ColaboradoresMock.ColaboradorRepositoryMock.Remover | back-end/data/mocks/colaboradores.mock.ts:82-84 | the list without that id |
| ColaboradoresMock.ColaboradorRepositoryMock.RemoverEmMassa | back-end/data/mocks/colaboradores.mock.ts:86-89 | the list without any of the ids |
| Repositories.Without | src/services/colaboradorDepartamentoSync.ts:50-51 | exactly the ids other than x |
| Repositories.WithoutAppend | src/services/colaboradorDepartamentoSync.ts:50-51 | removal keeps order: it distributes over concatenation |
| Repositories.FailedCallChangesNothing | back-end/data/firebase/departamento.collection.ts:116-124 | a call that reports an error leaves the state as it was |
| Repositories.ExecPreservesValid | back-end/data/firebase/departamento.collection.ts:88-152 | every repository call keeps the listing order in step with the stored departments |
| Repositories.RosterWrite | back-end/data/firebase/departamento.collection.ts:125-133 | writing a roster changes that field of that document only and replies with the department |
| Repositories.AfterAppend | src/services/departamentosService.ts:93-164 | running two logs in turn is running their concatenation |
| Repositories.EffectOfFailure | back-end/data/firebase/departamento.collection.ts:116-124 | a let-through call that replies with an error has no effect |
| Repositories.EffectListDepts | back-end/data/firebase/departamento.collection.ts:69-86 | a listing has no effect |
| Repositories.RostersOnlyDifferRestore | src/services/colaboradorDepartamentoSync.ts:58-68 | writing back a tracked department's original roster removes it from the set of differing departments |
| Repositories.RostersOnlyDifferNone | src/services/colaboradorDepartamentoSync.ts:58-68 | when no department differs, the maps are equal |
| Repositories.AfterKeepsDept | src/services/departamentosService.ts:104-145 | a stored department stays stored through a log that deletes none |
| Repositories.ExecKeepsColabs | back-end/data/firebase/departamento.collection.ts:88-152 | only employee writes touch employee records |
| Repositories.AfterColabDept | src/services/departamentosService.ts:104-117 | an employee's department after a log is the one the last let-through write to it set, or the one it had |
| Repositories.Store.constructor | back-end/data/firebase/departamento.collection.ts:69-152 | starts from the given state, with an empty log |
| Repositories.Store.Perform | back-end/data/firebase/departamento.collection.ts:69-152 | a call the oracle fails throws and changes nothing; otherwise the call runs; either way one log entry is added and validity is kept |
| Repositories.Store.Listar | back-end/data/firebase/departamento.collection.ts:69-86 | changes nothing; replies with the listing or its error |
| Repositories.Store.Criar | back-end/data/firebase/departamento.collection.ts:88-110 | given a new id, stores the payload under it, adds the id to the listing and replies with the created record, unless the call throws; the model appends the id at the end of the listing (see "## Left out") |
| Repositories.Store.Atualizar | back-end/data/firebase/departamento.collection.ts:112-144 | 'not found' or 'invalid' change nothing; otherwise stores the merged document and replies with it read back |
| Repositories.Store.AtualizarRoster | back-end/data/firebase/departamento.collection.ts:125-139 | on a valid department, only that roster changes |
| Repositories.Store.Remover | back-end/data/firebase/departamento.collection.ts:146-152 | drops the document and its listing position |
| Repositories.Store.AtualizarColaborador | back-end/data/mocks/colaboradores.mock.ts:65-80 | an unknown id fails with 'not found' and changes nothing; otherwise the merge is stored and returned |
| ColaboradorDepartamentoSync.FindByName | src/services/colaboradorDepartamentoSync.ts:33-37 | the first department with that name, or none exactly when no department has it |
| ColaboradorDepartamentoSync.AddOnce | src/services/colaboradorDepartamentoSync.ts:53-56 | the id is appended only when absent; the members are the old ones plus the id |
| ColaboradorDepartamentoSync.AddOnceDistinct | src/services/colaboradorDepartamentoSync.ts:53-56 | a roster without duplicates keeps none after adding, and grows by at most one |
| ColaboradorDepartamentoSync.OldNewDistinct | src/services/colaboradorDepartamentoSync.ts:24-37 | when the trimmed names differ, the old and new departments found have different names |
| ColaboradorDepartamentoSync.ListedSnapshots | src/services/colaboradorDepartamentoSync.ts:39-46 | the listed departments are the stored rosters; different names mean different documents |
| ColaboradorDepartamentoSync.WrittenOnlyRosters | src/services/colaboradorDepartamentoSync.ts:48-57 | before the employee write, a move has changed only the two rosters |
| ColaboradorDepartamentoSync.RestoreUndoes | src/services/colaboradorDepartamentoSync.ts:58-68 | the compensation keeps the difference within the two rosters and, when both writes go through, restores them exactly |
| ColaboradorDepartamentoSync.UpdateColaboradorESincronizarDepartamentos | src/services/colaboradorDepartamentoSync.ts:19-69 | same trimmed department: only the employee write, and the new state is the employee merged when that write went through, else the old state. Otherwise: list first (a failed listing changes nothing); an unknown new name fails with no write. On success: the old roster loses the id, the new one gains it once, and the employee is merged. On failure: the first failing write's error, only the two rosters may differ, and when the rollback goes through the state is as before |
| ColaboradorDepartamentoSync.MoveListed | src/services/colaboradorDepartamentoSync.ts:33-68 | finds the two departments by name, then the move's outcome as above |
| ColaboradorDepartamentoSync.Move | src/services/colaboradorDepartamentoSync.ts:48-68 | the forward writes in order and, after the first failure, the compensation |
| ColaboradorDepartamentoSync.WriteForward | src/services/colaboradorDepartamentoSync.ts:48-57 | old roster, new roster, then employee, stopping at the first failure; the state is the prefix of the move written |
| ColaboradorDepartamentoSync.RestoreRosters | src/services/colaboradorDepartamentoSync.ts:58-68 | both snapshots written back, old first, each error ignored |
| DepartamentosService.ToCriarDTO | src/services/departamentosService.ts:20-28 | copies name and manager; the roster defaults to empty; optional texts carried exactly when given |
| DepartamentosService.CriarStoresInput | src/services/departamentosService.ts:20-28 | the document stored for a page's input holds its roster (or an empty one) and a description only when given and not blank |
| DepartamentosService.ToAtualizarDTO | src/services/departamentosService.ts:30-38 | a field-by-field copy that keeps undefined fields undefined |
| DepartamentosService.UpdateWritesDefinedFields | src/services/departamentosService.ts:30-38 | an edit writes exactly the fields the input defines |
| DepartamentosService.ToUserMessage | src/services/departamentosService.ts:58-66 | a repository error gets the configuration hint appended; another error with a message shows it; anything else the fixed text; never empty |
| DepartamentosService.Dedup | src/services/departamentosService.ts:192-195 | `[...new Set(ids)]`: the same members, without repeats |
| DepartamentosService.Keep | src/services/departamentosService.ts:128-130 | exactly the ids not dropped |
| DepartamentosService.KeepSameLength | src/services/departamentosService.ts:128-131 | the filter keeps the length exactly when it drops nothing |
| DepartamentosService.KeepDistinct | src/services/departamentosService.ts:128-130 | filtering a roster without duplicates leaves none |
| DepartamentosService.AddedIds | src/services/departamentosService.ts:192-194 | the ids added, without repeats |
| DepartamentosService.RemovedIds | src/services/departamentosService.ts:192-195 | the ids removed, without repeats |
| DepartamentosService.AddedRemovedAreDifferences | src/services/departamentosService.ts:192-195 | added is new minus current and removed is current minus new; no id is both |
| DepartamentosService.NoRosterNoChange | src/services/departamentosService.ts:192-195 | without a new roster nothing is added or removed |
| DepartamentosService.Lookup | src/services/departamentosService.ts:205-210 | the employees found in the map, never more than the ids |
| DepartamentosService.OwnDepartments | src/services/departamentosService.ts:212-214 | each added employee's id gets an entry |
| DepartamentosService.AllBackTo | src/services/departamentosService.ts:212-214 | each removed employee's id maps to the department's current name |
| DepartamentosService.PreviousDepartmentsTargets | src/services/departamentosService.ts:212-214 | a removed employee goes back to the edited department's name; an added one that is not removed goes back to its own department |
| DepartamentosService.ColabPatch | src/services/departamentosService.ts:105-115 | the employee update carries the new department |
| DepartamentosService.Assigns | src/services/departamentosService.ts:104-117 | one move per employee, in order, to the given department |
| DepartamentosService.PruneStepsExactly | src/services/departamentosService.ts:122-137 | the pruning loop writes exactly the other departments holding a moved employee, each with those ids filtered out |
| DepartamentosService.RosterRestores | src/services/departamentosService.ts:138-145 | one roster write-back per snapshot, in recorded order |
| DepartamentosService.ColabRestores | src/services/departamentosService.ts:147-163 | one employee write-back per updated employee, to its previous department |
| DepartamentosService.Issue | src/services/departamentosService.ts:93-293 | one repository call, recorded as the log's next entry |
| DepartamentosService.RunSteps | src/services/departamentosService.ts:104-137 | runs the steps until the first error; records the snapshots and updated employees before it |
| DepartamentosService.RestoreRosters | src/services/departamentosService.ts:138-145 | the recorded rosters written back, errors swallowed |
| DepartamentosService.RestoreColabs | src/services/departamentosService.ts:148-160 | the updated employees written back, errors swallowed |
| DepartamentosService.Undo | src/services/departamentosService.ts:147-163 | rosters, then employees, then the last write; every error swallowed |
| DepartamentosService.AssignedToAssigns | src/services/departamentosService.ts:104-117 | the moves assign the department to exactly the listed ids |
| DepartamentosService.AssignedToRestores | src/services/departamentosService.ts:272-285 | the compensation writes an employee back to its previous department |
| DepartamentosService.WriteOrUndo | src/services/departamentosService.ts:220-292 | the plan's writes; on the first error, the compensation, and the error is passed on |
| DepartamentosService.RestoreCall | src/services/departamentosService.ts:286-290 | the write that puts back the department's name, manager and roster |
| DepartamentosService.EditWrites | src/services/departamentosService.ts:205-292 | the edit's writes after the department is saved |
| DepartamentosService.UpdateDepartamentoEAtualizarColaboradores | src/services/departamentosService.ts:184-293 | removed employees with no destination: fails with no call. Otherwise saves the department first (a failure there changes nothing). Then: the adds, the roster pruning, the removals, in order; on an error, the compensation and the error |
| DepartamentosService.EditSucceededMovesEmployees | src/services/departamentosService.ts:184-264 | after a successful edit, removed employees are in the destination, added ones in the saved name, everyone else unchanged |
| DepartamentosService.EditFailedRestoresEmployees | src/services/departamentosService.ts:266-292 | after a failed edit whose compensation went through, each moved employee is back in its previous department |
| DepartamentosService.EditPreviousOf | src/services/departamentosService.ts:212-214 | with a map keyed by id, removed employees go back to the department's name, added ones to their own department |
| DepartamentosService.EditUpdatedUnique | src/services/departamentosService.ts:205-264 | the employees an edit records as updated share no id |
| DepartamentosService.Selected | src/services/departamentosService.ts:98-99 | the selected employees whose ids the input lists |
| DepartamentosService.PruneOrRestore | src/services/departamentosService.ts:122-145 | the roster writes; on an error, the snapshots written back and the error passed on |
| DepartamentosService.ListAndPrune | src/services/departamentosService.ts:118-145 | lists the departments, then prunes the moved employees from the others |
| DepartamentosService.CreateWrites | src/services/departamentosService.ts:104-163 | the moves, the listing and pruning, and the compensation on an error |
| DepartamentosService.CriarDepartamentoEAtualizarColaboradores | src/services/departamentosService.ts:93-164 | creates first (a failure changes nothing). With no selected employee, done. Otherwise moves them, lists, prunes, and on an error undoes the moves and deletes the new department |
| DepartamentosService.CreateSucceededMovesEmployees | src/services/departamentosService.ts:104-137 | after success, the selected employees are in the new department |
| DepartamentosService.CreateSucceededDeletesNothing | src/services/departamentosService.ts:93-137 | a successful create deletes no department |
| DepartamentosService.CriarSucceeded | src/services/departamentosService.ts:93-137 | on success the new department is stored, the listed selected employees are in it, everyone else unchanged |
| DepartamentosService.CriarFailed | src/services/departamentosService.ts:138-163 | a failed create changes nothing; a later failure whose compensation went through leaves no new department and the moved employees back where they were |
| DepartamentosService.CreateFailedRestoresEmployees | src/services/departamentosService.ts:147-163 | when every compensating call went through, the moved employees are back where they were |
| UseDepartamentos.NamesOf | src/pages/Departamentos/hooks/useDepartamentos.ts:28-31 | the names record has exactly the listed employees' ids as keys |
| UseDepartamentos.NamesOfLastWins | src/pages/Departamentos/hooks/useDepartamentos.ts:29-31 | an id maps to its employee's name unless a later one with that id has another name |
| UseDepartamentos.NamesOfDistinct | src/pages/Departamentos/hooks/useDepartamentos.ts:28-31 | with distinct ids each employee's id maps to its own name |
| UseDepartamentos.DepartamentosState.constructor | src/pages/Departamentos/hooks/useDepartamentos.ts:11-18 | the initial state: loading, nothing chosen |
| UseDepartamentos.DepartamentosState.CanDelete | src/pages/Departamentos/hooks/useDepartamentos.ts:85-87 | a department is chosen and its roster is empty |
| UseDepartamentos.DepartamentosState.Load | src/pages/Departamentos/hooks/useDepartamentos.ts:20-39 | on success the list and the names record; on failure the toast with the user message; loading ends either way |
| UseDepartamentos.DepartamentosState.StartLoad | src/pages/Departamentos/hooks/useDepartamentos.ts:20-21 | a reload starts by showing the page as loading, nothing else changes |
| UseDepartamentos.BuildNames | src/pages/Departamentos/hooks/useDepartamentos.ts:28-31 | the `forEach` loop fills exactly the names record `NamesOf` describes |
| UseDepartamentos.DepartamentosState.OpenConfirmDelete | src/pages/Departamentos/hooks/useDepartamentos.ts:45-48 | chooses the department and opens the dialog |
| UseDepartamentos.DepartamentosState.CloseConfirmDelete | src/pages/Departamentos/hooks/useDepartamentos.ts:50-55 | nothing during a delete; otherwise closes and clears the choice |
| UseDepartamentos.DepartamentosState.StartDelete | src/pages/Departamentos/hooks/useDepartamentos.ts:57-69 | nothing without a choice; a department with employees is refused with the toast and no call; otherwise the delete is issued; only departments with no employees are ever issued |
| UseDepartamentos.DepartamentosState.DeleteSettled | src/pages/Departamentos/hooks/useDepartamentos.ts:70-82 | success removes that id from the list, closes the dialog and confirms; failure keeps the list and shows the user message |
| UseDepartamentos.DepartamentosState.EndDelete | src/pages/Departamentos/hooks/useDepartamentos.ts:75-82 | either outcome shows the toast with its message and ends the delete; nothing else changes |
| FormatBr.GroupThousandsShape | src/utils/formatBr.ts:10 | dots exactly every three digits from the right, never first; digits elsewhere |
| FormatBr.TwoDigits | src/utils/formatBr.ts:8-9 | two digits whose value is the cents |
| FormatBr.FormatBrCurrency | src/utils/formatBr.ts:6-12 | '0,00' for NaN or a negative amount; otherwise ends with ',' and two digits |
| FormatBr.ParseBrCurrency | src/utils/formatBr.ts:15-19 | NaN exactly when there is no digit; never negative |
| FormatBr.MaskBrCurrencyInput | src/utils/formatBr.ts:22-26 | empty exactly when the input has no digit |
| FormatBr.GroupThousandsDigits | src/utils/formatBr.ts:10 | dropping the dots gives the digits back |
| FormatBr.FormatDigits | src/utils/formatBr.ts:6-12 | the digits of a formatted amount are the reais then the two cent digits |
| FormatBr.ParseFormat | src/utils/formatBr.ts:6-19 | parsing a formatted amount gives it back |
| FormatBr.ParseMask | src/utils/formatBr.ts:15-26 | parsing masked input gives the input's digits read as cents |
| FormatBr.MaskIdempotent | src/utils/formatBr.ts:22-26 | masking masked input changes nothing |
| AuthService.ToAuthUser | src/services/authService.ts:9-11 | keeps the uid and the e-mail |
| AuthService.FirebaseCodeToServiceCode | src/services/authService.ts:13-36 | the credential codes map to invalid-credentials; a missing or unlisted code to unknown; every other code to its namesake |
| AuthService.NamedCodesRoundTrip | src/services/authService.ts:13-36 | each named service code comes back from its Firebase code |
| AuthService.WrapAuthError | src/services/authService.ts:38-49 | always a service error. A service error is rethrown unchanged. A gateway error gets the mapped code and its message, or the default message when empty. Anything else is unknown, with its message or the default |
| AuthService.Authenticate | src/services/authService.ts:57-73 | success exactly when the gateway succeeds, with its user; otherwise the wrapped error |
| AuthService.WrapIdempotent | src/services/authService.ts:38-49 | wrapping what was wrapped changes nothing |
| Cadastro.EmailError | src/pages/Cadastro.tsx:52-53 | 'required' exactly when blank; 'invalid' exactly when not blank and the trimmed address fails the check; none otherwise |
| Cadastro.Validate | src/pages/Cadastro.tsx:50-61 | the e-mail rule; password required, then at least eight characters; confirmation required, then equal |
| Cadastro.Submit | src/pages/Cadastro.tsx:63-75 | sends exactly when no rule fails, the trimmed e-mail and the password |
| Cadastro.SubmittedIsWellFormed | src/pages/Cadastro.tsx:63-75 | what is sent is a well-formed trimmed address and a confirmed password of at least eight characters |
| Cadastro.CodeText | src/pages/Cadastro.tsx:12-33 | the page has no text exactly for invalid-credentials, disabled and unknown |
| Cadastro.ToCadastroErrorMessage | src/pages/Cadastro.tsx:12-33 | the code's text when the page has one; otherwise the error's message, or the fallback when empty; never empty |
| Cadastro.RegisterFailureShowsCodeText | src/pages/Cadastro.tsx:12-33 | a Firebase code the page has a text for, thrown by the gateway and wrapped by the service, reaches the user as exactly that text |
| Login.Validate | src/pages/Login.tsx:42-49 | the sign-up e-mail rule; a password is only required to be non-empty |
| Login.Submit | src/pages/Login.tsx:51-63 | sends exactly when both rules pass, the trimmed e-mail and the password |
| Login.SubmittedIsWellFormed | src/pages/Login.tsx:51-63 | a sent sign-in carries a well-formed address and a password |
| Login.FirebaseCodeText | src/pages/Login.tsx:14-25 | credential codes give the wrong-credentials text; a text only for a known code |
| Login.ToLoginErrorMessage | src/pages/Login.tsx:11-30 | the text of a known Firebase code in the cause; otherwise the message or the fallback; never empty |
| Login.SignInFailureShowsWrappedMessage | src/services/authService.ts:57-64 | what the service throws always shows its own message: the Firebase code branch never applies |
| Login.WrongPasswordShownAsGatewayMessage | src/pages/Login.tsx:14-25 | a wrong password shows 'Erro ao autenticar', not the wrong-credentials text |
| Login.ServiceCodeText | src/pages/Login.tsx:14-25 | a text for exactly the four service codes the page meant to name |
| Login.ToLoginServiceErrorMessage | src/pages/Login.tsx:11-30 | the page's texts read from the service code; otherwise message or fallback |
| Login.ServiceMessageMatchesPageIntent | src/pages/Login.tsx:11-30 | reading the service code gives, for every gateway error, the message the page meant |
| Validation.RulesMeaning | src/services/colaboradores/validation.ts:12-51 | each field's rule fails exactly when: blank name; bad e-mail; no department; unknown status; no role; no date; unknown level; no positive salary; no manager for a non-manager, checked only when no enum or number failure aborted the object |
| Validation.SafeParse | src/services/colaboradores/validation.ts:12-51 | succeeds exactly when there is no issue, with trimmed name and e-mail; otherwise the issues |
| Validation.ParsesIffRulesHold | src/services/colaboradores/validation.ts:12-51 | the parse succeeds exactly when every rule holds |
| Validation.ParsedIsWellFormed | src/services/colaboradores/validation.ts:12-51 | parsed data has a non-empty trimmed name, a well-formed trimmed e-mail, a known level and status, a positive salary, and a manager for non-managers |
| Validation.JoinPath | src/services/colaboradores/validation.ts:69 | an empty path is '', one part is that part, more are non-empty |
| Validation.FieldErrorsKeys | src/services/colaboradores/validation.ts:67-74 | the keys are exactly the non-empty paths of the issues |
| Validation.FieldErrorsFirst | src/services/colaboradores/validation.ts:70-72 | each key holds the message of its first issue |
| Validation.GetFieldErrors | src/services/colaboradores/validation.ts:61-75 | empty on success; otherwise the first message per path |
| Validation.FieldErrorsAppend | src/services/colaboradores/validation.ts:67-74 | later issues never override earlier ones |
| Validation.RuleErrorsLookup | src/services/colaboradores/validation.ts:12-51 | a field is a key exactly when listed and failing, with its rule's message |
| Validation.IssuesOfErrors | src/services/colaboradores/validation.ts:61-75 | the field errors of the rules' issues are the failing rules' messages |
| Validation.SchemaFieldErrors | src/services/colaboradores/validation.ts:12-75 | each field of the form shows exactly the message of its failing rule |
| Validation.GestorRule | src/services/colaboradores/validation.ts:40-51 | the manager key is present exactly when the level is not 'gestor', the trimmed manager id is empty, and status, level and salary passed their type checks (otherwise the refinement is skipped) |
| NovoColaborador.NomeError | src/pages/NovoColaborador.tsx:50-51 | no error exactly when the name is not blank |
| NovoColaborador.Request | src/pages/NovoColaborador.tsx:80-84 | active exactly when the switch is on |
| NovoColaborador.RequestWellFormed | src/pages/NovoColaborador.tsx:66-86 | a request built from accepted fields is well-formed |
| NovoColaborador.NovoColaboradorPage.constructor | src/pages/NovoColaborador.tsx:33-44 | step 0, empty fields, switch on, nothing sent |
| NovoColaborador.NovoColaboradorPage.Progress | src/pages/NovoColaborador.tsx:46 | 0 on step 0 and 50 on step 1 |
| NovoColaborador.NovoColaboradorPage.EditNome | src/pages/NovoColaborador.tsx:195-198 | sets the name and clears its error; nothing else changes |
| NovoColaborador.NovoColaboradorPage.EditEmail | src/pages/NovoColaborador.tsx:209-212 | sets the e-mail and clears its error |
| NovoColaborador.NovoColaboradorPage.SetAtivar | src/pages/NovoColaborador.tsx:224 | sets the switch |
| NovoColaborador.NovoColaboradorPage.SelectDepartamento | src/pages/NovoColaborador.tsx:248-251 | sets the department and clears its error |
| NovoColaborador.NovoColaboradorPage.ValidateStep0 | src/pages/NovoColaborador.tsx:48-55 | passes exactly when name and e-mail are accepted; merges the new errors over the old |
| NovoColaborador.NovoColaboradorPage.ValidateStep1 | src/pages/NovoColaborador.tsx:57-64 | passes exactly when a department is chosen |
| NovoColaborador.NovoColaboradorPage.HandleNext | src/pages/NovoColaborador.tsx:66-86 | step 0 either merges the name and e-mail errors found over the old ones and stays, or clears the errors and moves on; step 1 either asks for a department or sends the request |
| NovoColaborador.NovoColaboradorPage.RequestSettled | src/pages/NovoColaborador.tsx:85 | leaves the page on success, toast on failure |
| NovoColaborador.NovoColaboradorPage.HandleBack | src/pages/NovoColaborador.tsx:88-94 | one step back, or leaves from step 0 |
| NovoDepartamento.Gestores | src/pages/Departamentos/NovoDepartamento.tsx:34 | exactly the employees of level 'gestor', in order |
| NovoDepartamento.Validate | src/pages/Departamentos/NovoDepartamento.tsx:44-50 | name and manager each required when blank |
| NovoDepartamento.Input | src/pages/Departamentos/NovoDepartamento.tsx:54-58 | the roster is the selected ids; no description or acronym |
| NovoDepartamento.InputReachesService | src/pages/Departamentos/NovoDepartamento.tsx:52-60 | an accepted form reaches the service trimmed and non-empty, with the selected ids in order |
| NovoDepartamento.SuccessMessage | src/pages/Departamentos/NovoDepartamento.tsx:62-65 | starts with 'Departamento criado.'; is exactly that when nobody was linked |
| NovoDepartamento.SuccessMessageInjective | src/pages/Departamentos/NovoDepartamento.tsx:62-65 | the message tells how many employees were linked |
| NovoDepartamento.NovoDepartamentoPage.constructor | src/pages/Departamentos/NovoDepartamento.tsx:25-32 | empty form, loading |
| NovoDepartamento.NovoDepartamentoPage.Loaded | src/pages/Departamentos/NovoDepartamento.tsx:36-42 | the list, or empty on failure; loading ends |
| NovoDepartamento.NovoDepartamentoPage.EditNome | src/pages/Departamentos/NovoDepartamento.tsx:99-102 | sets the name, clears its error |
| NovoDepartamento.NovoDepartamentoPage.SelectGestor | src/pages/Departamentos/NovoDepartamento.tsx:137-141 | sets the manager, clears its error |
| NovoDepartamento.NovoDepartamentoPage.SetSelecionados | src/pages/Departamentos/NovoDepartamento.tsx:175 | replaces the selection |
| NovoDepartamento.NovoDepartamentoPage.HandleSubmit | src/pages/Departamentos/NovoDepartamento.tsx:52-60 | stores the errors; with none, sends the input |
| NovoDepartamento.NovoDepartamentoPage.RequestSettled | src/pages/Departamentos/NovoDepartamento.tsx:61-69 | back to the list with the count message, or the toast |
| NovoDepartamento.NovoDepartamentoPage.Cancel | src/pages/Departamentos/NovoDepartamento.tsx:224 | back to the list without a message |
| EditarDepartamento.RemovidosCount | src/pages/Departamentos/EditarDepartamento.tsx:60-64 | 0 without a department; at most the roster's length |
| EditarDepartamento.RemovidosCountZero | src/pages/Departamentos/EditarDepartamento.tsx:60-64 | nothing removed exactly when every roster id is selected |
| EditarDepartamento.ValidateAsWritten | src/pages/Departamentos/EditarDepartamento.tsx:104-116 | the code's rules with their fixed messages: name and manager required exactly when blank; a blank destination with removed employees gives the choose-destination message, overwriting the no-other-department one, which remains only when the destination is not blank |
| EditarDepartamento.NoOtherDepartmentNeverShown | src/pages/Departamentos/EditarDepartamento.tsx:108-113 | as written, 'Cadastre outro departamento…' is never shown |
| EditarDepartamento.Validate | src/pages/Departamentos/EditarDepartamento.tsx:104-116 | as meant: no other department is said so; a blank destination is asked for only when one exists |
| EditarDepartamento.CorrectionKeepsDecision | src/pages/Departamentos/EditarDepartamento.tsx:104-116 | both versions reject the same forms |
| EditarDepartamento.Input | src/pages/Departamentos/EditarDepartamento.tsx:121-125 | trimmed name and manager, the selected ids as roster |
| EditarDepartamento.Destino | src/pages/Departamentos/EditarDepartamento.tsx:126-127 | the trimmed choice when someone was removed, else the department's own name |
| EditarDepartamento.PageAndServiceAgreeOnRemovals | src/pages/Departamentos/EditarDepartamento.tsx:60-64 | the page counts removals exactly when the service finds some |
| EditarDepartamento.AcceptedPassesServiceGuard | src/services/departamentosService.ts:197-201 | an accepted form passes the service's destination check |
| EditarDepartamento.FindDepartamento | src/pages/Departamentos/EditarDepartamento.tsx:76 | a department with that id, or none exactly when none has it |
| EditarDepartamento.FindColaborador | src/pages/Departamentos/EditarDepartamento.tsx:82 | an employee with that id, or none exactly when none has it |
| EditarDepartamento.Vinculados | src/pages/Departamentos/EditarDepartamento.tsx:81-83 | only loaded employees |
| EditarDepartamento.VinculadosIds | src/pages/Departamentos/EditarDepartamento.tsx:81-83 | an id is selected exactly when on the roster and loaded |
| EditarDepartamento.LoadedRemovalsAreUnknownIds | src/pages/Departamentos/EditarDepartamento.tsx:60-83 | right after loading, the removals are the roster ids no loaded employee carries |
| EditarDepartamento.SaveErrorMessage | src/pages/Departamentos/EditarDepartamento.tsx:139-143 | the error's message when non-empty, else the fixed text |
| EditarDepartamento.AfterLoadValid | src/pages/Departamentos/EditarDepartamento.tsx:72-90 | loading keeps the page state valid |
| EditarDepartamento.EditarDepartamentoPage.constructor | src/pages/Departamentos/EditarDepartamento.tsx:33-48 | empty form; loading unless the route has no id |
| EditarDepartamento.EditarDepartamentoPage.LoadSucceeded | src/pages/Departamentos/EditarDepartamento.tsx:72-90 | the lists, the department found, the filled form and default destination |
| EditarDepartamento.EditarDepartamentoPage.StoreLists | src/pages/Departamentos/EditarDepartamento.tsx:74-77 | stores both lists and the department found (or none) and ends loading, nothing else |
| EditarDepartamento.EditarDepartamentoPage.FillForm | src/pages/Departamentos/EditarDepartamento.tsx:78-88 | name, manager, roster employees, and the first other department as destination |
| EditarDepartamento.EditarDepartamentoPage.LoadRejected | src/pages/Departamentos/EditarDepartamento.tsx:91-95 | the load-failure toast; loading ends |
| EditarDepartamento.EditarDepartamentoPage.DefaultDestinoEffect | src/pages/Departamentos/EditarDepartamento.tsx:98-102 | fills an empty destination with the first other department |
| EditarDepartamento.EditarDepartamentoPage.EditNome | src/pages/Departamentos/EditarDepartamento.tsx:197-200 | sets the name, clears its error |
| EditarDepartamento.EditarDepartamentoPage.SelectGestor | src/pages/Departamentos/EditarDepartamento.tsx:235-239 | sets the manager, clears its error |
| EditarDepartamento.EditarDepartamentoPage.SetSelecionados | src/pages/Departamentos/EditarDepartamento.tsx:280 | replaces the selection |
| EditarDepartamento.EditarDepartamentoPage.SelectDestino | src/pages/Departamentos/EditarDepartamento.tsx:360-363 | sets the destination, clears its error |
| EditarDepartamento.EditarDepartamentoPage.HandleSubmit | src/pages/Departamentos/EditarDepartamento.tsx:118-136 | stores the errors of `validate` as written (`ValidateAsWritten`); with none, a route id and a department, sends the edit |
| EditarDepartamento.EditarDepartamentoPage.Send | src/pages/Departamentos/EditarDepartamento.tsx:129-137 | a well-formed request is recorded as sent and submitting starts; the page stays valid |
| EditarDepartamento.EditarDepartamentoPage.RequestSettled | src/pages/Departamentos/EditarDepartamento.tsx:137-146 | back to the list, or the error toast |
| UseColaboradores.LexLessTrichotomy | src/pages/Colaboradores/hooks/useColaboradores.ts:31-32 | two strings are equal or one is before the other |
| UseColaboradores.LexLessTransitive | src/pages/Colaboradores/hooks/useColaboradores.ts:31-32 | string order is transitive |
| UseColaboradores.Compare | src/pages/Colaboradores/hooks/useColaboradores.ts:28-34 | -1, 0 or 1 exactly as the field is before, equal to or after |
| UseColaboradores.CmpAntisymmetric | src/pages/Colaboradores/hooks/useColaboradores.ts:117-120 | swapping the rows negates the comparator |
| UseColaboradores.LeTotal | src/pages/Colaboradores/hooks/useColaboradores.ts:117-120 | the comparator orders every pair |
| UseColaboradores.LeTransitive | src/pages/Colaboradores/hooks/useColaboradores.ts:117-120 | the comparator's order is transitive |
| UseColaboradores.Sink | src/pages/Colaboradores/hooks/useColaboradores.ts:117-120 | one insertion pass: extends the sorted prefix by one and keeps the rows |
| UseColaboradores.SortRows | src/pages/Colaboradores/hooks/useColaboradores.ts:115-122 | sorted by the comparator and a permutation of the rows |
| UseColaboradores.Needle | src/pages/Colaboradores/hooks/useColaboradores.ts:41-42 | empty exactly when the filter is absent or blank |
| UseColaboradores.FilterRows | src/pages/Colaboradores/hooks/useColaboradores.ts:44-48 | exactly the matching rows, in order, each as many times as in the list |
| UseColaboradores.ApplyLocalFilters | src/pages/Colaboradores/hooks/useColaboradores.ts:37-49 | no needle gives the list itself; otherwise exactly the matching rows, in order |
| UseColaboradores.ApplyLocalFiltersIdempotent | src/pages/Colaboradores/hooks/useColaboradores.ts:37-49 | filtering twice is filtering once |
| UseColaboradores.NextSort | src/pages/Colaboradores/hooks/useColaboradores.ts:94-98 | the column asked for; descending only when it was already ascending |
| UseColaboradores.NextSortAlternates | src/pages/Colaboradores/hooks/useColaboradores.ts:94-98 | asking twice reverses the direction |
| UseColaboradores.Toggle | src/pages/Colaboradores/hooks/useColaboradores.ts:124-131 | the id changes side; no other id does |
| UseColaboradores.ToggleTwice | src/pages/Colaboradores/hooks/useColaboradores.ts:124-131 | toggling twice restores the selection |
| UseColaboradores.SelectAll | src/pages/Colaboradores/hooks/useColaboradores.ts:133-139 | clears when all shown rows are selected; otherwise selects exactly the shown rows |
| UseColaboradores.SelectAllTwice | src/pages/Colaboradores/hooks/useColaboradores.ts:133-139 | from a partial selection, select-all twice clears |
| UseColaboradores.SelectAllSameRows | src/pages/Colaboradores/hooks/useColaboradores.ts:135 | the sort order does not matter to select-all |
| UseColaboradores.Merge | src/pages/Colaboradores/hooks/useColaboradores.ts:76-78 | every key passed replaces the draft's, also when passed as `undefined`; keys not passed stay |
| UseColaboradores.OrUndefined | src/components/colaboradores/ColaboradoresFilters.tsx:89 | an emptied field passes `undefined`, any other text passes itself |
| UseColaboradores.FieldChange | src/components/colaboradores/ColaboradoresFilters.tsx:89-125 | each field passes only its own key, always, with its value or `undefined` |
| UseColaboradores.EmptyFieldClears | src/components/colaboradores/ColaboradoresFilters.tsx:89-125 | emptying a field or choosing all departments clears that key of the draft and only it |
| UseColaboradores.MergeIdempotent | src/pages/Colaboradores/hooks/useColaboradores.ts:76-78 | merging the same patch twice is merging once |
| UseColaboradores.ValidateEdit | src/pages/Colaboradores/hooks/useColaboradores.ts:201-209 | blank name, the sign-up e-mail rule, and an empty department each give their error |
| UseColaboradores.AcceptedEditWellFormed | src/pages/Colaboradores/hooks/useColaboradores.ts:201-209 | an accepted edit builds a well-formed request |
| UseColaboradores.BulkDeletedMessage | src/pages/Colaboradores/hooks/useColaboradores.ts:167-171 | the singular exactly for one; the plural phrase otherwise |
| UseColaboradores.BulkDeletedMessageInjective | src/pages/Colaboradores/hooks/useColaboradores.ts:167-171 | the toast tells how many employees were deleted |
| UseColaboradores.ColaboradoresState.constructor | src/pages/Colaboradores/hooks/useColaboradores.ts:52-74 | the initial state: loading, sorted by name ascending |
| UseColaboradores.ColaboradoresState.SortedColaboradores | src/pages/Colaboradores/hooks/useColaboradores.ts:110-122 | sorted, a permutation of the filtered rows, exactly the matching rows |
| UseColaboradores.ColaboradoresState.LoadSettled | src/pages/Colaboradores/hooks/useColaboradores.ts:141-152 | the list on success; empty list and toast on failure; loading ends |
| UseColaboradores.ColaboradoresState.HandleRequestSort | src/pages/Colaboradores/hooks/useColaboradores.ts:94-98 | the next column and direction |
| UseColaboradores.ColaboradoresState.ToggleRow | src/pages/Colaboradores/hooks/useColaboradores.ts:124-131 | toggles that id |
| UseColaboradores.ColaboradoresState.ToggleSelectAll | src/pages/Colaboradores/hooks/useColaboradores.ts:133-139 | select-all over the filtered rows |
| UseColaboradores.ColaboradoresState.OnFilterChange | src/pages/Colaboradores/hooks/useColaboradores.ts:76-78 | merges the patch into the draft, nothing else changes |
| UseColaboradores.ColaboradoresState.OnApplyFilters | src/pages/Colaboradores/hooks/useColaboradores.ts:80-82 | the draft becomes the applied filters; the list reloads exactly when the applied department changes |
| UseColaboradores.ColaboradoresState.OnClearFilters | src/pages/Colaboradores/hooks/useColaboradores.ts:84-87 | both cleared; the list reloads exactly when a department was applied |
| UseColaboradores.ColaboradoresState.StartLoad | src/pages/Colaboradores/hooks/useColaboradores.ts:141-143 | a load shows loading and asks for the list with the applied department filter |
| UseColaboradores.ColaboradoresState.SyncFiltersFromApplied | src/pages/Colaboradores/hooks/useColaboradores.ts:90-92 | the applied filters are copied into the draft; nothing else changes |
| UseColaboradores.ColaboradoresState.StartBulkDelete | src/pages/Colaboradores/hooks/useColaboradores.ts:158-162 | nothing when the selection is empty; otherwise the delete is issued; no empty set is ever issued |
| UseColaboradores.ColaboradoresState.BulkDeleteSettled | src/pages/Colaboradores/hooks/useColaboradores.ts:163-179 | success clears the selection, reloads, closes and counts; failure closes and shows `toUserMessage` of the error |
| UseColaboradores.ColaboradoresState.CloseBulk | src/pages/Colaboradores/hooks/useColaboradores.ts:166-178 | either outcome closes the dialog, shows the toast with its message and ends the delete |
| ColaboradoresPage.ActiveFiltersCount | src/pages/Colaboradores/ColaboradoresPage.tsx:21-25 | at most 3; 0 exactly when none counts; 3 exactly when all count |
| ColaboradoresPage.WhiteSpaceNotCounted | src/pages/Colaboradores/ColaboradoresPage.tsx:21-25 | a white-space value counts as no value |
| ColaboradoresPage.FiltrosLabel | src/pages/Colaboradores/ColaboradoresPage.tsx:95 | starts with 'Filtros'; exactly that when none is active |
| ColaboradoresPage.FiltrosLabelInjective | src/pages/Colaboradores/ColaboradoresPage.tsx:95 | the label tells the count |
| ColaboradoresPage.BulkDeleteText | src/pages/Colaboradores/ColaboradoresPage.tsx:198-200 | ends with the irreversibility warning; the singular exactly for one |
| ColaboradoresPage.BulkDeleteTextInjective | src/pages/Colaboradores/ColaboradoresPage.tsx:198-200 | the question tells the count |

## Left out

- Firebase and Firestore I/O: the SDK calls, `onAuthStateChanged` and `logout` (`src/services/authService.ts:51-78`) are not part of this model. Gateway outcomes are parameters, and the repository is the store of `document_store.dfy` with a failure oracle.
- `withTimeout` (`src/services/departamentosService.ts:49-56`): a call that times out is modelled only when the write also failed, through the failure oracle. `Promise.race` does not cancel the write, so a write that times out and lands later (an error reported, yet the document changed) is not modelled. `listarDepartamentos`, `criarDepartamento`, `updateDepartamento` and `deleteDepartamento` are one repository call each, behind that timeout. The store's methods model them.
- Floating-point salaries: `salarioBase` is an optional real, and `formatBr` works on integer cents. `toFixed(2)` rounding of fractions of a cent is not modelled.
- `String.prototype` details: lengths count characters, not UTF-16 code units. `<` on strings compares characters. `toLowerCase` covers ASCII and Latin-1 only.
- `zod` internals: issues are listed in the schema's field order, with the manager refinement last. An issue is reduced to its path and message; zod's issue codes are not modelled.
- JSX, routing, snackbars, concurrency between handlers, and React's batching of updates are not modelled.
- `back-end/data/firebase/colaborador.collection.ts` is not part of this model. Employee writes in the store follow the mock's `atualizar`.
- Repositories.Store.Criar: the model appends the new id at the end of the listing order. `listar` calls `getDocs` without `orderBy`, so Firestore lists documents by document id, and `addDoc` picks a random id; the new department can land anywhere in the next listing. No stated property depends on where it lands: the only later listing, in `ListAndPrune`, skips the new id.
- DepartamentosService.CriarFailed and DepartamentosService.EditFailedRestoresEmployees: these assume that every compensating call went through. A compensation that itself fails leaves the state unspecified beyond the rosters and employees written back.
- DepartamentosService.CreateFailedRestoresEmployees: requires `CompensationWentThrough`, that every compensating employee write and the department delete went through. The source swallows errors of those calls (`src/services/departamentosService.ts:147-163`). When one fails, the model promises only the order of the compensating calls (`CreateOutcome`), not that the employees are back where they were.
- In `useColaboradores`, the edit drawer's submit, the single delete, `openEdit` and `closeEdit` are not modelled. The drawer's rule is `ValidateEdit`.
- UseColaboradores.SortRows: stability is not claimed. The model is an insertion sort; `Array.prototype.sort` is proved only sorted and a permutation.
- The employee's other fields (`cargo`, `dataAdmissao`, `nivelHierarquico`, `gestorId`, `salarioBase`) are passed in each employee write of `criarDepartamento` and `updateDepartamento` (`src/services/departamentosService.ts:105-115`, and likewise at lines 149-158, 221, 252 and 274). The mock's `atualizar` (`back-end/data/mocks/colaboradores.mock.ts:65-80`) merges only `nome`, `email`, `departamento` and `status`, so the employee patch of the model carries only those four.
- ColaboradoresMock.ProximoIdFresh: holds for unbounded integers. The source computes with doubles: above 2^53 `parseInt` and `max + 1` round, so an id of "9007199254740992" gives the next id "9007199254740992" again, a duplicate. ColaboradoresMock.ProximoId has the same bound.
- DepartamentoCollection.DocToDTO and DepartamentoCollection.OptionalString: the source copies `descricao` and `sigla` whenever they are not `undefined` (`back-end/data/firebase/departamento.collection.ts:53-54`), so a stored `null` or number reaches the record. The model keeps only string values and drops any other.
- FormatBr.FormatBrCurrency: amounts are integer cents. `toFixed(2)` switches to exponent form from 1e21 on, and `parseInt(digits) / 100` in `parseBrCurrency` loses precision beyond about 15 significant digits; neither is modelled, so `FormatBr.ParseFormat` holds for every amount in the model but not for such large ones in the source.
- Test files that disagree with the code; the model follows the code:
  - `src/pages/Departamentos/NovoDepartamento.test.tsx:36-56` expects a department created without a manager, but `validate` (`NovoDepartamento.tsx:47`) requires one.
  - `src/pages/Departamentos/EditarDepartamento.test.tsx:33,88-95` expects a save with an empty manager id, which the page's `validate` also refuses.
  - `src/pages/Colaboradores/ColaboradoresPage.tsx:30-92` destructures fields the hook does not return. Only the returned ones are modelled.

## Findings

| source | as written | input that shows it | evidently intended | confidence | as-written member | corrected member |
|---|---|---|---|---|---|---|
| src/pages/Login.tsx:11-30 | The page reads a Firebase code from `err.cause`. But `login` (`src/services/authService.ts:57-64`) always throws an `AuthServiceError` with the code already mapped. So the code branch never applies, and the gateway's message shows instead | sign-in with a wrong password: the gateway throws `AuthError('Erro ao autenticar', {code: 'auth/wrong-password'})` and the page shows 'Erro ao autenticar' | 'E-mail ou senha incorretos.' | not executed | Login.WrongPasswordShownAsGatewayMessage | Login.ServiceMessageMatchesPageIntent |
| src/pages/Departamentos/EditarDepartamento.tsx:108-113 | The second `if` overwrites `destinoRemovidos`. With no other department the destination is empty, so the message is always the 'choose a destination' one | an edit that removes an employee when no other department exists | 'Cadastre outro departamento para transferir os colaboradores removidos.' | not executed | EditarDepartamento.NoOtherDepartmentNeverShown | EditarDepartamento.Validate |

=== FILE: auth_service.dfy ===
/**
 * The authentication service's pure part (`authService.ts`): the user
 * record handed to the pages, the mapping from Firebase error codes to the
 * service's own codes, and the wrapping of whatever the gateway throws
 * into an `AuthServiceError`.
 */
module AuthService {
  import opened Opt
  import opened Errors

  /** A signed-in user, in the domain and in the service's contract alike. */
  datatype AuthUser = AuthUser(uid: string, email: Option<string>)

  /** `toAuthUser(d)`: the uid and the e-mail. */
  function ToAuthUser(d: AuthUser): (r: AuthUser)
    ensures r.uid == d.uid && r.email == d.email
  {
    AuthUser(d.uid, d.email)
  }

  /** The Firebase code each service code other than the credential and
      unknown ones comes from: the same name under `auth/`. */
  function FirebaseCode(c: ServiceCode): string
    requires c != InvalidCredentials && c != Unknown
  {
    match c
    case EmailAlreadyInUse => "auth/email-already-in-use"
    case InvalidEmail => "auth/invalid-email"
    case WeakPassword => "auth/weak-password"
    case TooManyRequests => "auth/too-many-requests"
    case NetworkRequestFailed => "auth/network-request-failed"
    case UserDisabled => "auth/user-disabled"
    case OperationNotAllowed => "auth/operation-not-allowed"
  }

  /** The three Firebase codes that mean wrong e-mail or password. */
  const CredentialCodes: set<string> := {"auth/invalid-credential", "auth/user-not-found", "auth/wrong-password"}

  /** The seven other Firebase codes the service knows. */
  const NamedCodes: set<string> := {
    "auth/email-already-in-use", "auth/invalid-email", "auth/weak-password",
    "auth/too-many-requests", "auth/network-request-failed", "auth/user-disabled",
    "auth/operation-not-allowed"
  }

  /** `firebaseCodeToServiceCode(code)`; `None` is a missing code. */
  function FirebaseCodeToServiceCode(code: Option<string>): (r: ServiceCode)
    ensures r == InvalidCredentials <==> code.Some? && code.value in CredentialCodes
    ensures r == Unknown <==> code.None? || (code.value !in CredentialCodes && code.value !in NamedCodes)
    ensures r != InvalidCredentials && r != Unknown ==> code == Some(FirebaseCode(r))
  {
    match code
    case None => Unknown
    case Some(c) =>
      if c == "auth/invalid-credential" || c == "auth/user-not-found" || c == "auth/wrong-password" then InvalidCredentials
      else if c == "auth/email-already-in-use" then EmailAlreadyInUse
      else if c == "auth/invalid-email" then InvalidEmail
      else if c == "auth/weak-password" then WeakPassword
      else if c == "auth/too-many-requests" then TooManyRequests
      else if c == "auth/network-request-failed" then NetworkRequestFailed
      else if c == "auth/user-disabled" then UserDisabled
      else if c == "auth/operation-not-allowed" then OperationNotAllowed
      else Unknown
  }

  /** Each named code maps back to the service code it is named after. */
  lemma NamedCodesRoundTrip(c: ServiceCode)
    requires c != InvalidCredentials && c != Unknown
    ensures FirebaseCode(c) in NamedCodes
    ensures FirebaseCodeToServiceCode(Some(FirebaseCode(c))) == c
  {
  }

  /** `cause?.code` of an `AuthError`. */
  function CauseCode(cause: Cause): Option<string> {
    match cause
    case CauseWithCode(code) => code
    case _ => None
  }

  /** The message of an `Error`, `defaultMessage` for any other thrown value. */
  function MessageOr(err: Thrown, defaultMessage: string): string {
    if err.NonError? then defaultMessage else err.message
  }

  /** `wrapAuthError(err, defaultMessage)`, which never returns: what it throws. */
  function WrapAuthError(err: Thrown, defaultMessage: string): (r: Thrown)
    ensures r.AuthServiceError?
    ensures err.AuthServiceError? ==> r == err
    ensures err.AuthError? ==>
      && r.code == FirebaseCodeToServiceCode(CauseCode(err.cause))
      && r.message == (if err.message == "" then defaultMessage else err.message)
    ensures !err.AuthError? && !err.AuthServiceError? ==> r.code == Unknown
    ensures err.NonError? ==> r.message == defaultMessage
    ensures err.PlainError? || err.RepositoryError? ==> r.message == err.message
  {
    match err
    case AuthError(message, cause) =>
      AuthServiceError(if message == "" then defaultMessage else message, FirebaseCodeToServiceCode(CauseCode(cause)))
    case AuthServiceError(_, _) => err
    case _ => AuthServiceError(MessageOr(err, defaultMessage), Unknown)
  }

  /** The messages `login` and `register` fall back on. */
  const LoginDefault := "Não foi possível entrar."
  const RegisterDefault := "Não foi possível criar a conta."

  /** `login`/`register`: the gateway's outcome (its I/O is not part of
      this model) turned into the service's: the user, or the wrapped error. */
  function Authenticate(gateway: Result<AuthUser>, defaultMessage: string): (r: Result<AuthUser>)
    ensures r.Ok? <==> gateway.Ok?
    ensures r.Ok? ==> r.value.uid == gateway.value.uid && r.value.email == gateway.value.email
    ensures r.Fail? ==> r.error.AuthServiceError? && r.error == WrapAuthError(gateway.error, defaultMessage)
  {
    match gateway
    case Ok(u) => Ok(ToAuthUser(u))
    case Fail(e) => Fail(WrapAuthError(e, defaultMessage))
  }

  /** Wrapping what was already wrapped changes nothing: the service throws
      one `AuthServiceError` however many layers catch and wrap. */
  lemma WrapIdempotent(err: Thrown, m1: string, m2: string)
    ensures WrapAuthError(WrapAuthError(err, m1), m2) == WrapAuthError(err, m1)
  {
  }
}

=== FILE: cadastro.dfy ===
/**
 * The sign-up page (`Cadastro.tsx`): the form check run before submitting,
 * what is handed to `register`, and the text shown when registering fails.
 */
module Cadastro {
  import opened Opt
  import opened Strings
  import opened Errors
  import AuthService

  const MinPasswordLength: nat := 8

  const EmailRequired := "E-mail é obrigatório"
  const EmailInvalid := "E-mail inválido"
  const PasswordRequired := "Senha é obrigatória"
  const PasswordTooShort := "Senha deve ter no mínimo 8 caracteres."
  const ConfirmRequired := "Confirme a senha."
  const ConfirmMismatch := "As senhas devem ser iguais."
  const RegisterFailed := "Não foi possível criar a conta. Tente novamente."

  /** The three fields of the form. */
  datatype Form = Form(email: string, password: string, confirmPassword: string)

  /** The `errors` record: one optional message per field. */
  datatype FormErrors = FormErrors(email: Option<string>, password: Option<string>, confirmPassword: Option<string>)

  predicate NoErrors(e: FormErrors) {
    e.email.None? && e.password.None? && e.confirmPassword.None?
  }

  /** The e-mail rule shared by the sign-up and sign-in forms. */
  function EmailError(email: string): (r: Option<string>)
    ensures r == Some(EmailRequired) <==> IsBlank(email)
    ensures r == Some(EmailInvalid) <==> !IsBlank(email) && !MatchesEmail(Trim(email))
    ensures r.None? <==> !IsBlank(email) && MatchesEmail(Trim(email))
  {
    if IsBlank(email) then Some(EmailRequired)
    else if !MatchesEmail(Trim(email)) then Some(EmailInvalid)
    else None
  }

  /** `validate`: the record it stores with `setErrors`. */
  function Validate(f: Form): (r: FormErrors)
    ensures r.email == EmailError(f.email)
    ensures r.password == Some(PasswordRequired) <==> f.password == ""
    ensures r.password == Some(PasswordTooShort) <==> f.password != "" && |f.password| < MinPasswordLength
    ensures r.password.None? <==> |f.password| >= MinPasswordLength
    ensures r.confirmPassword == Some(ConfirmRequired) <==> f.confirmPassword == ""
    ensures r.confirmPassword == Some(ConfirmMismatch) <==> f.confirmPassword != "" && f.password != f.confirmPassword
    ensures r.confirmPassword.None? <==> f.confirmPassword != "" && f.password == f.confirmPassword
  {
    FormErrors(
      EmailError(f.email),
      if f.password == "" then Some(PasswordRequired)
      else if |f.password| < MinPasswordLength then Some(PasswordTooShort)
      else None,
      if f.confirmPassword == "" then Some(ConfirmRequired)
      else if f.password != f.confirmPassword then Some(ConfirmMismatch)
      else None)
  }

  /** `handleSubmit`: the e-mail and password passed to `register`, or
      `None` when `validate` fails and nothing is sent. */
  function Submit(f: Form): (r: Option<(string, string)>)
    ensures r.Some? <==> NoErrors(Validate(f))
    ensures r.Some? ==> r.value == (Trim(f.email), f.password)
  {
    if NoErrors(Validate(f)) then Some((Trim(f.email), f.password)) else None
  }

  /** What is sent is a well-formed e-mail address with nothing around it,
      and a password of at least eight characters that was typed twice. */
  lemma SubmittedIsWellFormed(f: Form)
    requires Submit(f).Some?
    ensures EmailShape(Submit(f).value.0)
    ensures Trim(Submit(f).value.0) == Submit(f).value.0
    ensures |Submit(f).value.1| >= MinPasswordLength && f.confirmPassword == f.password
  {
    MatchesEmailIffShape(Trim(f.email));
    TrimIdempotent(f.email);
  }

  /** The fixed text for a service code, when the page has one. */
  function CodeText(c: ServiceCode): (r: Option<string>)
    ensures r.None? <==> c in {InvalidCredentials, UserDisabled, Unknown}
  {
    match c
    case EmailAlreadyInUse => Some("E-mail já cadastrado. Use outro e-mail ou faça login.")
    case InvalidEmail => Some("E-mail inválido.")
    case WeakPassword => Some("Senha deve ter no mínimo 8 caracteres.")
    case TooManyRequests => Some("Muitas tentativas. Tente novamente mais tarde.")
    case NetworkRequestFailed => Some("Erro de conexão. Verifique sua rede.")
    case OperationNotAllowed => Some("Cadastro por e-mail/senha não está habilitado.")
    case _ => None
  }

  /** `toCadastroErrorMessage(err)`. */
  function ToCadastroErrorMessage(err: Thrown): (r: string)
    ensures r != ""
    ensures err.AuthServiceError? && CodeText(err.code).Some? ==> r == CodeText(err.code).value
    ensures err.AuthServiceError? && CodeText(err.code).None? ==>
      r == (if err.message == "" then RegisterFailed else err.message)
    ensures !err.AuthServiceError? ==>
      r == (if err.NonError? || err.message == "" then RegisterFailed else err.message)
  {
    match err
    case AuthServiceError(message, code) =>
      if CodeText(code).Some? then CodeText(code).value
      else if message == "" then RegisterFailed
      else message
    case NonError => RegisterFailed
    case _ => if err.message == "" then RegisterFailed else err.message
  }

  /** A registration the gateway refused with a Firebase code the page
      knows reaches the page, through the service, as that code's text. */
  lemma RegisterFailureShowsCodeText(message: string, code: string)
    requires CodeText(AuthService.FirebaseCodeToServiceCode(Some(code))).Some?
    ensures ToCadastroErrorMessage(AuthService.WrapAuthError(AuthError(message, CauseWithCode(Some(code))), AuthService.RegisterDefault))
      == CodeText(AuthService.FirebaseCodeToServiceCode(Some(code))).value
  {
  }
}

=== FILE: colaborador_departamento_sync.dfy ===
/**
 * Changing an employee's department from the employee side
 * (src/services/colaboradorDepartamentoSync.ts): the employee names a
 * department by its name, each department keeps a roster of employee ids,
 * and the store has no multi-document transaction. The operation writes
 * the old roster, the new roster and the employee one after the other;
 * when a write fails it rewrites both rosters to their snapshots (errors
 * of those writes are ignored) and rethrows the first error.
 */
module ColaboradorDepartamentoSync {
  import opened Opt
  import opened Strings
  import opened Domain
  import opened Errors
  import opened Repositories
  import DC = DepartamentoCollection
  import CM = ColaboradoresMock

  /** `list.find(d => d.nome === name)` */
  function FindByName(list: seq<DepartamentoDTO>, name: string): (r: Option<DepartamentoDTO>)
    ensures r.Some? ==> exists i :: 0 <= i < |list| && list[i] == r.value
                          && forall j :: 0 <= j < i ==> list[j].nome != name
    ensures r.Some? ==> r.value in list && r.value.nome == name
    ensures r.None? <==> forall d :: d in list ==> d.nome != name
  {
    if list == [] then None
    else if list[0].nome == name then Some(list[0])
    else
      var r := FindByName(list[1..], name);
      assert forall d :: d in list ==> d == list[0] || d in list[1..];
      if r.Some? then
        var i :| 0 <= i < |list[1..]| && list[1..][i] == r.value
                 && forall j :: 0 <= j < i ==> list[1..][j].nome != name;
        assert list[i + 1] == r.value;
        r
      else r
  }

  /** The new roster: the id appended when it is absent. */
  function AddOnce(ids: seq<string>, id: string): (r: seq<string>)
    ensures id in r && forall x :: x in r <==> x in ids || x == id
    ensures id in ids ==> r == ids
    ensures id !in ids ==> r == ids + [id]
  {
    if id in ids then ids else ids + [id]
  }

  predicate Distinct(ids: seq<string>) {
    forall i, j :: 0 <= i < j < |ids| ==> ids[i] != ids[j]
  }

  /** A roster without duplicates keeps none after the append. */
  lemma AddOnceDistinct(ids: seq<string>, id: string)
    requires Distinct(ids)
    ensures Distinct(AddOnce(ids, id))
    ensures |AddOnce(ids, id)| <= |ids| + 1
  {
    var r := AddOnce(ids, id);
    if id !in ids {
      forall i, j | 0 <= i < j < |r| ensures r[i] != r[j] {
        if j == |ids| { assert r[i] == ids[i]; }
      }
    }
  }

  /** The department the employee moves to: the trimmed new name. */
  function NovoDepartamento(input: AtualizarColaboradorDTO): string
    requires input.departamento.Some?
  {
    Trim(input.departamento.value)
  }

  /** The name did not change once both sides are trimmed (`null` is ''). */
  predicate SameDepartment(input: AtualizarColaboradorDTO, anterior: Option<string>)
    requires input.departamento.Some?
  {
    NovoDepartamento(input) == Trim(anterior.GetOr(""))
  }

  /** The old department is looked up by the previous name as given, untrimmed. */
  function OldDept(list: seq<DepartamentoDTO>, anterior: Option<string>): Option<DepartamentoDTO> {
    if anterior.Some? then FindByName(list, anterior.value) else None
  }

  function NotFoundMessage(novo: string): string {
    "Departamento \"" + novo + "\" não encontrado. Selecione um departamento cadastrado."
  }

  /** When the name changed, the two departments found are different records
      with different names. */
  lemma OldNewDistinct(list: seq<DepartamentoDTO>, input: AtualizarColaboradorDTO, anterior: Option<string>)
    requires input.departamento.Some? && !SameDepartment(input, anterior)
    requires OldDept(list, anterior).Some? && FindByName(list, NovoDepartamento(input)).Some?
    ensures OldDept(list, anterior).value.nome != FindByName(list, NovoDepartamento(input)).value.nome
  {
    TrimIdempotent(input.departamento.value);
  }

  /** The writes of a move, in order: old roster (when there is an old
      department), new roster, then the employee. */
  function Forward(id: string, input: AtualizarColaboradorDTO, o: Option<DepartamentoDTO>, n: DepartamentoDTO): seq<Call> {
    (if o.Some? then [UpdateDept(o.value.id, RosterPatch(Without(o.value.colaboradoresIds, id)))] else [])
    + [UpdateDept(n.id, RosterPatch(AddOnce(n.colaboradoresIds, id))), UpdateColab(id, input)]
  }

  /** The compensating writes: both snapshots, old first. */
  function Rollback(o: Option<DepartamentoDTO>, n: DepartamentoDTO): seq<Call> {
    (if o.Some? then [UpdateDept(o.value.id, RosterPatch(o.value.colaboradoresIds))] else [])
    + [UpdateDept(n.id, RosterPatch(n.colaboradoresIds))]
  }

  /** The state after the employee write went through: the patch merged
      into the stored employee, when there is one. */
  ghost function ColabMerged(s: State, id: string, input: AtualizarColaboradorDTO): State {
    s.(colabs := if id in s.colabs then s.colabs[id := CM.Merge(s.colabs[id], input)] else s.colabs)
  }

  /** The state after a successful move. */
  ghost function Moved(s: State, id: string, input: AtualizarColaboradorDTO, o: Option<DepartamentoDTO>, n: DepartamentoDTO): State {
    var d1 := if o.Some? then WithRoster(s.depts, o.value.id, Without(o.value.colaboradoresIds, id)) else s.depts;
    ColabMerged(s, id, input).(depts := WithRoster(d1, n.id, AddOnce(n.colaboradoresIds, id)))
  }

  /** The listed department matches the document it was read from. */
  ghost predicate ListedFrom(s: State, dept: DepartamentoDTO) {
    dept.id in s.depts && DC.AssertDepartamentoFirestore(s.depts[dept.id])
    && dept == DC.DocToDTO(dept.id, s.depts[dept.id])
  }

  /** The roster snapshot `dept` holds is the one stored for it. */
  ghost predicate Snapshot(depts: map<string, DC.Doc>, dept: DepartamentoDTO) {
    dept.id in depts && DC.AssertDepartamentoFirestore(depts[dept.id])
    && depts[dept.id][DC.ColaboradoresIds] == DC.JArray(dept.colaboradoresIds)
  }

  /** Two departments read from one state under different names are
      different documents, and each holds its stored roster. */
  lemma ListedSnapshots(s: State, a: DepartamentoDTO, b: DepartamentoDTO)
    requires ListedFrom(s, a) && ListedFrom(s, b)
    ensures Snapshot(s.depts, a) && Snapshot(s.depts, b)
    ensures a.nome != b.nome ==> a.id != b.id
  {
  }

  /** The departments whose rosters a move writes. */
  function Touched(o: Option<DepartamentoDTO>, n: DepartamentoDTO): set<string> {
    {n.id} + (if o.Some? then {o.value.id} else {})
  }

  /** Every listed department was read from the state. */
  lemma ListedAll(s: State, list: seq<DepartamentoDTO>)
    requires Listed(list) == (var l := DC.Listar(s.order, s.depts); if l.Ok? then Listed(l.value) else Failed(l.error))
    ensures forall x :: x in list ==> ListedFrom(s, x)
  {
    forall x | x in list ensures ListedFrom(s, x) {
      var i :| 0 <= i < |list| && list[i] == x;
    }
  }

  /** The state after the old roster lost the employee. */
  ghost function AfterOld(s: State, id: string, o: Option<DepartamentoDTO>): State {
    if o.Some? then s.(depts := WithRoster(s.depts, o.value.id, Without(o.value.colaboradoresIds, id))) else s
  }

  /** The state after both rosters were written. */
  ghost function AfterNew(s: State, id: string, o: Option<DepartamentoDTO>, n: DepartamentoDTO): State {
    var s1 := AfterOld(s, id, o);
    s1.(depts := WithRoster(s1.depts, n.id, AddOnce(n.colaboradoresIds, id)))
  }

  /** The state once the first `k` writes of a move went through. */
  ghost function Written(s: State, id: string, input: AtualizarColaboradorDTO,
                         o: Option<DepartamentoDTO>, n: DepartamentoDTO, k: nat): State {
    var a := if o.Some? then 1 else 0;
    if k == 0 then s
    else if k <= a then AfterOld(s, id, o)
    else if k == a + 1 then AfterNew(s, id, o, n)
    else Moved(s, id, input, o, n)
  }

  /** The department map after the compensation, given which of its writes
      got past the oracle. */
  ghost function RestoredDepts(cur: map<string, DC.Doc>, o: Option<DepartamentoDTO>, n: DepartamentoDTO,
                               passedOld: bool, passedNew: bool): map<string, DC.Doc> {
    var c1 := if o.Some? && passedOld then WithRoster(cur, o.value.id, o.value.colaboradoresIds) else cur;
    if passedNew then WithRoster(c1, n.id, n.colaboradoresIds) else c1
  }

  /** Before the employee write, a move has touched nothing but the two rosters. */
  lemma WrittenOnlyRosters(s: State, id: string, input: AtualizarColaboradorDTO,
                           o: Option<DepartamentoDTO>, n: DepartamentoDTO, k: nat)
    requires Snapshot(s.depts, n) && (o.Some? ==> Snapshot(s.depts, o.value))
    requires k < |Forward(id, input, o, n)|
    ensures var w := Written(s, id, input, o, n, k);
      RostersOnlyDiffer(w.depts, s.depts, Touched(o, n)) && w.colabs == s.colabs && w.order == s.order
  {
    var t := Touched(o, n);
    RostersOnlyDifferStart(s.depts, t);
    if o.Some? {
      RostersOnlyDifferWrite(s.depts, s.depts, t, o.value.id, Without(o.value.colaboradoresIds, id));
    }
    var s1 := AfterOld(s, id, o);
    RostersOnlyDifferWrite(s1.depts, s.depts, t, n.id, AddOnce(n.colaboradoresIds, id));
  }

  /** The compensation keeps the difference within the two rosters, and when
      both of its writes go through it undoes the move entirely. */
  lemma RestoreUndoes(base: map<string, DC.Doc>, cur: map<string, DC.Doc>, o: Option<DepartamentoDTO>,
                      n: DepartamentoDTO, passedOld: bool, passedNew: bool)
    requires Snapshot(base, n) && (o.Some? ==> Snapshot(base, o.value) && o.value.id != n.id)
    requires RostersOnlyDiffer(cur, base, Touched(o, n))
    ensures RostersOnlyDiffer(RestoredDepts(cur, o, n, passedOld, passedNew), base, Touched(o, n))
    ensures (o.None? || passedOld) && passedNew ==> RestoredDepts(cur, o, n, passedOld, passedNew) == base
  {
    var t := Touched(o, n);
    var c1 := if o.Some? && passedOld then WithRoster(cur, o.value.id, o.value.colaboradoresIds) else cur;
    if o.Some? {
      RostersOnlyDifferWrite(cur, base, t, o.value.id, o.value.colaboradoresIds);
    }
    RostersOnlyDifferWrite(c1, base, t, n.id, n.colaboradoresIds);
    if (o.None? || passedOld) && passedNew {
      var rest := t;
      if o.Some? {
        RostersOnlyDifferRestore(cur, base, t, o.value.id, o.value.colaboradoresIds);
        rest := t - {o.value.id};
      }
      assert RostersOnlyDiffer(c1, base, rest);
      RostersOnlyDifferRestore(c1, base, rest, n.id, n.colaboradoresIds);
      assert rest - {n.id} == {};
      RostersOnlyDifferNone(RestoredDepts(cur, o, n, passedOld, passedNew), base);
    }
  }

  /** What a move from `o` to `n` leaves behind, `d` being its log: on
      success every write in order and the moved state; on failure the
      writes up to the first failed one, then the compensation, the first
      error rethrown, nothing but the two rosters changed, and everything as
      it was when the compensating writes go through. */
  ghost predicate MoveOutcome(d: seq<Entry>, s0: State, s: State, r: Result<()>, id: string,
                              input: AtualizarColaboradorDTO, o: Option<DepartamentoDTO>, n: DepartamentoDTO) {
    && (r.Ok? ==> Calls(d) == Forward(id, input, o, n) && SucceededBetween(d, 0, |d|) && s == Moved(s0, id, input, o, n))
    && (r.Fail? ==>
          && (exists k :: FailedAt(d, Forward(id, input, o, n), k, Rollback(o, n)) && r.error == d[k].reply.error)
          && RostersOnlyDiffer(s.depts, s0.depts, Touched(o, n))
          && s.colabs == s0.colabs && s.order == s0.order
          && (PassedBetween(d, |d| - |Rollback(o, n)|, |d|) ==> s == s0))
  }

  /** The failure half of a move's outcome, from what the forward writes and
      the compensation each guarantee. */
  lemma FailedMove(s0: State, id: string, input: AtualizarColaboradorDTO, o: Option<DepartamentoDTO>, n: DepartamentoDTO,
                   k: nat, d1: seq<Entry>, d2: seq<Entry>, s: State, err: Thrown)
    requires Snapshot(s0.depts, n) && (o.Some? ==> Snapshot(s0.depts, o.value) && o.value.id != n.id)
    requires k < |Forward(id, input, o, n)| && |d1| == k + 1
    requires Calls(d1) == Forward(id, input, o, n)[..|d1|]
    requires SucceededBetween(d1, 0, k) && d1[k].reply == Failed(err)
    requires Calls(d2) == Rollback(o, n)
    requires var w := Written(s0, id, input, o, n, k);
      s == w.(depts := RestoredDepts(w.depts, o, n, o.Some? && d2[0].passed, d2[|d2| - 1].passed))
    ensures MoveOutcome(d1 + d2, s0, s, Fail(err), id, input, o, n)
  {
    WrittenOnlyRosters(s0, id, input, o, n, k);
    var w := Written(s0, id, input, o, n, k);
    RestoreUndoes(s0.depts, w.depts, o, n, o.Some? && d2[0].passed, d2[|d2| - 1].passed);
    var d := d1 + d2;
    CallsAppend(d1, d2);
    assert FailedAt(d, Forward(id, input, o, n), k, Rollback(o, n));
    if PassedBetween(d, |d| - |Rollback(o, n)|, |d|) {
      assert d2[0] == d[|d1|] && d2[|d2| - 1] == d[|d| - 1];
    }
  }

  /** `updateColaboradorESincronizarDepartamentos`; `d` is the part of the
      log this call appends. */
  method UpdateColaboradorESincronizarDepartamentos(
    store: Store, id: string, input: AtualizarColaboradorDTO, anterior: Option<string>)
    returns (r: Result<()>, ghost d: seq<Entry>)
    requires input.departamento.Some?
    modifies store
    ensures store.log == old(store.log) + d
    // Same department after trimming: only the employee is written.
    ensures SameDepartment(input, anterior) ==>
      Calls(d) == [UpdateColab(id, input)]
      && r == (if d[0].reply.Failed? then Fail(d[0].reply.error) else Ok(()))
      && store.state == (if d[0].passed then ColabMerged(old(store.state), id, input) else old(store.state))
    // Otherwise the departments are listed first; a failed listing ends it.
    ensures !SameDepartment(input, anterior) ==>
      |d| >= 1 && d[0].call == ListDepts
      && (d[0].reply.Failed? ==> |d| == 1 && r == Fail(d[0].reply.error) && store.state == old(store.state))
      && (!d[0].reply.Failed? ==> d[0].reply.Listed? && forall x :: x in d[0].reply.depts ==> ListedFrom(old(store.state), x))
    // No department has the new name: an error and no write.
    ensures (!SameDepartment(input, anterior) && d[0].reply.Listed?
             && FindByName(d[0].reply.depts, NovoDepartamento(input)).None?) ==>
      |d| == 1 && r == Fail(PlainError(NotFoundMessage(NovoDepartamento(input)))) && store.state == old(store.state)
    // Both found: the move and, after a failure, its compensation.
    ensures (!SameDepartment(input, anterior) && d[0].reply.Listed?
             && FindByName(d[0].reply.depts, NovoDepartamento(input)).Some?) ==>
      MoveOutcome(d[1..], old(store.state), store.state, r, id, input,
                  OldDept(d[0].reply.depts, anterior), FindByName(d[0].reply.depts, NovoDepartamento(input)).value)
  {
    ghost var s0 := store.state;
    var novo := Trim(input.departamento.value);
    if novo == Trim(anterior.GetOr("")) {
      var rep := store.AtualizarColaborador(id, input);
      d := [store.log[|store.log| - 1]];
      r := if rep.Failed? then Fail(rep.error) else Ok(());
      return;
    }
    var listed := store.Listar();
    ghost var e0 := store.log[|store.log| - 1];
    d := [e0];
    if listed.Failed? {
      return Fail(listed.error), d;
    }
    ListedAll(s0, listed.depts);
    ghost var d1;
    r, d1 := MoveListed(store, id, input, anterior, listed.depts, s0);
    LogGrows(old(store.log), d, d1);
    d := d + d1;
    assert d[1..] == d1;
  }

  /** The part after the listing: find both departments by name, then move. */
  method MoveListed(store: Store, id: string, input: AtualizarColaboradorDTO, anterior: Option<string>,
                    list: seq<DepartamentoDTO>, ghost s0: State)
    returns (r: Result<()>, ghost d: seq<Entry>)
    requires input.departamento.Some? && !SameDepartment(input, anterior)
    requires store.state == s0 && forall x :: x in list ==> ListedFrom(s0, x)
    modifies store
    ensures store.log == old(store.log) + d
    ensures FindByName(list, NovoDepartamento(input)).None? ==>
      d == [] && r == Fail(PlainError(NotFoundMessage(NovoDepartamento(input)))) && store.state == s0
    ensures FindByName(list, NovoDepartamento(input)).Some? ==>
      MoveOutcome(d, s0, store.state, r, id, input, OldDept(list, anterior), FindByName(list, NovoDepartamento(input)).value)
  {
    var novo := Trim(input.departamento.value);
    var oldDept := OldDept(list, anterior);
    var newDept := FindByName(list, novo);
    if newDept.None? {
      return Fail(PlainError(NotFoundMessage(novo))), [];
    }
    var n := newDept.value;
    if oldDept.Some? {
      OldNewDistinct(list, input, anterior);
      ListedSnapshots(s0, oldDept.value, n);
    } else {
      ListedSnapshots(s0, n, n);
    }
    r, d := Move(store, id, input, oldDept, n, s0);
  }

  /** The writes of a move and, after a failure, the compensation. */
  method Move(store: Store, id: string, input: AtualizarColaboradorDTO,
              o: Option<DepartamentoDTO>, n: DepartamentoDTO, ghost s0: State)
    returns (r: Result<()>, ghost d: seq<Entry>)
    requires store.state == s0
    requires Snapshot(s0.depts, n) && (o.Some? ==> Snapshot(s0.depts, o.value) && o.value.id != n.id)
    modifies store
    ensures store.log == old(store.log) + d
    ensures MoveOutcome(d, s0, store.state, r, id, input, o, n)
  {
    var err;
    ghost var k, d1;
    err, k, d1 := WriteForward(store, id, input, o, n, s0);
    if err.None? {
      return Ok(()), d1;
    }
    ghost var d2 := RestoreRosters(store, o, n);
    FailedMove(s0, id, input, o, n, k, d1, d2, store.state, err.value);
    LogGrows(old(store.log), d1, d2);
    d := d1 + d2;
    r := Fail(err.value);
  }

  /** The three writes of a move, stopping at the first failure. */
  method WriteForward(store: Store, id: string, input: AtualizarColaboradorDTO,
                      o: Option<DepartamentoDTO>, n: DepartamentoDTO, ghost s0: State)
    returns (err: Option<Thrown>, ghost k: nat, ghost d: seq<Entry>)
    requires store.state == s0
    requires n.id in s0.depts && DC.AssertDepartamentoFirestore(s0.depts[n.id])
    requires o.Some? ==> o.value.id != n.id && o.value.id in s0.depts
                         && DC.AssertDepartamentoFirestore(s0.depts[o.value.id])
    modifies store
    ensures store.log == old(store.log) + d
    ensures k <= |Forward(id, input, o, n)| && |d| == k + (if err.Some? then 1 else 0)
            && (err.Some? ==> k < |Forward(id, input, o, n)|) && (err.None? ==> k == |Forward(id, input, o, n)|)
    ensures Calls(d) == Forward(id, input, o, n)[..|d|]
    ensures SucceededBetween(d, 0, k)
    ensures err.Some? ==> d[k].reply == Failed(err.value)
    ensures store.state == Written(s0, id, input, o, n, k)
  {
    ghost var log0 := store.log;
    err := None;
    k := 0;
    d := [];
    if o.Some? {
      var od := o.value;
      ghost var p := store.calls !in store.failures;
      var w := store.AtualizarRoster(od.id, Without(od.colaboradoresIds, id));
      d := [Entry(UpdateDept(od.id, RosterPatch(Without(od.colaboradoresIds, id))), p, w)];
      if w.Failed? {
        return Some(w.error), 0, d;
      }
      k := 1;
    }
    ghost var p := store.calls !in store.failures;
    var w := store.AtualizarRoster(n.id, AddOnce(n.colaboradoresIds, id));
    ghost var e := Entry(UpdateDept(n.id, RosterPatch(AddOnce(n.colaboradoresIds, id))), p, w);
    LogGrows(log0, d, [e]);
    d := d + [e];
    if w.Failed? {
      return Some(w.error), k, d;
    }
    k := k + 1;

    p := store.calls !in store.failures;
    w := store.AtualizarColaborador(id, input);
    e := Entry(UpdateColab(id, input), p, w);
    LogGrows(log0, d, [e]);
    d := d + [e];
    if w.Failed? {
      return Some(w.error), k, d;
    }
    k := k + 1;
  }

  /** The compensation: both roster snapshots written back, old first, each
      error ignored. */
  method RestoreRosters(store: Store, o: Option<DepartamentoDTO>, n: DepartamentoDTO)
    returns (ghost d: seq<Entry>)
    requires n.id in store.state.depts && DC.AssertDepartamentoFirestore(store.state.depts[n.id])
    requires o.Some? ==> o.value.id != n.id && o.value.id in store.state.depts
                         && DC.AssertDepartamentoFirestore(store.state.depts[o.value.id])
    modifies store
    ensures store.log == old(store.log) + d
    ensures Calls(d) == Rollback(o, n)
    ensures store.state == old(store.state).(depts := RestoredDepts(old(store.state).depts, o, n,
                                                                    o.Some? && d[0].passed, d[|d| - 1].passed))
  {
    d := [];
    if o.Some? {
      ghost var p := store.calls !in store.failures;
      var w := store.AtualizarRoster(o.value.id, o.value.colaboradoresIds);
      d := [Entry(UpdateDept(o.value.id, RosterPatch(o.value.colaboradoresIds)), p, w)];
    }
    ghost var p := store.calls !in store.failures;
    var w := store.AtualizarRoster(n.id, n.colaboradoresIds);
    ghost var e := Entry(UpdateDept(n.id, RosterPatch(n.colaboradoresIds)), p, w);
    LogGrows(old(store.log), d, [e]);
    d := d + [e];
  }
}

=== FILE: colaboradores_mock.dfy ===
/**
 * The in-memory employee repository: a list of records with nextId numeric
 * ids, partial-merge update, delete and bulk delete
 * (back-end/data/mocks/colaboradores.mock.ts).
 */
module ColaboradoresMock {
  import opened Opt
  import opened Strings
  import opened Domain
  import opened Errors

  /** The four records the repository starts with. */
  const MOCK_COLABORADORES: seq<ColaboradorDTO> := [
    ColaboradorDTO("1", "Fernanda Torres", "fernandatorres@flugo.com", "Design", Ativo),
    ColaboradorDTO("2", "Joana D'Arc", "joanadarc@flugo.com", "TI", Ativo),
    ColaboradorDTO("3", "Mari Froes", "marifroes@flugo.com", "Marketing", Ativo),
    ColaboradorDTO("4", "Clara Costa", "claracosta@flugo.com", "Produto", Inativo)
  ]

  /** Longest prefix of `s` made of decimal digits. */
  function DigitPrefix(s: string): (r: string)
    ensures AllDigits(r) && |r| <= |s| && r == s[..|r|]
    ensures |r| < |s| ==> !IsDigit(s[|r|])
  {
    if s == [] || !IsDigit(s[0]) then [] else [s[0]] + DigitPrefix(s[1..])
  }

  /** `parseInt(s, 10)`: skip leading white space, an optional sign, then the
      longest run of digits; `None` is `NaN` (no digit there). */
  function ParseInt(s: string): (r: Option<int>)
    ensures r.None? <==> DigitPrefix(SignFree(TrimStart(s))) == []
  {
    var t := TrimStart(s);
    var digits := DigitPrefix(SignFree(t));
    if digits == [] then None
    else
      var v: int := DigitsValue(digits);
      if t[0] == '-' then Some(-v) else Some(v)
  }

  /** The text after an optional leading sign. */
  function SignFree(t: string): string {
    if t != [] && (t[0] == '-' || t[0] == '+') then t[1..] else t
  }

  /** `String(k)` for an integer. */
  function IntToString(k: int): (r: string)
    ensures r != []
  {
    if k < 0 then "-" + NatToString(-k) else NatToString(k)
  }

  lemma DigitPrefixOfDigits(s: string)
    requires AllDigits(s)
    ensures DigitPrefix(s) == s
  {
    if s != [] {
      DigitPrefixOfDigits(s[1..]);
    }
  }

  /** The digits of a natural number read back, after an optional sign. */
  lemma ParseSigned(sign: string, n: nat)
    requires sign == "" || sign == "-"
    ensures ParseInt(sign + NatToString(n)) == Some(if sign == "-" then -(n as int) else n as int)
  {
    var digits := NatToString(n);
    var s := sign + digits;
    assert SignFree(s) == digits by {
      if sign == "-" {
        assert s[1..] == digits;
      } else {
        assert s == digits;
        assert IsDigit(s[0]);
      }
    }
    assert TrimStart(s) == s by {
      assert !IsSpace(s[0]);
    }
    assert DigitPrefix(digits) == digits by {
      DigitPrefixOfDigits(digits);
    }
    assert DigitsValue(digits) == n by {
      NatToStringValue(n);
    }
  }

  /** Reading back the decimal form of an integer gives the integer. */
  lemma ParseIntToString(k: int)
    ensures ParseInt(IntToString(k)) == Some(k)
  {
    var sign := if k < 0 then "-" else "";
    var n: nat := if k < 0 then -k else k;
    assert IntToString(k) == sign + NatToString(n);
    ParseSigned(sign, n);
  }

  /** The id of one record as `parseInt` reads it, if it is a number. */
  function ParsedId(c: ColaboradorDTO): (r: seq<int>)
    ensures r == [] <==> ParseInt(c.id).None?
    ensures r != [] ==> r == [ParseInt(c.id).value]
  {
    match ParseInt(c.id)
    case Some(n) => [n]
    case None => []
  }

  /** The ids of `itens` that `parseInt` reads as numbers, in order. */
  function ParsedIds(itens: seq<ColaboradorDTO>): (r: seq<int>)
    ensures forall c :: c in itens && ParseInt(c.id).Some? ==> ParseInt(c.id).value in r
    ensures |r| <= |itens|
  {
    if itens == [] then []
    else
      var rest := ParsedIds(itens[1..]);
      var head := ParsedId(itens[0]);
      assert forall c :: c in itens <==> c == itens[0] || c in itens[1..];
      head + rest
  }

  /** The parsed ids follow the list: a longer list reads as its parts one
      after the other. */
  lemma {:induction false} ParsedIdsAppend(a: seq<ColaboradorDTO>, b: seq<ColaboradorDTO>)
    ensures ParsedIds(a + b) == ParsedIds(a) + ParsedIds(b)
  {
    if a == [] {
      assert a + b == b;
    } else {
      assert (a + b)[0] == a[0] && (a + b)[1..] == a[1..] + b;
      ParsedIdsCons(a + b);
      ParsedIdsCons(a);
      ParsedIdsAppend(a[1..], b);
      ConcatAssoc(ParsedId(a[0]), ParsedIds(a[1..]), ParsedIds(b));
    }
  }

  lemma ConcatAssoc(x: seq<int>, y: seq<int>, z: seq<int>)
    ensures x + (y + z) == (x + y) + z
  {
  }

  lemma ParsedIdsCons(s: seq<ColaboradorDTO>)
    requires s != []
    ensures ParsedIds(s) == ParsedId(s[0]) + ParsedIds(s[1..])
  {
  }

  /** Only numeric ids are read: each parsed id is the number of a stored
      record's id. */
  lemma {:induction false} ParsedIdSource(itens: seq<ColaboradorDTO>, n: int) returns (c: ColaboradorDTO)
    requires n in ParsedIds(itens)
    ensures c in itens && ParseInt(c.id) == Some(n)
  {
    ParsedIdsCons(itens);
    if n in ParsedId(itens[0]) {
      c := itens[0];
    } else {
      c := ParsedIdSource(itens[1..], n);
    }
  }

  /** No id is read exactly when no id is numeric. */
  lemma ParsedIdsEmpty(itens: seq<ColaboradorDTO>)
    ensures ParsedIds(itens) == [] <==> forall c :: c in itens ==> ParseInt(c.id).None?
  {
    if ParsedIds(itens) != [] {
      var c := ParsedIdSource(itens, ParsedIds(itens)[0]);
    }
  }

  /** One record reads as its own parsed id. */
  lemma ParsedIdsSingle(c: ColaboradorDTO)
    ensures ParsedIds([c]) == ParsedId(c)
  {
    assert [c][1..] == [];
  }

  /** `Math.max(...ns)` of a non-empty list. */
  function Max(ns: seq<int>): (m: int)
    requires ns != []
    ensures m in ns && forall n :: n in ns ==> n <= m
  {
    if |ns| == 1 then ns[0]
    else
      var m := Max(ns[1..]);
      assert forall n :: n in ns ==> n == ns[0] || n in ns[1..];
      if ns[0] >= m then ns[0] else m
  }

  /** `proximoId`: one more than the largest numeric id, or 1 when none is numeric. */
  function ProximoId(itens: seq<ColaboradorDTO>): (r: string)
    ensures (forall c :: c in itens ==> ParseInt(c.id).None?) ==> r == "1"
    ensures ParsedIds(itens) != [] ==> ParseInt(r) == Some(Max(ParsedIds(itens)) + 1)
    ensures ParseInt(r).Some?
    ensures forall c :: c in itens && ParseInt(c.id).Some? ==> ParseInt(c.id).value < ParseInt(r).value
  {
    var ids := ParsedIds(itens);
    var max := if ids == [] then 0 else Max(ids);
    NextIdFacts(itens, max);
    IntToString(max + 1)
  }

  /** What `proximoId` relies on: the largest numeric id (0 when there is
      none) bounds every numeric id, and one more than it reads back. */
  lemma NextIdFacts(itens: seq<ColaboradorDTO>, max: int)
    requires max == if ParsedIds(itens) == [] then 0 else Max(ParsedIds(itens))
    ensures ParseInt(IntToString(max + 1)) == Some(max + 1)
    ensures forall c :: c in itens && ParseInt(c.id).Some? ==> ParseInt(c.id).value <= max
    ensures (forall c :: c in itens ==> ParseInt(c.id).None?) ==> IntToString(max + 1) == "1"
  {
    ParsedIdsEmpty(itens);
    ParseIntToString(max + 1);
  }

  /** The fresh id differs from every id already in the list. */
  lemma ProximoIdFresh(itens: seq<ColaboradorDTO>)
    ensures forall c :: c in itens ==> c.id != ProximoId(itens)
  {
    var nextId := ProximoId(itens);
    forall c | c in itens ensures c.id != nextId {
      assert ParseInt(c.id) != ParseInt(nextId);
    }
  }

  /** Index of the first record with this id (`findIndex`), `None` for -1. */
  function FindIndex(dados: seq<ColaboradorDTO>, id: string): (r: Option<nat>)
    ensures r.Some? ==> r.value < |dados| && dados[r.value].id == id
                        && forall j :: 0 <= j < r.value ==> dados[j].id != id
    ensures r.None? <==> forall j :: 0 <= j < |dados| ==> dados[j].id != id
  {
    if dados == [] then None
    else if dados[0].id == id then Some(0)
    else match FindIndex(dados[1..], id)
      case Some(i) => Some(i + 1)
      case None => None
  }

  /** The record `atualizar` stores: the defined fields of `dto` over `atual`. */
  function Merge(atual: ColaboradorDTO, dto: AtualizarColaboradorDTO): (r: ColaboradorDTO)
    ensures r.id == atual.id
    ensures r.nome == dto.nome.GetOr(atual.nome) && r.email == dto.email.GetOr(atual.email)
    ensures r.departamento == dto.departamento.GetOr(atual.departamento)
    ensures r.status == dto.status.GetOr(atual.status)
  {
    atual.(nome := dto.nome.GetOr(atual.nome), email := dto.email.GetOr(atual.email),
           departamento := dto.departamento.GetOr(atual.departamento),
           status := dto.status.GetOr(atual.status))
  }

  /** An update with no defined field changes nothing; merging the same
      update twice is merging it once. */
  lemma MergeLaws(c: ColaboradorDTO, dto: AtualizarColaboradorDTO)
    ensures Merge(c, AtualizarColaboradorDTO(None, None, None, None)) == c
    ensures Merge(Merge(c, dto), dto) == Merge(c, dto)
  {
  }

  function NotFoundMessage(id: string): string {
    "Colaborador não encontrado: " + id
  }

  /** `dados.filter(c => c.id !== id)` */
  function RemoveId(dados: seq<ColaboradorDTO>, id: string): (r: seq<ColaboradorDTO>)
    ensures forall c :: c in r <==> c in dados && c.id != id
    ensures |r| <= |dados|
  {
    if dados == [] then []
    else (if dados[0].id == id then [] else [dados[0]]) + RemoveId(dados[1..], id)
  }

  /** Removing keeps the relative order: it distributes over concatenation. */
  lemma {:induction false} RemoveIdAppend(a: seq<ColaboradorDTO>, b: seq<ColaboradorDTO>, id: string)
    ensures RemoveId(a + b, id) == RemoveId(a, id) + RemoveId(b, id)
  {
    if a != [] {
      assert (a + b)[1..] == a[1..] + b;
      RemoveIdAppend(a[1..], b, id);
    } else {
      assert a + b == b;
    }
  }

  /** Removing twice is removing once. */
  lemma {:induction false} RemoveIdIdempotent(dados: seq<ColaboradorDTO>, id: string)
    ensures RemoveId(RemoveId(dados, id), id) == RemoveId(dados, id)
  {
    if dados != [] {
      var head := if dados[0].id == id then [] else [dados[0]];
      RemoveIdIdempotent(dados[1..], id);
      RemoveIdAppend(head, RemoveId(dados[1..], id), id);
    }
  }

  /** `dados.filter(c => !set.has(c.id))` */
  function RemoveIds(dados: seq<ColaboradorDTO>, ids: set<string>): (r: seq<ColaboradorDTO>)
    ensures forall c :: c in r <==> c in dados && c.id !in ids
  {
    if dados == [] then []
    else (if dados[0].id in ids then [] else [dados[0]]) + RemoveIds(dados[1..], ids)
  }

  /** Bulk delete of one id is the single delete. */
  lemma {:induction false} RemoveIdsSingleton(dados: seq<ColaboradorDTO>, id: string)
    ensures RemoveIds(dados, {id}) == RemoveId(dados, id)
  {
    if dados != [] {
      RemoveIdsSingleton(dados[1..], id);
    }
  }

  class ColaboradorRepositoryMock {
    var dados: seq<ColaboradorDTO>

    constructor()
      ensures dados == MOCK_COLABORADORES
    {
      dados := MOCK_COLABORADORES;
    }

    /** `listar`: a copy of the stored list. */
    method Listar() returns (r: seq<ColaboradorDTO>)
      ensures r == dados
    {
      r := dados;
    }

    /** `criar`: append one record with a fresh id. */
    method Criar(dto: CriarColaboradorDTO) returns (novo: ColaboradorDTO)
      modifies this
      ensures novo == ColaboradorDTO(ProximoId(old(dados)), dto.nome, dto.email, dto.departamento, dto.status)
      ensures dados == old(dados) + [novo]
      ensures forall c :: c in old(dados) ==> c.id != novo.id
    {
      ProximoIdFresh(dados);
      var id := ProximoId(dados);
      novo := ColaboradorDTO(id, dto.nome, dto.email, dto.departamento, dto.status);
      dados := dados + [novo];
    }

    /** `atualizar`: merge the defined fields into the first record with this id. */
    method Atualizar(id: string, dto: AtualizarColaboradorDTO) returns (r: Result<ColaboradorDTO>)
      modifies this
      ensures FindIndex(old(dados), id).None? ==>
        r == Fail(PlainError(NotFoundMessage(id))) && dados == old(dados)
      ensures FindIndex(old(dados), id).Some? ==>
        var i := FindIndex(old(dados), id).value;
        r == Ok(Merge(old(dados)[i], dto)) && dados == old(dados)[i := Merge(old(dados)[i], dto)]
    {
      var idx := FindIndex(dados, id);
      if idx.None? {
        return Fail(PlainError(NotFoundMessage(id)));
      }
      var atualizado := Merge(dados[idx.value], dto);
      dados := dados[idx.value := atualizado];
      r := Ok(atualizado);
    }

    /** `remover` */
    method Remover(id: string)
      modifies this
      ensures dados == RemoveId(old(dados), id)
    {
      dados := RemoveId(dados, id);
    }

    /** `removerEmMassa` */
    method RemoverEmMassa(ids: seq<string>)
      modifies this
      ensures dados == RemoveIds(old(dados), set x | x in ids)
    {
      dados := RemoveIds(dados, set x | x in ids);
    }
  }
}

=== FILE: colaboradores_page.dfy ===
/**
 * The texts of the employee list page (`ColaboradoresPage.tsx`) that depend
 * on the hook's state: the number of active filters on the filter button,
 * and the question of the bulk-delete dialog.
 */
module ColaboradoresPage {
  import opened Opt
  import opened Strings
  import opened UseColaboradores

  /** A filter value counts when it is present and not blank. */
  predicate Counts(v: Option<string>) {
    v.Some? && !IsBlank(v.value)
  }

  /** `activeFiltersCount`: how many of name, e-mail and department count. */
  function ActiveFiltersCount(f: Filter): (n: nat)
    ensures n <= 3
    ensures n == 0 <==> !Counts(f.name) && !Counts(f.email) && !Counts(f.department)
    ensures n == 3 <==> Counts(f.name) && Counts(f.email) && Counts(f.department)
  {
    (if Counts(f.name) then 1 else 0) + (if Counts(f.email) then 1 else 0)
      + (if Counts(f.department) then 1 else 0)
  }

  /** A value made only of white space counts as much as no value at all. */
  lemma WhiteSpaceNotCounted(f: Filter, ws: string)
    requires AllSpace(ws)
    ensures ActiveFiltersCount(f.(name := Some(ws))) == ActiveFiltersCount(f.(name := None))
    ensures ActiveFiltersCount(f.(email := Some(ws))) == ActiveFiltersCount(f.(email := None))
    ensures ActiveFiltersCount(f.(department := Some(ws))) == ActiveFiltersCount(f.(department := None))
  {
    BlankIffAllSpace(ws);
  }

  const Filtros := "Filtros"

  /** The filter button's label. */
  function FiltrosLabel(n: nat): (r: string)
    ensures |r| >= |Filtros| && r[..|Filtros|] == Filtros
    ensures r == Filtros <==> n == 0
  {
    if n > 0 then Filtros + " (" + NatToString(n) + ")" else Filtros
  }

  /** The label tells how many filters are active. */
  lemma FiltrosLabelInjective(m: nat, n: nat)
    requires FiltrosLabel(m) == FiltrosLabel(n)
    ensures m == n
  {
    if m > 0 && n > 0 {
      var p := Filtros + " (";
      var a, b := NatToString(m), NatToString(n);
      assert p + a + ")" == p + b + ")";
      assert |a| == |b|;
      assert a == (p + a + ")")[|p|..|p| + |a|];
      assert b == (p + b + ")")[|p|..|p| + |b|];
      NatToStringValue(m);
      NatToStringValue(n);
    }
  }

  const Irreversible := " Essa ação não pode ser desfeita."
  const DeleteOne := "Excluir 1 colaborador?" + Irreversible

  /** The bulk-delete question for `n` selected rows. */
  function BulkDeleteText(n: nat): (r: string)
    ensures |r| > |Irreversible| && r[|r| - |Irreversible|..] == Irreversible
    ensures r == DeleteOne <==> n == 1
  {
    if n == 1 then
      EndsWith("Excluir 1 colaborador?", Irreversible);
      DeleteOne
    else
      var q := "Excluir " + NatToString(n) + " colaboradores?";
      var r := q + Irreversible;
      EndsWith(q, Irreversible);
      // "colaboradores?" against "colaborador?": they differ just before the '?'.
      EndsWith("Excluir " + NatToString(n), " colaboradores?");
      EndsWith("Excluir 1", " colaborador?");
      assert q[|q| - 2] == 's';
      assert DeleteOne[..|DeleteOne| - |Irreversible|] == "Excluir 1 colaborador?";
      assert r[..|r| - |Irreversible|] == q;
      r
  }

  /** The end of a concatenation is its right part. */
  lemma EndsWith(a: string, b: string)
    ensures (a + b)[|a|..] == b && (a + b)[..|a|] == a
    ensures forall i :: |a| <= i < |a + b| ==> (a + b)[i] == b[i - |a|]
  {
  }

  /** The question tells how many rows are selected. */
  lemma BulkDeleteTextInjective(m: nat, n: nat)
    requires BulkDeleteText(m) == BulkDeleteText(n)
    ensures m == n
  {
    if m != 1 && n != 1 {
      var a, b := NatToString(m), NatToString(n);
      var qa, qb := "Excluir " + a + " colaboradores?", "Excluir " + b + " colaboradores?";
      assert qa == qb by {
        EndsWith(qa, Irreversible);
        EndsWith(qb, Irreversible);
      }
      assert "Excluir " + a == "Excluir " + b by {
        EndsWith("Excluir " + a, " colaboradores?");
        EndsWith("Excluir " + b, " colaboradores?");
      }
      EndsWith("Excluir ", a);
      EndsWith("Excluir ", b);
      NatToStringValue(m);
      NatToStringValue(n);
    }
  }
}

=== FILE: departamento_collection.dfy ===
/**
 * The pure halves of the Firestore department repository
 * (back-end/data/firebase/departamento.collection.ts): the shape check,
 * the document-to-record mapping, the document written by `criar`, the
 * field set written by `atualizar`, and how `listar` fails. A stored
 * document is a map from field name to value.
 */
module DepartamentoCollection {
  import opened Opt
  import opened Strings
  import opened Domain
  import opened Errors

  /** A document field value. Arrays hold the roster's strings. */
  datatype Json = JString(str: string) | JArray(items: seq<string>) | JNumber(n: int) | JBool(b: bool) | JNull

  /** A document field name: the five the repository reads and writes, and
      any other name a document may carry. */
  datatype Field = Nome | GestorResponsavelId | ColaboradoresIds | Descricao | Sigla | Other(name: string)

  type Doc = map<Field, Json>

  const COLLECTION_NAME := "departamentos"

  function InvalidDocMessage(id: string): string {
    "Documento " + id + " com formato inválido na coleção " + COLLECTION_NAME
  }

  function NotFoundMessage(id: string): string {
    "Departamento não encontrado: " + id
  }

  predicate IsString(d: Doc, field: Field) {
    field in d && d[field].JString?
  }

  /** `assertDepartamentoFirestore`: a string `nome`, a string
      `gestorResponsavelId` and an array `colaboradoresIds`. */
  predicate AssertDepartamentoFirestore(d: Doc) {
    IsString(d, Nome) && IsString(d, GestorResponsavelId)
    && ColaboradoresIds in d && d[ColaboradoresIds].JArray?
  }

  /** A string field read as an optional value. */
  function OptionalString(d: Doc, field: Field): (r: Option<string>)
    ensures r.Some? <==> IsString(d, field)
    ensures r.Some? ==> d[field] == JString(r.value)
  {
    if IsString(d, field) then Some(d[field].str) else None
  }

  /** `docToDTO`: the given id, the three required fields (with their
      fallbacks) and the optional fields only when present. */
  function DocToDTO(id: string, d: Doc): (r: DepartamentoDTO)
    ensures r.id == id
    ensures AssertDepartamentoFirestore(d) ==>
      JString(r.nome) == d[Nome] && JString(r.gestorResponsavelId) == d[GestorResponsavelId]
      && JArray(r.colaboradoresIds) == d[ColaboradoresIds]
    ensures !(ColaboradoresIds in d && d[ColaboradoresIds].JArray?) ==> r.colaboradoresIds == []
    ensures r.descricao == OptionalString(d, Descricao) && r.sigla == OptionalString(d, Sigla)
  {
    DepartamentoDTO(
      id,
      if IsString(d, Nome) then d[Nome].str else "",
      if IsString(d, GestorResponsavelId) then d[GestorResponsavelId].str else "",
      if ColaboradoresIds in d && d[ColaboradoresIds].JArray? then d[ColaboradoresIds].items else [],
      OptionalString(d, Descricao),
      OptionalString(d, Sigla))
  }

  /** An optional text field `criar` stores: trimmed, and only when not blank. */
  function KeepText(d: Doc, field: Field, v: Option<string>): (r: Doc)
    ensures field in r <==> field in d || (v.Some? && Trim(v.value) != "")
    ensures v.Some? && Trim(v.value) != "" ==> r[field] == JString(Trim(v.value))
    ensures forall f :: f != field ==> (f in r <==> f in d) && (f in d ==> r[f] == d[f])
  {
    if v.Some? && Trim(v.value) != "" then d[field := JString(Trim(v.value))] else d
  }

  /** The document `criar` writes. */
  function CriarPayload(dto: CriarDepartamentoDTO): (d: Doc)
    ensures AssertDepartamentoFirestore(d)
    ensures d[Nome] == JString(dto.nome) && d[GestorResponsavelId] == JString(dto.gestorResponsavelId)
    ensures d[ColaboradoresIds] == JArray(dto.colaboradoresIds)
    ensures Descricao in d <==> dto.descricao.Some? && !IsBlank(dto.descricao.value)
    ensures Sigla in d <==> dto.sigla.Some? && !IsBlank(dto.sigla.value)
    ensures Descricao in d ==> d[Descricao] == JString(Trim(dto.descricao.value))
    ensures Sigla in d ==> d[Sigla] == JString(Trim(dto.sigla.value))
  {
    var base := map[Nome := JString(dto.nome), GestorResponsavelId := JString(dto.gestorResponsavelId),
                     ColaboradoresIds := JArray(dto.colaboradoresIds)];
    KeepText(KeepText(base, Descricao, dto.descricao), Sigla, dto.sigla)
  }

  /** The record `criar` returns: it echoes the input, untrimmed. */
  function CriarReply(id: string, dto: CriarDepartamentoDTO): DepartamentoDTO {
    DepartamentoDTO(id, dto.nome, dto.gestorResponsavelId, dto.colaboradoresIds, dto.descricao, dto.sigla)
  }

  /** Reading back what `criar` stored gives the returned record, except
      that the optional texts are trimmed and blank ones are dropped. */
  lemma CriarReadBack(id: string, dto: CriarDepartamentoDTO)
    ensures var r := DocToDTO(id, CriarPayload(dto));
      && r.(descricao := dto.descricao, sigla := dto.sigla) == CriarReply(id, dto)
      && (r.descricao.Some? <==> dto.descricao.Some? && !IsBlank(dto.descricao.value))
      && (r.descricao.Some? ==> r.descricao.value == Trim(dto.descricao.value))
  {
  }

  /** A field `atualizar` writes when the update defines it. */
  function SetField(d: Doc, field: Field, v: Option<Json>): (r: Doc)
    ensures field in r <==> field in d || v.Some?
    ensures v.Some? ==> r[field] == v.value
    ensures forall f :: f != field ==> (f in r <==> f in d) && (f in d ==> r[f] == d[f])
  {
    if v.Some? then d[field := v.value] else d
  }

  function AsText(v: Option<string>, trim: bool): Option<Json> {
    if v.None? then None else Some(JString(if trim then Trim(v.value) else v.value))
  }

  /** `updates` in `atualizar`: exactly the defined fields of `dto`, with
      `descricao` and `sigla` trimmed. */
  function Updates(dto: AtualizarDepartamentoDTO): (u: Doc)
    ensures Nome in u <==> dto.nome.Some?
    ensures GestorResponsavelId in u <==> dto.gestorResponsavelId.Some?
    ensures ColaboradoresIds in u <==> dto.colaboradoresIds.Some?
    ensures Descricao in u <==> dto.descricao.Some?
    ensures Sigla in u <==> dto.sigla.Some?
    ensures forall f :: f in u ==> f == Nome || f == GestorResponsavelId || f == ColaboradoresIds || f == Descricao || f == Sigla
    ensures dto.nome.Some? ==> u[Nome] == JString(dto.nome.value)
    ensures dto.gestorResponsavelId.Some? ==> u[GestorResponsavelId] == JString(dto.gestorResponsavelId.value)
    ensures dto.colaboradoresIds.Some? ==> u[ColaboradoresIds] == JArray(dto.colaboradoresIds.value)
    ensures dto.descricao.Some? ==> u[Descricao] == JString(Trim(dto.descricao.value))
    ensures dto.sigla.Some? ==> u[Sigla] == JString(Trim(dto.sigla.value))
  {
    var ids := if dto.colaboradoresIds.Some? then Some(JArray(dto.colaboradoresIds.value)) else None;
    var u1 := SetField(map[], Nome, AsText(dto.nome, false));
    var u2 := SetField(u1, GestorResponsavelId, AsText(dto.gestorResponsavelId, false));
    var u3 := SetField(u2, ColaboradoresIds, ids);
    var u4 := SetField(u3, Descricao, AsText(dto.descricao, true));
    SetField(u4, Sigla, AsText(dto.sigla, true))
  }

  /** `atualizar` on the stored document (`None`: no such document): the
      new document and the returned record, or the error thrown. */
  function Atualizar(stored: Option<Doc>, id: string, dto: AtualizarDepartamentoDTO): (r: Result<(Doc, DepartamentoDTO)>)
    ensures stored.None? ==> r == Fail(RepositoryError(NotFoundMessage(id)))
    ensures stored.Some? && !AssertDepartamentoFirestore(stored.value) ==>
      r == Fail(RepositoryError(InvalidDocMessage(id)))
    ensures stored.Some? && AssertDepartamentoFirestore(stored.value) ==>
      r.Ok? && r.value.0 == stored.value + Updates(dto) && r.value.1 == DocToDTO(id, r.value.0)
      && AssertDepartamentoFirestore(r.value.0)
  {
    if stored.None? then Fail(RepositoryError(NotFoundMessage(id)))
    else
      var data := stored.value;
      if !AssertDepartamentoFirestore(data) then Fail(RepositoryError(InvalidDocMessage(id)))
      else
        var updates := Updates(dto);
        if updates != map[] then
          var updatedData := data + updates;
          if AssertDepartamentoFirestore(updatedData) then Ok((updatedData, DocToDTO(id, updatedData)))
          else Ok((updatedData, DocToDTO(id, data)))
        else
          assert data + updates == data;
          Ok((data, DocToDTO(id, data)))
  }

  /** An update leaves every field it does not name as it was, and the
      record read back carries each defined field. */
  lemma AtualizarFields(d: Doc, id: string, dto: AtualizarDepartamentoDTO, field: Field)
    requires AssertDepartamentoFirestore(d)
    ensures var nd := Atualizar(Some(d), id, dto).value.0;
      && (field !in Updates(dto) ==> (field in nd <==> field in d) && (field in d ==> nd[field] == d[field]))
      && var r := Atualizar(Some(d), id, dto).value.1;
      && r.nome == dto.nome.GetOr(d[Nome].str)
      && r.gestorResponsavelId == dto.gestorResponsavelId.GetOr(d[GestorResponsavelId].str)
      && r.colaboradoresIds == dto.colaboradoresIds.GetOr(d[ColaboradoresIds].items)
      && (dto.descricao.Some? ==> r.descricao == Some(Trim(dto.descricao.value)))
      && (dto.descricao.None? ==> r.descricao == OptionalString(d, Descricao))
  {
  }

  /** The ids in listing order that have a document. */
  function Present(order: seq<string>, docs: map<string, Doc>): (p: seq<string>)
    ensures forall k :: 0 <= k < |p| ==> p[k] in docs
    ensures forall x :: x in p <==> x in order && x in docs
  {
    if order == [] then []
    else (if order[0] in docs then [order[0]] else []) + Present(order[1..], docs)
  }

  /** The document at position `i` of the listing fails the shape check. */
  predicate InvalidAt(order: seq<string>, docs: map<string, Doc>, i: int)
    requires 0 <= i < |order|
  {
    order[i] in docs && !AssertDepartamentoFirestore(docs[order[i]])
  }

  /** No document before position `i` fails the shape check, the one at `i` does. */
  predicate FirstInvalid(order: seq<string>, docs: map<string, Doc>, i: int)
    requires 0 <= i < |order|
  {
    InvalidAt(order, docs, i) && forall j :: 0 <= j < i ==> !InvalidAt(order, docs, j)
  }

  /** Past a valid first document, the invalid positions are those of the rest. */
  lemma InvalidTail(order: seq<string>, docs: map<string, Doc>)
    requires order != [] && !InvalidAt(order, docs, 0)
    ensures (exists i :: 0 <= i < |order| && InvalidAt(order, docs, i))
            ==> exists i :: 0 <= i < |order[1..]| && InvalidAt(order[1..], docs, i)
  {
    if exists i :: 0 <= i < |order| && InvalidAt(order, docs, i) {
      var i :| 0 <= i < |order| && InvalidAt(order, docs, i);
      assert InvalidAt(order[1..], docs, i - 1);
    }
  }

  lemma FirstInvalidShift(order: seq<string>, docs: map<string, Doc>, i: int)
    requires order != [] && !InvalidAt(order, docs, 0)
    requires 0 <= i < |order[1..]| && FirstInvalid(order[1..], docs, i)
    ensures FirstInvalid(order, docs, i + 1)
  {
    forall j | 0 < j < i + 1 ensures !InvalidAt(order, docs, j) {
      assert !InvalidAt(order[1..], docs, j - 1);
    }
  }

  /** `listar` over the documents in listing order: each document read back,
      in order, or the error for the first document that fails the shape
      check. */
  function Listar(order: seq<string>, docs: map<string, Doc>): (r: Result<seq<DepartamentoDTO>>)
    ensures r.Fail? <==> exists i :: 0 <= i < |order| && InvalidAt(order, docs, i)
    ensures r.Fail? ==> exists i :: 0 <= i < |order| && FirstInvalid(order, docs, i)
                                    && r.error == RepositoryError(InvalidDocMessage(order[i]))
    ensures r.Ok? ==> var p := Present(order, docs);
      |r.value| == |p| && forall k :: 0 <= k < |p| ==> r.value[k] == DocToDTO(p[k], docs[p[k]])
    ensures r.Ok? ==> forall k :: 0 <= k < |r.value| ==>
      r.value[k].id in docs && AssertDepartamentoFirestore(docs[r.value[k].id])
      && r.value[k] == DocToDTO(r.value[k].id, docs[r.value[k].id])
    ensures r.Ok? ==> |r.value| <= |order|
  {
    if order == [] then Ok([])
    else
      var id := order[0];
      if id in docs && !AssertDepartamentoFirestore(docs[id]) then
        assert FirstInvalid(order, docs, 0);
        Fail(RepositoryError(InvalidDocMessage(id)))
      else
        var rest := Listar(order[1..], docs);
        InvalidTail(order, docs);
        if rest.Fail? then
          var i :| 0 <= i < |order[1..]| && FirstInvalid(order[1..], docs, i)
            && rest.error == RepositoryError(InvalidDocMessage(order[1..][i]));
          FirstInvalidShift(order, docs, i);
          rest
        else if id in docs then
          assert Present(order, docs) == [id] + Present(order[1..], docs);
          Ok([DocToDTO(id, docs[id])] + rest.value)
        else
          assert Present(order, docs) == Present(order[1..], docs);
          rest
  }
}

=== FILE: departamentos_service.dfy ===
/**
 * The department service (src/services/departamentosService.ts): the
 * input-to-DTO mappings, the message shown for a thrown value, and the two
 * operations that keep employees' `departamento` names in step with
 * department rosters when a department is created or edited. Like the
 * employee-side move, they write one record at a time and, on a failure,
 * issue compensating writes whose own errors are swallowed before the
 * first error is rethrown.
 */
module DepartamentosService {
  import opened Opt
  import opened Strings
  import opened Domain
  import opened Errors
  import opened Repositories
  import DC = DepartamentoCollection
  import CM = ColaboradoresMock

  const FirebaseEnvHint: string :=
    " Verifique se as variáveis de ambiente do Firebase (VITE_FIREBASE_*) estão configuradas no servidor (ex.: painel da Vercel)."
  const UnexpectedMessage: string := "Ocorreu um erro inesperado. Tente novamente."
  const DestinoRequiredMessage: string :=
    "Selecione o departamento de destino para os colaboradores removidos. Colaborador não pode ficar sem departamento."

  // ---------------------------------------------------------------------
  // Mappings and messages

  /** `toCriarDTO`: the roster defaults to empty; the optional texts are
      carried exactly when the input defines them. */
  function ToCriarDTO(input: CreateDepartamentoInput): (r: CriarDepartamentoDTO)
    ensures r.nome == input.nome && r.gestorResponsavelId == input.gestorResponsavelId
    ensures input.colaboradoresIds.None? ==> r.colaboradoresIds == []
    ensures input.colaboradoresIds.Some? ==> r.colaboradoresIds == input.colaboradoresIds.value
    ensures r.descricao.Some? <==> input.descricao.Some?
    ensures r.sigla.Some? <==> input.sigla.Some?
  {
    CriarDepartamentoDTO(input.nome, input.gestorResponsavelId, input.colaboradoresIds.GetOr([]),
                         input.descricao, input.sigla)
  }

  /** What a create stores for a page's input: the roster given or an empty
      one, and a description only when one was given that is not blank. */
  lemma CriarStoresInput(input: CreateDepartamentoInput)
    ensures var doc := DC.CriarPayload(ToCriarDTO(input));
      && DC.AssertDepartamentoFirestore(doc)
      && doc[DC.ColaboradoresIds] == DC.JArray(input.colaboradoresIds.GetOr([]))
      && (DC.Descricao in doc <==> input.descricao.Some? && !IsBlank(input.descricao.value))
      && (DC.Sigla in doc <==> input.sigla.Some? && !IsBlank(input.sigla.value))
  {
  }

  /** `toAtualizarDTO`: a field-by-field copy that keeps undefined fields undefined. */
  function ToAtualizarDTO(input: UpdateDepartamentoInput): (r: AtualizarDepartamentoDTO)
    ensures r.nome == input.nome && r.gestorResponsavelId == input.gestorResponsavelId
    ensures r.colaboradoresIds == input.colaboradoresIds
    ensures r.descricao == input.descricao && r.sigla == input.sigla
  {
    AtualizarDepartamentoDTO(input.nome, input.gestorResponsavelId, input.colaboradoresIds,
                             input.descricao, input.sigla)
  }

  /** Whether the edit page's input defines the document field `f`. */
  predicate Defines(input: UpdateDepartamentoInput, f: DC.Field) {
    match f
    case Nome => input.nome.Some?
    case GestorResponsavelId => input.gestorResponsavelId.Some?
    case ColaboradoresIds => input.colaboradoresIds.Some?
    case Descricao => input.descricao.Some?
    case Sigla => input.sigla.Some?
    case Other(_) => false
  }

  /** An edit writes exactly the fields the input defines. */
  lemma UpdateWritesDefinedFields(input: UpdateDepartamentoInput, f: DC.Field)
    ensures f in DC.Updates(ToAtualizarDTO(input)) <==> Defines(input, f)
  {
  }

  /** `toUserMessage`: a repository error gets the configuration hint
      appended, another error shows its own message unless it is empty, and
      anything else the fixed text. */
  function ToUserMessage(err: Thrown): (r: string)
    ensures err.RepositoryError? ==> r == err.message + FirebaseEnvHint
    ensures !err.RepositoryError? && !err.NonError? && err.message != "" ==> r == err.message
    ensures err.NonError? || (!err.RepositoryError? && err.message == "") ==> r == UnexpectedMessage
    ensures r != ""
  {
    match err
    case RepositoryError(m) => m + FirebaseEnvHint
    case NonError => UnexpectedMessage
    case _ => if err.message != "" then err.message else UnexpectedMessage
  }

  // ---------------------------------------------------------------------
  // Roster arithmetic of the edit

  /** `[...new Set(ids)]`: first occurrences, in order. */
  function Dedup(ids: seq<string>): (r: seq<string>)
    ensures forall x :: x in r <==> x in ids
    ensures Distinct(r)
    decreases |ids|
  {
    if ids == [] then []
    else
      var p := Dedup(ids[..|ids| - 1]);
      var x := ids[|ids| - 1];
      assert ids == ids[..|ids| - 1] + [x];
      if x in p then p else p + [x]
  }

  predicate Distinct(ids: seq<string>) {
    forall i, j :: 0 <= i < j < |ids| ==> ids[i] != ids[j]
  }

  /** `ids.filter(cid => !drop.has(cid))`. */
  function Keep(ids: seq<string>, drop: set<string>): (r: seq<string>)
    ensures forall x :: x in r <==> x in ids && x !in drop
    ensures |r| <= |ids|
  {
    if ids == [] then []
    else (if ids[0] in drop then [] else [ids[0]]) + Keep(ids[1..], drop)
  }

  /** Filtering keeps the length exactly when it drops nothing. */
  lemma {:induction false} KeepSameLength(ids: seq<string>, drop: set<string>)
    ensures |Keep(ids, drop)| == |ids| <==> forall x :: x in ids ==> x !in drop
  {
    if ids != [] {
      KeepSameLength(ids[1..], drop);
      assert forall x :: x in ids <==> x == ids[0] || x in ids[1..];
    }
  }

  /** Filtering out every element leaves nothing. */
  lemma {:induction false} KeepNothing(ids: seq<string>, drop: set<string>)
    requires forall x :: x in ids ==> x in drop
    ensures Keep(ids, drop) == []
  {
    if ids != [] {
      KeepNothing(ids[1..], drop);
    }
  }

  /** Filtering a list without duplicates leaves none. */
  lemma {:induction false} KeepDistinct(ids: seq<string>, drop: set<string>)
    requires Distinct(ids)
    ensures Distinct(Keep(ids, drop))
  {
    if ids != [] {
      KeepDistinct(ids[1..], drop);
      assert ids[0] !in ids[1..];
    }
  }

  /** The roster the edit asks for: the input's, or the current one when undefined. */
  function NewRoster(input: UpdateDepartamentoInput, atual: DepartamentoDTO): seq<string> {
    input.colaboradoresIds.GetOr(atual.colaboradoresIds)
  }

  /** Ids in the new roster and not in the current one, without duplicates. */
  function AddedIds(input: UpdateDepartamentoInput, atual: DepartamentoDTO): (r: seq<string>)
    ensures Distinct(r)
  {
    KeepDistinct(Dedup(NewRoster(input, atual)), set x | x in atual.colaboradoresIds);
    Keep(Dedup(NewRoster(input, atual)), set x | x in atual.colaboradoresIds)
  }

  /** Ids in the current roster and not in the new one, without duplicates. */
  function RemovedIds(input: UpdateDepartamentoInput, atual: DepartamentoDTO): (r: seq<string>)
    ensures Distinct(r)
  {
    KeepDistinct(Dedup(atual.colaboradoresIds), set x | x in NewRoster(input, atual));
    Keep(Dedup(atual.colaboradoresIds), set x | x in NewRoster(input, atual))
  }

  /** Added is new minus current and removed is current minus new, as sets;
      no id is both. */
  lemma AddedRemovedAreDifferences(input: UpdateDepartamentoInput, atual: DepartamentoDTO, x: string)
    ensures x in AddedIds(input, atual) <==> x in NewRoster(input, atual) && x !in atual.colaboradoresIds
    ensures x in RemovedIds(input, atual) <==> x in atual.colaboradoresIds && x !in NewRoster(input, atual)
    ensures !(x in AddedIds(input, atual) && x in RemovedIds(input, atual))
  {
  }

  /** Without a new roster in the input nothing is added or removed. */
  lemma NoRosterNoChange(input: UpdateDepartamentoInput, atual: DepartamentoDTO)
    requires input.colaboradoresIds.None?
    ensures AddedIds(input, atual) == [] && RemovedIds(input, atual) == []
  {
    KeepNothing(Dedup(atual.colaboradoresIds), set x | x in atual.colaboradoresIds);
  }

  /** The guard before any write: removed employees need a destination. */
  predicate NeedsDestino(input: UpdateDepartamentoInput, atual: DepartamentoDTO, destino: string) {
    |RemovedIds(input, atual)| > 0 && IsBlank(destino)
  }

  /** `ids.map(cid => porId.get(cid)).filter(c => c != null)`. */
  function Lookup(ids: seq<string>, porId: map<string, Colaborador>): (r: seq<Colaborador>)
    ensures |r| <= |ids|
    ensures forall k :: k in ids && k in porId ==> porId[k] in r
    ensures forall c :: c in r ==> exists k :: k in ids && k in porId && porId[k] == c
  {
    if ids == [] then []
    else (if ids[0] in porId then [porId[ids[0]]] else []) + Lookup(ids[1..], porId)
  }

  /** The ids of some employees. */
  function IdsOf(cs: seq<Colaborador>): (r: set<string>)
    ensures forall c :: c in cs ==> c.id in r
  {
    set c | c in cs :: c.id
  }

  // ---------------------------------------------------------------------
  // Previous departments, for the compensation

  /** `previousDepartamentoByColabId` filled from the added employees. */
  function OwnDepartments(m: map<string, string>, cs: seq<Colaborador>): (r: map<string, string>)
    ensures forall c :: c in cs ==> c.id in r
    ensures forall x :: x in m ==> x in r
    decreases |cs|
  {
    if cs == [] then m else OwnDepartments(m[cs[0].id := cs[0].departamento], cs[1..])
  }

  /** ... then from the removed ones, who all go back to `nome`. */
  function AllBackTo(m: map<string, string>, cs: seq<Colaborador>, nome: string): (r: map<string, string>)
    ensures forall c :: c in cs ==> c.id in r && r[c.id] == nome
    ensures forall x :: x in m && x !in IdsOf(cs) ==> x in r && r[x] == m[x]
    decreases |cs|
  {
    if cs == [] then m else AllBackTo(m[cs[0].id := nome], cs[1..], nome)
  }

  /** An entry of `OwnDepartments` is the department of the last employee
      with that id, and so of every employee with that id when they agree. */
  lemma {:induction false} OwnDepartmentsOf(m: map<string, string>, cs: seq<Colaborador>, c: Colaborador)
    requires c in cs
    requires forall c2 :: c2 in cs && c2.id == c.id ==> c2.departamento == c.departamento
    ensures c.id in OwnDepartments(m, cs) && OwnDepartments(m, cs)[c.id] == c.departamento
    decreases |cs|
  {
    if c in cs[1..] {
      OwnDepartmentsOf(m[cs[0].id := cs[0].departamento], cs[1..], c);
    } else {
      assert cs[0] == c;
      OwnDepartmentsKeep(m[c.id := c.departamento], cs[1..], c.id);
    }
  }

  /** `OwnDepartments` keeps the entries of ids it does not write. */
  lemma {:induction false} OwnDepartmentsKeep(m: map<string, string>, cs: seq<Colaborador>, x: string)
    requires x in m && forall c :: c in cs ==> c.id != x || c.departamento == m[x]
    ensures x in OwnDepartments(m, cs) && OwnDepartments(m, cs)[x] == m[x]
    decreases |cs|
  {
    if cs != [] {
      OwnDepartmentsKeep(m[cs[0].id := cs[0].departamento], cs[1..], x);
    }
  }

  /** The map the edit builds before its writes. */
  function PreviousDepartments(toAdd: seq<Colaborador>, toRemove: seq<Colaborador>, nome: string): map<string, string> {
    AllBackTo(OwnDepartments(map[], toAdd), toRemove, nome)
  }

  /** A removed employee goes back to the edited department's current name;
      an added one, not also removed, to the department its copy held. */
  lemma PreviousDepartmentsTargets(toAdd: seq<Colaborador>, toRemove: seq<Colaborador>, nome: string, c: Colaborador)
    ensures c in toRemove ==> PreviousDepartments(toAdd, toRemove, nome)[c.id] == nome
    ensures c in toAdd && c.id !in IdsOf(toRemove)
            && (forall c2 :: c2 in toAdd && c2.id == c.id ==> c2.departamento == c.departamento) ==>
      c.id in PreviousDepartments(toAdd, toRemove, nome)
      && PreviousDepartments(toAdd, toRemove, nome)[c.id] == c.departamento
  {
    if c in toAdd && c.id !in IdsOf(toRemove) && (forall c2 :: c2 in toAdd && c2.id == c.id ==> c2.departamento == c.departamento) {
      OwnDepartmentsOf(map[], toAdd, c);
    }
  }

  /** `previousDepartamentoByColabId.get(c.id) ?? c.departamento`. */
  function RestoreDept(c: Colaborador, prev: map<string, string>): string {
    if c.id in prev then prev[c.id] else c.departamento
  }

  // ---------------------------------------------------------------------
  // Write plans

  /** One forward write: an employee's record rewritten from the page's copy
      with a new department name, or another department's roster with
      ids pruned (`previous` is the roster the page listed). */
  datatype Step =
    | Assign(colab: Colaborador, dept: string)
    | Prune(deptId: string, previous: seq<string>, pruned: seq<string>)

  /** The update `updateColaborador` sends: every field from the page's
      copy, the department replaced. */
  function ColabPatch(c: Colaborador, dept: string): (r: AtualizarColaboradorDTO)
    ensures r.departamento == Some(dept)
  {
    AtualizarColaboradorDTO(Some(c.nome), Some(c.email), Some(dept), Some(c.status))
  }

  function StepCall(st: Step): Call {
    match st
    case Assign(c, dept) => UpdateColab(c.id, ColabPatch(c, dept))
    case Prune(x, _, pruned) => UpdateDept(x, RosterPatch(pruned))
  }

  function StepCalls(steps: seq<Step>): (r: seq<Call>)
    ensures |r| == |steps| && forall i :: 0 <= i < |steps| ==> r[i] == StepCall(steps[i])
  {
    seq(|steps|, i requires 0 <= i < |steps| => StepCall(steps[i]))
  }

  /** Each employee in turn moved to `dept`. */
  function Assigns(cs: seq<Colaborador>, dept: string): (r: seq<Step>)
    ensures |r| == |cs| && forall i :: 0 <= i < |cs| ==> r[i] == Assign(cs[i], dept)
  {
    seq(|cs|, i requires 0 <= i < |cs| => Assign(cs[i], dept))
  }

  /** Some employee among `cs` names `nome` as its department. */
  predicate HasFrom(cs: seq<Colaborador>, nome: string) {
    exists i :: 0 <= i < |cs| && cs[i].departamento == nome
  }

  /** The roster write one listed department gets: none for the department
      being saved, none when no moving employee came from it, none when
      pruning drops nothing. */
  function PruneOf(prev: DepartamentoDTO, skipId: string, cs: seq<Colaborador>): seq<Step> {
    if prev.id == skipId || !HasFrom(cs, prev.nome) then []
    else
      var kept := Keep(prev.colaboradoresIds, IdsOf(cs));
      if |kept| == |prev.colaboradoresIds| then [] else [Prune(prev.id, prev.colaboradoresIds, kept)]
  }

  /** The loop over the listed departments, as the writes it issues. */
  function PruneSteps(list: seq<DepartamentoDTO>, skipId: string, cs: seq<Colaborador>): seq<Step>
    decreases |list|
  {
    if list == [] then []
    else PruneSteps(list[..|list| - 1], skipId, cs) + PruneOf(list[|list| - 1], skipId, cs)
  }

  /** Every roster write prunes a department other than the one saved, that
      some moving employee came from, and that held at least one of their
      ids; it drops exactly those ids. Conversely every such department is
      written. */
  lemma {:induction false} PruneStepsExactly(list: seq<DepartamentoDTO>, skipId: string, cs: seq<Colaborador>)
    ensures forall st :: st in PruneSteps(list, skipId, cs) ==>
      && st.Prune?
      && st.deptId != skipId
      && (exists prev :: prev in list && prev.id == st.deptId && prev.colaboradoresIds == st.previous && HasFrom(cs, prev.nome))
      && st.pruned == Keep(st.previous, IdsOf(cs))
      && |st.pruned| < |st.previous|
    ensures forall prev :: prev in list && prev.id != skipId && HasFrom(cs, prev.nome)
                           && (exists x :: x in prev.colaboradoresIds && x in IdsOf(cs)) ==>
      Prune(prev.id, prev.colaboradoresIds, Keep(prev.colaboradoresIds, IdsOf(cs))) in PruneSteps(list, skipId, cs)
    decreases |list|
  {
    if list != [] {
      var init := list[..|list| - 1];
      var last := list[|list| - 1];
      PruneStepsExactly(init, skipId, cs);
      KeepSameLength(last.colaboradoresIds, IdsOf(cs));
      assert forall prev :: prev in list <==> prev in init || prev == last;
    }
  }

  /** The roster snapshots the compensation writes back: each pruned
      department, recorded before its write was attempted. */
  function Tracked(steps: seq<Step>): seq<(string, seq<string>)>
    decreases |steps|
  {
    if steps == [] then []
    else
      var st := steps[|steps| - 1];
      Tracked(steps[..|steps| - 1]) + (if st.Prune? then [(st.deptId, st.previous)] else [])
  }

  /** The employees written, recorded after each write succeeded. */
  function Updated(steps: seq<Step>): seq<Colaborador>
    decreases |steps|
  {
    if steps == [] then []
    else
      var st := steps[|steps| - 1];
      Updated(steps[..|steps| - 1]) + (if st.Assign? then [st.colab] else [])
  }

  lemma TrackedStep(steps: seq<Step>, i: nat)
    requires i < |steps|
    ensures Tracked(steps[..i + 1]) == Tracked(steps[..i]) + (if steps[i].Prune? then [(steps[i].deptId, steps[i].previous)] else [])
    ensures Updated(steps[..i + 1]) == Updated(steps[..i]) + (if steps[i].Assign? then [steps[i].colab] else [])
  {
    assert steps[..i + 1][..i] == steps[..i];
  }

  /** The compensating roster writes, in recorded order. */
  function RosterRestores(tracked: seq<(string, seq<string>)>): (r: seq<Call>)
    ensures |r| == |tracked| && forall i :: 0 <= i < |tracked| ==> r[i] == UpdateDept(tracked[i].0, RosterPatch(tracked[i].1))
  {
    seq(|tracked|, i requires 0 <= i < |tracked| => UpdateDept(tracked[i].0, RosterPatch(tracked[i].1)))
  }

  /** The compensating employee writes, in recorded order, each back to its
      previous department (`prev`, else what the page's copy holds). */
  function ColabRestores(cs: seq<Colaborador>, prev: map<string, string>): (r: seq<Call>)
    ensures |r| == |cs| && forall i :: 0 <= i < |cs| ==> r[i] == UpdateColab(cs[i].id, ColabPatch(cs[i], RestoreDept(cs[i], prev)))
  {
    StepCalls(Restores(cs, prev))
  }

  /** The compensating employee writes, seen as steps. */
  function Restores(cs: seq<Colaborador>, prev: map<string, string>): (r: seq<Step>)
    ensures |r| == |cs| && forall i :: 0 <= i < |cs| ==> r[i] == Assign(cs[i], RestoreDept(cs[i], prev))
  {
    seq(|cs|, i requires 0 <= i < |cs| => Assign(cs[i], RestoreDept(cs[i], prev)))
  }

  /** All compensating writes, the last one undoing the saved or created
      department. */
  function Compensation(tracked: seq<(string, seq<string>)>, updated: seq<Colaborador>,
                        prev: map<string, string>, last: Call): seq<Call>
  {
    RosterRestores(tracked) + ColabRestores(updated, prev) + [last]
  }

  // ---------------------------------------------------------------------
  // The loops

  lemma StepCallsSnoc(steps: seq<Step>, i: nat)
    requires i < |steps|
    ensures StepCalls(steps[..i + 1]) == StepCalls(steps[..i]) + [StepCall(steps[i])]
  {
  }

  lemma RosterRestoresSnoc(tracked: seq<(string, seq<string>)>, i: nat)
    requires i < |tracked|
    ensures RosterRestores(tracked[..i + 1]) == RosterRestores(tracked[..i]) + [UpdateDept(tracked[i].0, RosterPatch(tracked[i].1))]
  {
  }

  lemma ColabRestoresSnoc(cs: seq<Colaborador>, prev: map<string, string>, i: nat)
    requires i < |cs|
    ensures ColabRestores(cs[..i + 1], prev) == ColabRestores(cs[..i], prev) + [UpdateColab(cs[i].id, ColabPatch(cs[i], RestoreDept(cs[i], prev)))]
  {
  }

  /** One repository call, its outcome recorded as the log's next entry. */
  method Issue(store: Store, c: Call) returns (w: Reply, ghost e: Entry)
    modifies store
    ensures e.call == c && e.reply == w && (!w.Failed? ==> e.passed)
    ensures e.passed ==> w == Exec(old(store.state), c).1
    ensures c.UpdateDept? || c.CreateDept? ==> w.Dept? || w.Failed?
    ensures c.ListDepts? ==> w.Listed? || w.Failed?
    ensures store.log == old(store.log) + [e]
    ensures store.state == Effect(old(store.state), e)
  {
    ghost var p := store.calls !in store.failures;
    w := store.Perform(c);
    e := Entry(c, p, w);
  }

  /** After `d`, the first |d| steps have all been issued and succeeded. */
  ghost predicate Ran(s0: State, steps: seq<Step>, d: seq<Entry>, tracked: seq<(string, seq<string>)>,
                      updated: seq<Colaborador>, s: State)
  {
    && |d| <= |steps|
    && Calls(d) == StepCalls(steps[..|d|])
    && SucceededBetween(d, 0, |d|)
    && PassedBetween(d, 0, |d|)
    && tracked == Tracked(steps[..|d|])
    && updated == Updated(steps[..|d|])
    && s == After(s0, d)
  }

  /** What the forward loops leave: `k` steps succeeded, and either that
      was all of them or step `k` threw `err`. */
  ghost predicate RunOutcome(s0: State, steps: seq<Step>, err: Option<Thrown>, k: nat, d: seq<Entry>,
                             tracked: seq<(string, seq<string>)>, updated: seq<Colaborador>, s: State)
  {
    && k <= |steps|
    && |d| == k + (if err.Some? then 1 else 0)
    && (err.None? ==> k == |steps|)
    && (err.Some? ==> k < |steps| && d[k].reply == Failed(err.value))
    && Calls(d) == StepCalls(steps[..|d|])
    && SucceededBetween(d, 0, k)
    && PassedBetween(d, 0, k)
    && tracked == Tracked(steps[..|d|])
    && updated == Updated(steps[..k])
    && s == After(s0, d)
  }

  lemma RanStep(s0: State, steps: seq<Step>, d: seq<Entry>, tracked: seq<(string, seq<string>)>,
                updated: seq<Colaborador>, e: Entry)
    requires Ran(s0, steps, d, tracked, updated, After(s0, d))
    requires |d| < |steps| && e.call == StepCall(steps[|d|]) && (!e.reply.Failed? ==> e.passed)
    ensures var st := steps[|d|];
            var tracked' := tracked + (if st.Prune? then [(st.deptId, st.previous)] else []);
            var s := Effect(After(s0, d), e);
            && (e.reply.Failed? ==> RunOutcome(s0, steps, Some(e.reply.error), |d|, d + [e], tracked', updated, s))
            && (!e.reply.Failed? ==> Ran(s0, steps, d + [e], tracked', updated + (if st.Assign? then [st.colab] else []), s))
  {
    StepCallsSnoc(steps, |d|);
    CallsSnoc(d, e, StepCalls(steps[..|d|]));
    TrackedStep(steps, |d|);
    AfterStep(s0, d, e);
    assert (d + [e])[..|d|] == d;
  }

  lemma RanAll(s0: State, steps: seq<Step>, d: seq<Entry>, tracked: seq<(string, seq<string>)>,
               updated: seq<Colaborador>, s: State)
    requires Ran(s0, steps, d, tracked, updated, s) && |d| == |steps|
    ensures RunOutcome(s0, steps, None, |steps|, d, tracked, updated, s)
  {
  }

  /** The forward loops: each step in order, stopping at the first that
      throws. `tracked` is pushed before a roster write, `updated` after an
      employee write succeeds, as the service's arrays are. */
  method RunSteps(store: Store, steps: seq<Step>)
    returns (err: Option<Thrown>, k: nat, tracked: seq<(string, seq<string>)>, updated: seq<Colaborador>, ghost d: seq<Entry>)
    modifies store
    ensures store.log == old(store.log) + d
    ensures RunOutcome(old(store.state), steps, err, k, d, tracked, updated, store.state)
  {
    ghost var s0 := store.state;
    ghost var log0 := store.log;
    err, k, tracked, updated, d := None, 0, [], [], [];
    while k < |steps|
      invariant |d| == k
      invariant store.log == log0 + d
      invariant Ran(s0, steps, d, tracked, updated, store.state)
    {
      var st := steps[k];
      var w;
      ghost var e;
      w, e := Issue(store, StepCall(st));
      RanStep(s0, steps, d, tracked, updated, e);
      LogGrows(log0, d, [e]);
      d := d + [e];
      if st.Prune? {
        tracked := tracked + [(st.deptId, st.previous)];
      }
      if w.Failed? {
        err := Some(w.error);
        return;
      }
      if st.Assign? {
        updated := updated + [st.colab];
      }
      k := k + 1;
    }
    RanAll(s0, steps, d, tracked, updated, store.state);
  }

  /** The compensating roster writes, each error swallowed. */
  method RestoreRosters(store: Store, tracked: seq<(string, seq<string>)>) returns (ghost d: seq<Entry>)
    modifies store
    ensures store.log == old(store.log) + d
    ensures Calls(d) == RosterRestores(tracked)
    ensures store.state == After(old(store.state), d)
  {
    ghost var s0 := store.state;
    ghost var log0 := store.log;
    d := [];
    var i := 0;
    while i < |tracked|
      invariant i <= |tracked| && |d| == i
      invariant store.log == log0 + d
      invariant Calls(d) == RosterRestores(tracked[..i])
      invariant store.state == After(s0, d)
    {
      var (x, previous) := tracked[i];
      var _, e := Issue(store, UpdateDept(x, RosterPatch(previous)));
      AfterStep(s0, d, e);
      LogGrows(log0, d, [e]);
      CallsSnoc(d, e, RosterRestores(tracked[..i]));
      RosterRestoresSnoc(tracked, i);
      d := d + [e];
      i := i + 1;
    }
    assert tracked[..i] == tracked;
  }

  /** The compensating employee writes, each error swallowed. */
  method RestoreColabs(store: Store, cs: seq<Colaborador>, prev: map<string, string>) returns (ghost d: seq<Entry>)
    modifies store
    ensures store.log == old(store.log) + d
    ensures Calls(d) == ColabRestores(cs, prev)
    ensures store.state == After(old(store.state), d)
  {
    ghost var s0 := store.state;
    ghost var log0 := store.log;
    d := [];
    var i := 0;
    while i < |cs|
      invariant i <= |cs| && |d| == i
      invariant store.log == log0 + d
      invariant Calls(d) == ColabRestores(cs[..i], prev)
      invariant store.state == After(s0, d)
    {
      var c := cs[i];
      var _, e := Issue(store, UpdateColab(c.id, ColabPatch(c, RestoreDept(c, prev))));
      AfterStep(s0, d, e);
      LogGrows(log0, d, [e]);
      CallsSnoc(d, e, ColabRestores(cs[..i], prev));
      ColabRestoresSnoc(cs, prev, i);
      d := d + [e];
      i := i + 1;
    }
    assert cs[..i] == cs;
  }

  /** The compensation: roster snapshots written back, employees written
      back, then `last`; every error swallowed. */
  method Undo(store: Store, tracked: seq<(string, seq<string>)>, updated: seq<Colaborador>,
              prev: map<string, string>, last: Call) returns (ghost d: seq<Entry>)
    modifies store
    ensures store.log == old(store.log) + d
    ensures Calls(d) == Compensation(tracked, updated, prev, last)
    ensures store.state == After(old(store.state), d)
  {
    ghost var s0 := store.state;
    ghost var log0 := store.log;
    ghost var d1 := RestoreRosters(store, tracked);
    ghost var s1 := store.state;
    ghost var d2 := RestoreColabs(store, updated, prev);
    ghost var s2 := store.state;
    var _, e := Issue(store, last);
    d := d1 + d2 + [e];
    LogGrows(log0, d1, d2);
    LogGrows(log0, d1 + d2, [e]);
    CallsAppend(d1, d2);
    CallsSnoc(d1 + d2, e, RosterRestores(tracked) + ColabRestores(updated, prev));
    AfterAppend(s0, d1, d2);
    AfterStep(s0, d1 + d2, e);
  }

  // ---------------------------------------------------------------------
  // Which department an employee ends in

  /** The department the last step writing employee `x` assigns, if any. */
  function AssignedTo(steps: seq<Step>, x: string): Option<string>
    decreases |steps|
  {
    if steps == [] then None
    else
      var st := steps[|steps| - 1];
      if st.Assign? && st.colab.id == x then Some(st.dept) else AssignedTo(steps[..|steps| - 1], x)
  }

  /** A log that issued `steps`, every call let through, writes each
      employee last as the steps do. */
  lemma {:induction false} LastDeptOfSteps(d: seq<Entry>, steps: seq<Step>, x: string)
    requires Calls(d) == StepCalls(steps) && PassedBetween(d, 0, |d|)
    ensures LastDept(d, x) == AssignedTo(steps, x)
    decreases |d|
  {
    if d != [] {
      var n := |d| - 1;
      assert Calls(d[..n]) == StepCalls(steps[..n]) by {
        forall i | 0 <= i < n ensures Calls(d[..n])[i] == StepCalls(steps[..n])[i] {
          assert Calls(d)[i] == StepCalls(steps)[i];
        }
      }
      assert Calls(d)[n] == StepCalls(steps)[n];
      LastDeptOfSteps(d[..n], steps[..n], x);
    }
  }

  lemma {:induction false} AssignedToAppend(a: seq<Step>, b: seq<Step>, x: string)
    ensures AssignedTo(a + b, x) == if AssignedTo(b, x).Some? then AssignedTo(b, x) else AssignedTo(a, x)
    decreases |b|
  {
    if b == [] {
      assert a + b == a;
    } else {
      assert (a + b)[..|a + b| - 1] == a + b[..|b| - 1];
      AssignedToAppend(a, b[..|b| - 1], x);
    }
  }

  /** Moving employees `cs` to `dept` assigns `dept` to exactly their ids. */
  lemma {:induction false} AssignedToAssigns(cs: seq<Colaborador>, dept: string, x: string)
    ensures AssignedTo(Assigns(cs, dept), x) == if x in IdsOf(cs) then Some(dept) else None
    decreases |cs|
  {
    if cs != [] {
      var n := |cs| - 1;
      assert Assigns(cs, dept)[..n] == Assigns(cs[..n], dept);
      AssignedToAssigns(cs[..n], dept, x);
      IdsOfSnoc(cs, x);
    }
  }

  /** The ids of a non-empty list: those of all but the last, and the last one's. */
  lemma IdsOfSnoc(cs: seq<Colaborador>, x: string)
    requires cs != []
    ensures x in IdsOf(cs) <==> x in IdsOf(cs[..|cs| - 1]) || x == cs[|cs| - 1].id
  {
    var n := |cs| - 1;
    if x in IdsOf(cs) && x != cs[n].id {
      var c :| c in cs && c.id == x;
      var i :| 0 <= i < |cs| && cs[i] == c;
      assert cs[..n][i] == c;
    }
    if x in IdsOf(cs[..n]) {
      var c :| c in cs[..n] && c.id == x;
      assert c in cs;
    }
    assert cs[n] in cs;
  }

  /** Roster writes assign no employee. */
  lemma {:induction false} AssignedToPrunes(steps: seq<Step>, x: string)
    requires forall st :: st in steps ==> st.Prune?
    ensures AssignedTo(steps, x) == None
    decreases |steps|
  {
    if steps != [] {
      assert steps[|steps| - 1] in steps;
      AssignedToPrunes(steps[..|steps| - 1], x);
    }
  }

  /** No two employees in `cs` share an id unless they are the same copy. */
  predicate UniqueIds(cs: seq<Colaborador>) {
    forall i, j :: 0 <= i < |cs| && 0 <= j < |cs| && cs[i].id == cs[j].id ==> cs[i] == cs[j]
  }

  /** The compensation writes an employee, whose id no other copy shares,
      back to its previous department. */
  lemma {:induction false} AssignedToRestores(cs: seq<Colaborador>, prev: map<string, string>, c: Colaborador)
    requires c in cs && UniqueIds(cs)
    ensures AssignedTo(Restores(cs, prev), c.id) == Some(RestoreDept(c, prev))
    decreases |cs|
  {
    var n := |cs| - 1;
    assert Restores(cs, prev)[..n] == Restores(cs[..n], prev);
    if cs[n].id != c.id {
      assert c in cs[..n];
      assert UniqueIds(cs[..n]) by {
        forall i, j | 0 <= i < n && 0 <= j < n && cs[..n][i].id == cs[..n][j].id
          ensures cs[..n][i] == cs[..n][j]
        {
          assert cs[..n][i] == cs[i] && cs[..n][j] == cs[j];
        }
      }
      AssignedToRestores(cs[..n], prev, c);
    } else {
      var i :| 0 <= i < |cs| && cs[i] == c;
    }
  }

  /** The three parts of a compensation's log. */
  lemma CompensationParts(d: seq<Entry>, tracked: seq<(string, seq<string>)>, updated: seq<Colaborador>,
                          prev: map<string, string>, last: Call)
    returns (dr: seq<Entry>, dc: seq<Entry>, e: Entry)
    requires Calls(d) == Compensation(tracked, updated, prev, last) && PassedBetween(d, 0, |d|)
    ensures d == dr + dc + [e] && e.call == last
    ensures Calls(dc) == ColabRestores(updated, prev) && PassedBetween(dc, 0, |dc|)
  {
    var rr, cr := RosterRestores(tracked), ColabRestores(updated, prev);
    var t, u := |rr|, |cr|;
    assert |d| == t + u + 1 by {
      assert |Calls(d)| == |rr + cr + [last]|;
    }
    dr, dc, e := d[..t], d[t..t + u], d[t + u];
    assert d == dr + dc + [e] by {
      assert d[..t + u] == dr + dc;
      assert d == d[..t + u] + [e];
    }
    forall i | 0 <= i < u ensures dc[i].call == cr[i] {
      assert dc[i] == d[t + i];
      assert Calls(d)[t + i] == (rr + cr + [last])[t + i];
    }
    assert Calls(dc) == cr;
    assert e.call == last by {
      assert Calls(d)[t + u] == (rr + cr + [last])[t + u];
    }
    forall j | 0 <= j < u ensures dc[j].passed {
      assert dc[j] == d[t + j];
    }
  }

  /** A log whose entries from `n` on are a compensation that went
      through leaves every employee it writes back, whose id no other copy
      there shares, in the department `RestoreDept` names. */
  lemma UndoRestores(s: State, d: seq<Entry>, n: nat, tracked: seq<(string, seq<string>)>,
                     updated: seq<Colaborador>, prev: map<string, string>, last: Call, c: Colaborador)
    requires n <= |d| && Calls(d[n..]) == Compensation(tracked, updated, prev, last) && !last.UpdateColab?
    requires PassedBetween(d, n, |d|)
    requires c in updated && UniqueIds(updated) && c.id in s.colabs
    ensures c.id in After(s, d).colabs
    ensures After(s, d).colabs[c.id].departamento == RestoreDept(c, prev)
  {
    var dt := d[n..];
    assert PassedBetween(dt, 0, |dt|) by {
      forall j | 0 <= j < |dt| ensures dt[j].passed {
        assert dt[j] == d[n + j];
      }
    }
    var dr, dc, e := CompensationParts(dt, tracked, updated, prev, last);
    assert LastDept([e], c.id) == None by {
      assert [e][..0] == [];
    }
    LastDeptOfSteps(dc, Restores(updated, prev), c.id);
    AssignedToRestores(updated, prev, c);
    assert d == (d[..n] + dr) + dc + [e];
    LastDeptAppend((d[..n] + dr) + dc, [e], c.id);
    LastDeptAppend(d[..n] + dr, dc, c.id);
    AfterColabDept(s, d, c.id);
  }

  // ---------------------------------------------------------------------
  // Forward writes with compensation

  lemma StepCallsPrefix(steps: seq<Step>, n: nat)
    requires n <= |steps|
    ensures StepCalls(steps[..n]) == StepCalls(steps)[..n]
  {
  }

  /** What the forward writes and their compensation leave in the log:
      every step let through and succeeded, or step `k` the first to
      throw `err`, followed by the compensation. */
  ghost predicate StepsOutcome(d: seq<Entry>, steps: seq<Step>, prev: map<string, string>, last: Call, err: Option<Thrown>) {
    && (err.None? ==> Calls(d) == StepCalls(steps) && SucceededBetween(d, 0, |d|) && PassedBetween(d, 0, |d|))
    && (err.Some? ==>
          exists k :: 0 <= k < |steps| && UndoneAt(d, steps, k, Compensation(Tracked(steps[..k + 1]), Updated(steps[..k]), prev, last), err.value))
  }

  /** Step `k` was the first to throw, `e`, and `rollback` followed. */
  ghost predicate UndoneAt(d: seq<Entry>, steps: seq<Step>, k: int, rollback: seq<Call>, e: Thrown) {
    && 0 <= k < |steps|
    && FailedAt(d, StepCalls(steps), k, rollback)
    && d[k].reply == Failed(e)
    && PassedBetween(d, 0, k)
  }

  lemma FailedThenUndone(d1: seq<Entry>, d2: seq<Entry>, steps: seq<Step>, err: Option<Thrown>, k: nat,
                         tracked: seq<(string, seq<string>)>, updated: seq<Colaborador>, s0: State, s1: State,
                         rollback: seq<Call>)
    requires err.Some? && RunOutcome(s0, steps, err, k, d1, tracked, updated, s1)
    requires Calls(d2) == rollback
    ensures UndoneAt(d1 + d2, steps, k, rollback, err.value)
  {
    StepCallsPrefix(steps, k + 1);
    CallsAppend(d1, d2);
    var d := d1 + d2;
    assert d[k] == d1[k];
  }

  /** The forward steps; on the first error, the compensation, and the
      error is passed on. */
  method WriteOrUndo(store: Store, steps: seq<Step>, prev: map<string, string>, last: Call)
    returns (err: Option<Thrown>, ghost d: seq<Entry>)
    modifies store
    ensures store.log == old(store.log) + d
    ensures store.state == After(old(store.state), d)
    ensures StepsOutcome(d, steps, prev, last, err)
  {
    ghost var s0 := store.state;
    ghost var log0 := store.log;
    var k, tracked, updated;
    ghost var d1;
    err, k, tracked, updated, d1 := RunSteps(store, steps);
    if err.None? {
      d := d1;
      return;
    }
    ghost var s1 := store.state;
    ghost var d2 := Undo(store, tracked, updated, prev, last);
    d := d1 + d2;
    LogGrows(log0, d1, d2);
    AfterAppend(s0, d1, d2);
    FailedThenUndone(d1, d2, steps, err, k, tracked, updated, s0, s1, Compensation(tracked, updated, prev, last));
  }

  // ---------------------------------------------------------------------
  // Editing a department: updateDepartamentoEAtualizarColaboradores

  /** The added employees the page knows of. */
  function ToAdd(input: UpdateDepartamentoInput, atual: DepartamentoDTO, porId: map<string, Colaborador>): seq<Colaborador> {
    Lookup(AddedIds(input, atual), porId)
  }

  /** The removed employees the page knows of. */
  function ToRemove(input: UpdateDepartamentoInput, atual: DepartamentoDTO, porId: map<string, Colaborador>): seq<Colaborador> {
    Lookup(RemovedIds(input, atual), porId)
  }

  function EditPrevious(input: UpdateDepartamentoInput, atual: DepartamentoDTO, porId: map<string, Colaborador>): map<string, string> {
    PreviousDepartments(ToAdd(input, atual, porId), ToRemove(input, atual, porId), atual.nome)
  }

  /** The edit's forward writes once the department itself is saved under
      `nome`: added employees moved in, their old departments pruned,
      removed employees moved to `destino`. */
  function EditPlan(id: string, input: UpdateDepartamentoInput, atual: DepartamentoDTO, porId: map<string, Colaborador>,
                    destino: string, todos: seq<DepartamentoDTO>, nome: string): seq<Step>
  {
    var toAdd := ToAdd(input, atual, porId);
    Assigns(toAdd, nome) + PruneSteps(todos, id, toAdd) + Assigns(ToRemove(input, atual, porId), destino)
  }

  /** The write that puts back the department's name, manager and roster. */
  function RestoreCall(id: string, atual: DepartamentoDTO): (r: Call)
    ensures r.UpdateDept? && r.id == id
    ensures r.patch.nome == Some(atual.nome) && r.patch.gestorResponsavelId == Some(atual.gestorResponsavelId)
    ensures r.patch.colaboradoresIds == Some(atual.colaboradoresIds)
    ensures r.patch.descricao.None? && r.patch.sigla.None?
  {
    UpdateDept(id, ToAtualizarDTO(UpdateDepartamentoInput(Some(atual.nome), Some(atual.gestorResponsavelId),
                                                          Some(atual.colaboradoresIds), None, None)))
  }

  /** The edit's writes after the department itself is saved under `nome`. */
  method EditWrites(store: Store, id: string, input: UpdateDepartamentoInput, atual: DepartamentoDTO,
                    porId: map<string, Colaborador>, destino: string, todos: seq<DepartamentoDTO>, nome: string)
    returns (err: Option<Thrown>, ghost d: seq<Entry>)
    modifies store
    ensures store.log == old(store.log) + d
    ensures store.state == After(old(store.state), d)
    ensures StepsOutcome(d, EditPlan(id, input, atual, porId, destino, todos, nome),
                         EditPrevious(input, atual, porId), RestoreCall(id, atual), err)
  {
    var toAdd := Lookup(AddedIds(input, atual), porId);
    var toRemove := Lookup(RemovedIds(input, atual), porId);
    var prev := PreviousDepartments(toAdd, toRemove, atual.nome);
    var plan := Assigns(toAdd, nome) + PruneSteps(todos, id, toAdd) + Assigns(toRemove, destino);
    err, d := WriteOrUndo(store, plan, prev, RestoreCall(id, atual));
  }

  /** `updateDepartamentoEAtualizarColaboradores`: refuses to remove
      employees without a destination; otherwise saves the department
      (an error there is passed on as is), then moves the added employees
      in, prunes them from their old departments' rosters and moves the
      removed ones to the destination; on an error in those writes it
      compensates and passes the error on. */
  method UpdateDepartamentoEAtualizarColaboradores(store: Store, id: string, input: UpdateDepartamentoInput,
                                                   atual: DepartamentoDTO, porId: map<string, Colaborador>,
                                                   destino: string, todos: seq<DepartamentoDTO>)
    returns (r: Result<DepartamentoDTO>, ghost d: seq<Entry>)
    modifies store
    ensures store.log == old(store.log) + d
    ensures store.state == After(old(store.state), d)
    ensures NeedsDestino(input, atual, destino) ==> d == [] && r == Fail(PlainError(DestinoRequiredMessage))
    ensures !NeedsDestino(input, atual, destino) ==> EditOutcome(d, r, id, input, atual, porId, destino, todos)
  {
    ghost var s0 := store.state;
    ghost var log0 := store.log;
    if NeedsDestino(input, atual, destino) {
      r, d := Fail(PlainError(DestinoRequiredMessage)), [];
      return;
    }
    var w;
    ghost var e0;
    w, e0 := Issue(store, UpdateDept(id, ToAtualizarDTO(input)));
    AfterStep(s0, [], e0);
    if w.Failed? {
      r, d := Fail(w.error), [e0];
      return;
    }
    assert e0.passed && w.Dept?;
    var updated := w.dept;
    var err;
    ghost var d1;
    err, d1 := EditWrites(store, id, input, atual, porId, destino, todos, updated.nome);
    r := if err.None? then Ok(updated) else Fail(err.value);
    d := [e0] + d1;
    EditSaved(e0, d1, err, r, id, input, atual, porId, destino, todos);
    LogGrows(log0, [e0], d1);
    AfterAppend(s0, [e0], d1);
  }

  /** The edit's log: the department saved first; an error there ends it;
      otherwise the forward writes and, on an error, the compensation
      follow, and the saved department is returned when all went through. */
  ghost predicate EditOutcome(d: seq<Entry>, r: Result<DepartamentoDTO>, id: string, input: UpdateDepartamentoInput,
                              atual: DepartamentoDTO, porId: map<string, Colaborador>, destino: string,
                              todos: seq<DepartamentoDTO>)
  {
    && |d| >= 1 && d[0].call == UpdateDept(id, ToAtualizarDTO(input))
    && (d[0].reply.Failed? ==> |d| == 1 && r == Fail(d[0].reply.error))
    && (!d[0].reply.Failed? ==>
          && d[0].passed && d[0].reply.Dept?
          && (r.Ok? ==> r.value == d[0].reply.dept)
          && StepsOutcome(d[1..], EditPlan(id, input, atual, porId, destino, todos, d[0].reply.dept.nome),
                          EditPrevious(input, atual, porId), RestoreCall(id, atual),
                          if r.Ok? then None else Some(r.error)))
  }

  lemma EditSaved(e0: Entry, d1: seq<Entry>, err: Option<Thrown>, r: Result<DepartamentoDTO>, id: string,
                  input: UpdateDepartamentoInput, atual: DepartamentoDTO, porId: map<string, Colaborador>,
                  destino: string, todos: seq<DepartamentoDTO>)
    requires e0.call == UpdateDept(id, ToAtualizarDTO(input)) && e0.passed && e0.reply.Dept?
    requires r == if err.None? then Ok(e0.reply.dept) else Fail(err.value)
    requires StepsOutcome(d1, EditPlan(id, input, atual, porId, destino, todos, e0.reply.dept.nome),
                          EditPrevious(input, atual, porId), RestoreCall(id, atual), err)
    ensures EditOutcome([e0] + d1, r, id, input, atual, porId, destino, todos)
  {
    assert ([e0] + d1)[1..] == d1;
    assert err == (if r.Ok? then None else Some(r.error));
  }

  // ---------------------------------------------------------------------
  // Where the edit leaves employees

  /** The page's map from id to employee is keyed by the employees' ids. */
  predicate KeyedById(porId: map<string, Colaborador>) {
    forall k :: k in porId ==> porId[k].id == k
  }

  /** Every employee in `cs` is the map's entry for its own id. */
  predicate FromMap(cs: seq<Colaborador>, porId: map<string, Colaborador>) {
    forall c :: c in cs ==> c.id in porId && porId[c.id] == c
  }

  lemma LookupFromMap(ids: seq<string>, porId: map<string, Colaborador>)
    requires KeyedById(porId)
    ensures FromMap(Lookup(ids, porId), porId)
    ensures forall c :: c in Lookup(ids, porId) ==> c.id in ids
  {
  }

  lemma FromMapUnique(cs: seq<Colaborador>, porId: map<string, Colaborador>)
    requires FromMap(cs, porId)
    ensures UniqueIds(cs)
  {
    forall i, j | 0 <= i < |cs| && 0 <= j < |cs| && cs[i].id == cs[j].id ensures cs[i] == cs[j] {
      assert cs[i] in cs && cs[j] in cs;
    }
  }

  /** An employee recorded as updated was the subject of a move step. */
  lemma {:induction false} UpdatedFrom(steps: seq<Step>, c: Colaborador)
    requires c in Updated(steps)
    ensures exists i :: 0 <= i < |steps| && steps[i].Assign? && steps[i].colab == c
    decreases |steps|
  {
    var n := |steps| - 1;
    if c in Updated(steps[..n]) {
      UpdatedFrom(steps[..n], c);
      var i :| 0 <= i < n && steps[..n][i].Assign? && steps[..n][i].colab == c;
      assert steps[i] == steps[..n][i];
    }
  }

  /** A plan of moves to `a`, roster writes and moves to `b` records as
      updated only employees of `a` and `b`. */
  lemma UpdatedFromParts(a: seq<Colaborador>, n1: string, prunes: seq<Step>, b: seq<Colaborador>, n2: string,
                         k: nat, c: Colaborador)
    requires forall st :: st in prunes ==> st.Prune?
    requires k <= |Assigns(a, n1) + prunes + Assigns(b, n2)|
    requires c in Updated((Assigns(a, n1) + prunes + Assigns(b, n2))[..k])
    ensures c in a || c in b
  {
    var plan := Assigns(a, n1) + prunes + Assigns(b, n2);
    UpdatedFrom(plan[..k], c);
    var i :| 0 <= i < k && plan[..k][i].Assign? && plan[..k][i].colab == c;
    assert plan[i] == plan[..k][i];
    var st := plan[i];
    assert st in Assigns(a, n1) || st in prunes || st in Assigns(b, n2);
    if st in Assigns(a, n1) {
      var j :| 0 <= j < |a| && Assigns(a, n1)[j] == st;
    } else if st in Assigns(b, n2) {
      var j :| 0 <= j < |b| && Assigns(b, n2)[j] == st;
    }
  }

  /** With a map keyed by id, the looked-up employees are the map's own
      entries, and none is both added and removed. */
  lemma EditListsKeyed(input: UpdateDepartamentoInput, atual: DepartamentoDTO, porId: map<string, Colaborador>)
    requires KeyedById(porId)
    ensures FromMap(ToAdd(input, atual, porId) + ToRemove(input, atual, porId), porId)
    ensures IdsOf(ToAdd(input, atual, porId)) !! IdsOf(ToRemove(input, atual, porId))
  {
    var toAdd, toRemove := ToAdd(input, atual, porId), ToRemove(input, atual, porId);
    LookupFromMap(AddedIds(input, atual), porId);
    LookupFromMap(RemovedIds(input, atual), porId);
    forall x | x in IdsOf(toAdd) ensures x !in IdsOf(toRemove) {
      AddedRemovedAreDifferences(input, atual, x);
    }
  }

  /** The tail of a failed run's log is its compensation. */
  lemma FailedTail(d: seq<Entry>, n: nat, plan: seq<Call>, k: nat, rollback: seq<Call>)
    requires n <= |d| && FailedAt(d[n..], plan, k, rollback)
    ensures n + k + 1 <= |d| && Calls(d[n + k + 1..]) == rollback
  {
    var dn := d[n..];
    assert |Calls(dn)| == |plan[..k + 1] + rollback|;
    forall i | 0 <= i < |rollback| ensures Calls(d[n + k + 1..])[i] == rollback[i] {
      assert Calls(dn)[k + 1 + i] == (plan[..k + 1] + rollback)[k + 1 + i];
      assert dn[k + 1 + i] == d[n + k + 1 + i];
    }
  }

  /** When the edit succeeds, every employee on record that was removed is
      in the destination, every one added (and not removed) is in the
      saved department's name, and every other keeps its department. */
  lemma EditSucceededMovesEmployees(s0: State, d: seq<Entry>, id: string, input: UpdateDepartamentoInput,
                                    atual: DepartamentoDTO, porId: map<string, Colaborador>, destino: string,
                                    todos: seq<DepartamentoDTO>, x: string)
    requires |d| >= 1 && d[0].call.UpdateDept? && d[0].reply.Dept?
    requires StepsOutcome(d[1..], EditPlan(id, input, atual, porId, destino, todos, d[0].reply.dept.nome),
                          EditPrevious(input, atual, porId), RestoreCall(id, atual), None)
    requires x in s0.colabs
    ensures x in After(s0, d).colabs
    ensures After(s0, d).colabs[x].departamento ==
      if x in IdsOf(ToRemove(input, atual, porId)) then destino
      else if x in IdsOf(ToAdd(input, atual, porId)) then d[0].reply.dept.nome
      else s0.colabs[x].departamento
  {
    var toAdd, toRemove := ToAdd(input, atual, porId), ToRemove(input, atual, porId);
    var nome := d[0].reply.dept.nome;
    var prunes := PruneSteps(todos, id, toAdd);
    LastDeptOfSteps(d[1..], EditPlan(id, input, atual, porId, destino, todos, nome), x);
    AssignedToAppend(Assigns(toAdd, nome) + prunes, Assigns(toRemove, destino), x);
    AssignedToAppend(Assigns(toAdd, nome), prunes, x);
    AssignedToAssigns(toAdd, nome, x);
    AssignedToAssigns(toRemove, destino, x);
    PruneStepsExactly(todos, id, toAdd);
    AssignedToPrunes(prunes, x);
    assert d == d[..1] + d[1..];
    assert LastDept(d[..1], x) == None by {
      assert d[..1][..0] == [];
    }
    LastDeptAppend(d[..1], d[1..], x);
    AfterColabDept(s0, d, x);
  }


  /** A log that, after its first `n` entries, ran steps up to a failure
      at `k` and then a compensation that went through, leaves each
      employee the compensation writes back, whose id no other such copy
      shares, where `RestoreDept` says. */
  lemma FailedThenRestored(s0: State, d: seq<Entry>, n: nat, plan: seq<Step>, k: nat, restored: seq<Colaborador>,
                           prev: map<string, string>, last: Call, c: Colaborador)
    requires n <= |d| && k < |plan| && !last.UpdateColab?
    requires FailedAt(d[n..], StepCalls(plan), k, Compensation(Tracked(plan[..k + 1]), restored, prev, last))
    requires PassedBetween(d, n + k + 1, |d|)
    requires UniqueIds(restored) && c in restored && c.id in s0.colabs
    ensures c.id in After(s0, d).colabs
    ensures After(s0, d).colabs[c.id].departamento == RestoreDept(c, prev)
  {
    var comp := Compensation(Tracked(plan[..k + 1]), restored, prev, last);
    FailedTail(d, n, StepCalls(plan), k, comp);
    UndoRestores(s0, d, n + k + 1, Tracked(plan[..k + 1]), restored, prev, last, c);
  }



  /** When the edit fails at step `k` and every compensating call goes
      through, every employee it had moved is back in its previous
      department (`EditPreviousOf` says which that is). */
  lemma EditFailedRestoresEmployees(s0: State, d: seq<Entry>, id: string, input: UpdateDepartamentoInput,
                                    atual: DepartamentoDTO, porId: map<string, Colaborador>, destino: string,
                                    todos: seq<DepartamentoDTO>, nome: string, plan: seq<Step>, k: nat, c: Colaborador)
    requires plan == EditPlan(id, input, atual, porId, destino, todos, nome) && k < |plan| && |d| >= 1
    requires FailedAt(d[1..], StepCalls(plan), k,
                      Compensation(Tracked(plan[..k + 1]), Updated(plan[..k]), EditPrevious(input, atual, porId), RestoreCall(id, atual)))
    requires PassedBetween(d, k + 2, |d|)
    requires KeyedById(porId)
    requires c in Updated(plan[..k]) && c.id in s0.colabs
    ensures c.id in After(s0, d).colabs
    ensures After(s0, d).colabs[c.id].departamento == RestoreDept(c, EditPrevious(input, atual, porId))
  {
    EditUpdatedUnique(id, input, atual, porId, destino, todos, nome, plan, k);
    FailedThenRestored(s0, d, 1, plan, k, Updated(plan[..k]), EditPrevious(input, atual, porId), RestoreCall(id, atual), c);
  }


  /** With a map keyed by id, the employees an edit records as updated
      were looked up and share no id. */
  lemma EditUpdatedUnique(id: string, input: UpdateDepartamentoInput, atual: DepartamentoDTO,
                          porId: map<string, Colaborador>, destino: string, todos: seq<DepartamentoDTO>,
                          nome: string, plan: seq<Step>, k: nat)
    requires plan == EditPlan(id, input, atual, porId, destino, todos, nome) && k <= |plan|
    requires KeyedById(porId)
    ensures UniqueIds(Updated(plan[..k]))
    ensures forall c :: c in Updated(plan[..k]) ==> c in ToAdd(input, atual, porId) || c in ToRemove(input, atual, porId)
  {
    var toAdd, toRemove := ToAdd(input, atual, porId), ToRemove(input, atual, porId);
    PruneStepsArePrunes(todos, id, toAdd);
    EditListsKeyed(input, atual, porId);
    PlanUpdatedUnique(toAdd, nome, PruneSteps(todos, id, toAdd), toRemove, destino, k, porId);
  }

  /** With a map keyed by id, a removed employee goes back to the edited
      department's current name and an added one to its own department. */
  lemma EditPreviousOf(input: UpdateDepartamentoInput, atual: DepartamentoDTO, porId: map<string, Colaborador>, c: Colaborador)
    requires KeyedById(porId)
    requires c in ToAdd(input, atual, porId) || c in ToRemove(input, atual, porId)
    ensures RestoreDept(c, EditPrevious(input, atual, porId)) == if c in ToRemove(input, atual, porId) then atual.nome else c.departamento
  {
    var toAdd, toRemove := ToAdd(input, atual, porId), ToRemove(input, atual, porId);
    EditListsKeyed(input, atual, porId);
    if c in toAdd {
      assert c.id in IdsOf(toAdd);
      forall c2 | c2 in toAdd && c2.id == c.id ensures c2.departamento == c.departamento {
        assert c2 in toAdd + toRemove && c in toAdd + toRemove;
      }
    }
    PreviousDepartmentsTargets(toAdd, toRemove, atual.nome, c);
  }

  /** In a plan of moves to `a`, roster writes and moves to `b`, with
      `a` and `b` drawn from a map keyed by id, the employees recorded as
      updated come from `a` and `b` and share no id. */
  lemma PlanUpdatedUnique(a: seq<Colaborador>, n1: string, prunes: seq<Step>, b: seq<Colaborador>, n2: string,
                          k: nat, porId: map<string, Colaborador>)
    requires forall st :: st in prunes ==> st.Prune?
    requires k <= |Assigns(a, n1) + prunes + Assigns(b, n2)|
    requires FromMap(a + b, porId)
    ensures forall c :: c in Updated((Assigns(a, n1) + prunes + Assigns(b, n2))[..k]) ==> c in a || c in b
    ensures UniqueIds(Updated((Assigns(a, n1) + prunes + Assigns(b, n2))[..k]))
  {
    var updated := Updated((Assigns(a, n1) + prunes + Assigns(b, n2))[..k]);
    forall c | c in updated ensures c in a || c in b {
      UpdatedFromParts(a, n1, prunes, b, n2, k, c);
    }
    forall c | c in updated ensures c.id in porId && porId[c.id] == c {
      assert c in a + b;
    }
    FromMapUnique(updated, porId);
  }

  /** The roster loop issues only roster writes. */
  lemma {:induction false} PruneStepsArePrunes(list: seq<DepartamentoDTO>, skipId: string, cs: seq<Colaborador>)
    ensures forall st :: st in PruneSteps(list, skipId, cs) ==> st.Prune?
    decreases |list|
  {
    if list != [] {
      PruneStepsArePrunes(list[..|list| - 1], skipId, cs);
    }
  }

  // ---------------------------------------------------------------------
  // Creating a department: criarDepartamentoEAtualizarColaboradores

  /** The page's selected employees whose ids the input lists, in the
      page's order. */
  function Selected(cs: seq<Colaborador>, ids: seq<string>): (r: seq<Colaborador>)
    ensures forall c :: c in r <==> c in cs && c.id in ids
    ensures |r| <= |cs|
    decreases |cs|
  {
    if cs == [] then []
    else
      var c := cs[|cs| - 1];
      Selected(cs[..|cs| - 1], ids) + (if c.id in ids then [c] else [])
  }

  lemma SelectedUnique(cs: seq<Colaborador>, ids: seq<string>)
    requires UniqueIds(cs)
    ensures UniqueIds(Selected(cs, ids))
  {
    var r := Selected(cs, ids);
    forall i, j | 0 <= i < |r| && 0 <= j < |r| && r[i].id == r[j].id ensures r[i] == r[j] {
      assert r[i] in cs && r[j] in cs;
      var a :| 0 <= a < |cs| && cs[a] == r[i];
      var b :| 0 <= b < |cs| && cs[b] == r[j];
    }
  }

  /** Moves record no roster snapshot; after `j` of them the first `j`
      employees are recorded as updated. */
  lemma {:induction false} AssignsRecorded(cs: seq<Colaborador>, dept: string, j: nat)
    requires j <= |cs|
    ensures Tracked(Assigns(cs, dept)[..j]) == []
    ensures Updated(Assigns(cs, dept)[..j]) == cs[..j]
    decreases j
  {
    if j > 0 {
      AssignsRecorded(cs, dept, j - 1);
      TrackedStep(Assigns(cs, dept), j - 1);
      assert cs[..j] == cs[..j - 1] + [cs[j - 1]];
    }
  }

  /** The entries of `d` issued the moves of `cs` to `nome`, each let
      through and successful. */
  ghost predicate MovedAll(d: seq<Entry>, cs: seq<Colaborador>, nome: string) {
    Calls(d) == StepCalls(Assigns(cs, nome)) && SucceededBetween(d, 0, |d|) && PassedBetween(d, 0, |d|)
  }

  /** What the roster writes and their own compensation leave: all done,
      or step `k` threw and the rosters written so far were put back. */
  ghost predicate PrunesOutcome(d: seq<Entry>, steps: seq<Step>, err: Option<Thrown>) {
    && (err.None? ==> Calls(d) == StepCalls(steps) && SucceededBetween(d, 0, |d|) && PassedBetween(d, 0, |d|))
    && (err.Some? ==> exists k :: RostersUndoneAt(d, steps, k, err.value))
  }

  /** Roster write `k` threw `e`, and the rosters written up to it were put back. */
  ghost predicate RostersUndoneAt(d: seq<Entry>, steps: seq<Step>, k: int, e: Thrown) {
    0 <= k < |steps| && UndoneAt(d, steps, k, RosterRestores(Tracked(steps[..k + 1])), e)
  }

  /** The inner `try`: the roster writes; on an error the snapshots are
      written back (errors swallowed) and the error is passed on. */
  method PruneOrRestore(store: Store, steps: seq<Step>) returns (err: Option<Thrown>, ghost d: seq<Entry>)
    modifies store
    ensures store.log == old(store.log) + d
    ensures store.state == After(old(store.state), d)
    ensures PrunesOutcome(d, steps, err)
  {
    ghost var s0 := store.state;
    ghost var log0 := store.log;
    var k, tracked, updated;
    ghost var d1;
    err, k, tracked, updated, d1 := RunSteps(store, steps);
    if err.None? {
      d := d1;
      return;
    }
    ghost var s1 := store.state;
    ghost var d2 := RestoreRosters(store, tracked);
    d := d1 + d2;
    LogGrows(log0, d1, d2);
    AfterAppend(s0, d1, d2);
    FailedThenUndone(d1, d2, steps, err, k, tracked, updated, s0, s1, RosterRestores(tracked));
    assert RostersUndoneAt(d, steps, k, err.value);
  }

  /** After the moves: the listing, then the roster writes it calls for. */
  ghost predicate ListedOutcome(d: seq<Entry>, cs: seq<Colaborador>, nd: DepartamentoDTO, err: Option<Thrown>) {
    && |d| >= 1 && d[0].call == ListDepts
    && (d[0].reply.Failed? ==> |d| == 1 && err == Some(d[0].reply.error))
    && (!d[0].reply.Failed? ==>
          d[0].passed && d[0].reply.Listed? && PrunesOutcome(d[1..], PruneSteps(d[0].reply.depts, nd.id, cs), err))
  }

  /** Lists the departments and prunes the moved employees from the rosters
      of those they came from. */
  method ListAndPrune(store: Store, cs: seq<Colaborador>, nd: DepartamentoDTO) returns (err: Option<Thrown>, ghost d: seq<Entry>)
    modifies store
    ensures store.log == old(store.log) + d
    ensures store.state == After(old(store.state), d)
    ensures ListedOutcome(d, cs, nd, err)
  {
    ghost var s0 := store.state;
    ghost var log0 := store.log;
    var w;
    ghost var e;
    w, e := Issue(store, ListDepts);
    AfterStep(s0, [], e);
    if w.Failed? {
      err, d := Some(w.error), [e];
      return;
    }
    ghost var d1;
    err, d1 := PruneOrRestore(store, PruneSteps(w.depts, nd.id, cs));
    d := [e] + d1;
    assert d[1..] == d1;
    LogGrows(log0, [e], d1);
    AfterAppend(s0, [e], d1);
  }

  /** What the writes after the create leave: the moves, the listing and the
      roster writes all done; or a move threw and the moved employees were
      written back and the department deleted; or the listing or a roster
      write threw, the rosters were put back, then every employee and the
      department as before. */
  ghost predicate CreateOutcome(d: seq<Entry>, cs: seq<Colaborador>, nd: DepartamentoDTO, err: Option<Thrown>) {
    var n := |cs|;
    var undo := DeleteDept(nd.id);
    if err.None? then
      |d| > n && MovedAll(d[..n], cs, nd.nome) && ListedOutcome(d[n..], cs, nd, None)
    else
      || (exists k :: 0 <= k < n && UndoneAt(d, Assigns(cs, nd.nome), k, Compensation([], cs[..k], map[], undo), err.value))
      || (exists m :: n < m <= |d| && MovedAll(d[..n], cs, nd.nome) && ListedOutcome(d[n..m], cs, nd, err)
                      && Calls(d[m..]) == Compensation([], cs, map[], undo))
  }

  lemma MovesFailed(s0: State, s1: State, d1: seq<Entry>, d2: seq<Entry>, cs: seq<Colaborador>, nd: DepartamentoDTO,
                    err: Option<Thrown>, k: nat, tracked: seq<(string, seq<string>)>, updated: seq<Colaborador>)
    requires err.Some? && RunOutcome(s0, Assigns(cs, nd.nome), err, k, d1, tracked, updated, s1)
    requires Calls(d2) == Compensation(tracked, updated, map[], DeleteDept(nd.id))
    ensures CreateOutcome(d1 + d2, cs, nd, err)
  {
    AssignsRecorded(cs, nd.nome, k);
    AssignsRecorded(cs, nd.nome, k + 1);
    FailedThenUndone(d1, d2, Assigns(cs, nd.nome), err, k, tracked, updated, s0, s1,
                     Compensation([], cs[..k], map[], DeleteDept(nd.id)));
  }

  lemma MovedAllOf(s0: State, s1: State, d1: seq<Entry>, cs: seq<Colaborador>, nd: DepartamentoDTO,
                   k: nat, tracked: seq<(string, seq<string>)>, updated: seq<Colaborador>)
    requires RunOutcome(s0, Assigns(cs, nd.nome), None, k, d1, tracked, updated, s1)
    ensures MovedAll(d1, cs, nd.nome) && |d1| == |cs|
    ensures updated == cs
  {
    AssignsRecorded(cs, nd.nome, |cs|);
    assert Assigns(cs, nd.nome)[..|cs|] == Assigns(cs, nd.nome);
  }

  lemma ListedDone(d1: seq<Entry>, d2: seq<Entry>, cs: seq<Colaborador>, nd: DepartamentoDTO)
    requires MovedAll(d1, cs, nd.nome) && |d1| == |cs| && ListedOutcome(d2, cs, nd, None)
    ensures CreateOutcome(d1 + d2, cs, nd, None)
  {
    var d := d1 + d2;
    assert d[..|cs|] == d1 && d[|cs|..] == d2;
  }

  lemma ListedFailed(d1: seq<Entry>, d2: seq<Entry>, d3: seq<Entry>, cs: seq<Colaborador>, nd: DepartamentoDTO,
                     err: Option<Thrown>)
    requires err.Some? && MovedAll(d1, cs, nd.nome) && |d1| == |cs| && ListedOutcome(d2, cs, nd, err)
    requires Calls(d3) == Compensation([], cs, map[], DeleteDept(nd.id))
    ensures CreateOutcome(d1 + d2 + d3, cs, nd, err)
  {
    var d := d1 + d2 + d3;
    var m := |d1| + |d2|;
    assert d[..|cs|] == d1 && d[|cs|..m] == d2 && d[m..] == d3;
  }

  /** The outer `try`: the moves, then the listing and the roster writes; on
      an error the moved employees are written back and the new department
      deleted (errors swallowed), and the error is passed on. */
  method CreateWrites(store: Store, cs: seq<Colaborador>, nd: DepartamentoDTO) returns (err: Option<Thrown>, ghost d: seq<Entry>)
    modifies store
    ensures store.log == old(store.log) + d
    ensures store.state == After(old(store.state), d)
    ensures CreateOutcome(d, cs, nd, err)
  {
    ghost var s0 := store.state;
    ghost var log0 := store.log;
    var k, tracked, updated;
    ghost var d1;
    err, k, tracked, updated, d1 := RunSteps(store, Assigns(cs, nd.nome));
    ghost var s1 := store.state;
    if err.Some? {
      ghost var d2 := Undo(store, tracked, updated, map[], DeleteDept(nd.id));
      d := d1 + d2;
      LogGrows(log0, d1, d2);
      AfterAppend(s0, d1, d2);
      MovesFailed(s0, s1, d1, d2, cs, nd, err, k, tracked, updated);
      return;
    }
    MovedAllOf(s0, s1, d1, cs, nd, k, tracked, updated);
    ghost var d2;
    err, d2 := ListAndPrune(store, cs, nd);
    LogGrows(log0, d1, d2);
    AfterAppend(s0, d1, d2);
    if err.None? {
      ListedDone(d1, d2, cs, nd);
      d := d1 + d2;
      return;
    }
    ghost var d3 := Undo(store, [], updated, map[], DeleteDept(nd.id));
    d := d1 + d2 + d3;
    LogGrows(log0, d1 + d2, d3);
    AfterAppend(s0, d1 + d2, d3);
    ListedFailed(d1, d2, d3, cs, nd, err);
  }

  /** `criarDepartamentoEAtualizarColaboradores`: creates the department
      (an error there is passed on, nothing to undo); when the input lists
      some of the selected employees, moves them in and prunes them from the
      departments they came from, compensating on an error. `newId` is the
      id `addDoc` gives the new document: never one already stored. */
  method CriarDepartamentoEAtualizarColaboradores(store: Store, input: CreateDepartamentoInput,
                                                  selecionados: seq<Colaborador>, newId: string)
    returns (r: Result<DepartamentoDTO>, ghost d: seq<Entry>)
    requires newId !in store.state.depts
    modifies store
    ensures store.log == old(store.log) + d
    ensures store.state == After(old(store.state), d)
    ensures CriarOutcome(d, r, input, selecionados, newId)
  {
    ghost var s0 := store.state;
    ghost var log0 := store.log;
    var w;
    ghost var e0;
    w, e0 := Issue(store, CreateDept(ToCriarDTO(input), newId));
    AfterStep(s0, [], e0);
    if w.Failed? {
      r, d := Fail(w.error), [e0];
      return;
    }
    var newDept := w.dept;
    var toUpdate := Selected(selecionados, input.colaboradoresIds.GetOr([]));
    if |toUpdate| == 0 {
      r, d := Ok(newDept), [e0];
      return;
    }
    var err;
    ghost var d1;
    err, d1 := CreateWrites(store, toUpdate, newDept);
    r := if err.None? then Ok(newDept) else Fail(err.value);
    d := [e0] + d1;
    CreateSaved(e0, d1, err, r, input, selecionados, newId);
    LogGrows(log0, [e0], d1);
    AfterAppend(s0, [e0], d1);
  }

  /** The create's log: the create first; an error there ends it (the
      oracle stopped it: a create that runs always succeeds); otherwise the
      created department is returned when nothing else threw, and with
      employees to move the rest is as `CreateOutcome` says. */
  ghost predicate CriarOutcome(d: seq<Entry>, r: Result<DepartamentoDTO>, input: CreateDepartamentoInput,
                               selecionados: seq<Colaborador>, newId: string)
  {
    var cs := Selected(selecionados, input.colaboradoresIds.GetOr([]));
    && |d| >= 1 && d[0].call == CreateDept(ToCriarDTO(input), newId)
    && (d[0].reply.Failed? ==> |d| == 1 && !d[0].passed && r == Fail(d[0].reply.error))
    && (!d[0].reply.Failed? ==>
          && d[0].passed && d[0].reply == Dept(DC.CriarReply(newId, ToCriarDTO(input)))
          && (r.Ok? ==> r.value == d[0].reply.dept)
          && (cs == [] ==> |d| == 1 && r.Ok?)
          && (cs != [] ==> CreateOutcome(d[1..], cs, d[0].reply.dept, if r.Ok? then None else Some(r.error))))
  }

  lemma CreateSaved(e0: Entry, d1: seq<Entry>, err: Option<Thrown>, r: Result<DepartamentoDTO>,
                    input: CreateDepartamentoInput, selecionados: seq<Colaborador>, newId: string)
    requires e0.call == CreateDept(ToCriarDTO(input), newId) && e0.passed
    requires e0.reply == Dept(DC.CriarReply(newId, ToCriarDTO(input)))
    requires Selected(selecionados, input.colaboradoresIds.GetOr([])) != []
    requires r == if err.None? then Ok(e0.reply.dept) else Fail(err.value)
    requires CreateOutcome(d1, Selected(selecionados, input.colaboradoresIds.GetOr([])), e0.reply.dept, err)
    ensures CriarOutcome([e0] + d1, r, input, selecionados, newId)
  {
    assert ([e0] + d1)[1..] == d1;
    assert err == (if r.Ok? then None else Some(r.error));
  }

  // ---------------------------------------------------------------------
  // Where the create leaves employees and the department

  /** Every call issued after the first error went through: the
      compensation was not itself interrupted. */
  ghost predicate CompensationWentThrough(d: seq<Entry>) {
    forall i, j :: 0 <= i < j < |d| && d[i].reply.Failed? ==> d[j].passed
  }

  lemma StepsDeleteNothing(d: seq<Entry>, steps: seq<Step>)
    requires Calls(d) == StepCalls(steps)
    ensures NoDeletes(d)
  {
    forall i | 0 <= i < |d| ensures !d[i].call.DeleteDept? {
      assert Calls(d)[i] == StepCall(steps[i]);
    }
  }

  /** The listing and the roster writes touch no employee and delete no
      department. */
  lemma ListedTouchesNoEmployee(d: seq<Entry>, cs: seq<Colaborador>, nd: DepartamentoDTO, x: string)
    requires ListedOutcome(d, cs, nd, None)
    ensures LastDept(d, x) == None
  {
    var P := PruneSteps(d[0].reply.depts, nd.id, cs);
    var rest := d[1..];
    PruneStepsArePrunes(d[0].reply.depts, nd.id, cs);
    LastDeptOfSteps(rest, P, x);
    AssignedToPrunes(P, x);
    assert LastDept([d[0]], x) == None by {
      assert [d[0]][..0] == [];
    }
    assert d == [d[0]] + rest;
    LastDeptAppend([d[0]], rest, x);
  }

  lemma ListedDeletesNothing(d: seq<Entry>, cs: seq<Colaborador>, nd: DepartamentoDTO)
    requires ListedOutcome(d, cs, nd, None)
    ensures NoDeletes(d)
  {
    var rest := d[1..];
    StepsDeleteNothing(rest, PruneSteps(d[0].reply.depts, nd.id, cs));
    assert d == [d[0]] + rest;
    NoDeletesAppend([d[0]], rest);
  }

  /** When the create's writes all succeed, the selected employees are in
      the new department, every other employee keeps its department, and a
      stored department stays stored. */
  lemma CreateSucceededMovesEmployees(s0: State, d: seq<Entry>, cs: seq<Colaborador>, nd: DepartamentoDTO, x: string)
    requires CreateOutcome(d, cs, nd, None) && x in s0.colabs
    ensures x in After(s0, d).colabs
    ensures After(s0, d).colabs[x].departamento == if x in IdsOf(cs) then nd.nome else s0.colabs[x].departamento
    ensures nd.id in s0.depts ==> nd.id in After(s0, d).depts
  {
    var n := |cs|;
    var d1, d2 := d[..n], d[n..];
    assert d == d1 + d2;
    LastDeptOfSteps(d1, Assigns(cs, nd.nome), x);
    AssignedToAssigns(cs, nd.nome, x);
    ListedTouchesNoEmployee(d2, cs, nd, x);
    LastDeptAppend(d1, d2, x);
    AfterColabDept(s0, d, x);
    if nd.id in s0.depts {
      CreateSucceededDeletesNothing(d, cs, nd);
      AfterKeepsDept(s0, d, nd.id);
    }
  }

  lemma CreateSucceededDeletesNothing(d: seq<Entry>, cs: seq<Colaborador>, nd: DepartamentoDTO)
    requires CreateOutcome(d, cs, nd, None)
    ensures NoDeletes(d)
  {
    var n := |cs|;
    var d1, d2 := d[..n], d[n..];
    StepsDeleteNothing(d1, Assigns(cs, nd.nome));
    ListedDeletesNothing(d2, cs, nd);
    assert d == d1 + d2;
    NoDeletesAppend(d1, d2);
  }

  lemma UniquePrefix(cs: seq<Colaborador>, k: nat)
    requires k <= |cs| && UniqueIds(cs)
    ensures UniqueIds(cs[..k])
  {
    forall i, j | 0 <= i < k && 0 <= j < k && cs[..k][i].id == cs[..k][j].id ensures cs[..k][i] == cs[..k][j] {
      assert cs[..k][i] == cs[i] && cs[..k][j] == cs[j];
    }
  }

  /** A log whose entries from `m` on are a compensation ending in the
      delete of `x` that went through leaves `x` deleted, and every
      employee it writes back in its previous department. */
  lemma CompensatedFrom(s0: State, d: seq<Entry>, m: nat, restored: seq<Colaborador>, x: string)
    requires m <= |d| && Calls(d[m..]) == Compensation([], restored, map[], DeleteDept(x))
    requires PassedBetween(d, m, |d|) && UniqueIds(restored)
    ensures x !in After(s0, d).depts
    ensures forall c :: c in restored && c.id in s0.colabs ==>
      c.id in After(s0, d).colabs && After(s0, d).colabs[c.id].departamento == c.departamento
  {
    var l := |d| - 1;
    assert Calls(d[m..])[l - m] == DeleteDept(x);
    assert d[l] == d[m..][l - m];
    assert After(s0, d) == Effect(After(s0, d[..l]), d[l]);
    EffectDeleteDept(After(s0, d[..l]), x, d[l].passed, d[l].reply);
    forall c | c in restored && c.id in s0.colabs
      ensures c.id in After(s0, d).colabs && After(s0, d).colabs[c.id].departamento == c.departamento
    {
      UndoRestores(s0, d, m, [], restored, map[], DeleteDept(x), c);
    }
  }

  /** What a compensation that went through leaves: the new department
      gone, and `restored` — the selected employees moved before the error,
      all of them or those before the move that threw — back in their
      previous departments. */
  ghost predicate RestoredAfter(s0: State, d: seq<Entry>, cs: seq<Colaborador>, nd: DepartamentoDTO, restored: seq<Colaborador>) {
    && |restored| <= |cs| && restored == cs[..|restored|]
    && (|restored| < |cs| ==>
          |restored| < |d| && d[|restored|].call == StepCall(Assign(cs[|restored|], nd.nome)) && d[|restored|].reply.Failed?)
    && nd.id !in After(s0, d).depts
    && (forall c :: c in restored && c.id in s0.colabs ==>
          c.id in After(s0, d).colabs && After(s0, d).colabs[c.id].departamento == c.departamento)
  }

  /** When one of the create's writes throws and the compensation goes
      through, the new department is gone and the employees moved before
      the error are back where they were. */
  lemma CreateFailedRestoresEmployees(s0: State, d: seq<Entry>, cs: seq<Colaborador>, nd: DepartamentoDTO, e: Thrown)
    returns (restored: seq<Colaborador>)
    requires CreateOutcome(d, cs, nd, Some(e)) && CompensationWentThrough(d) && UniqueIds(cs)
    ensures RestoredAfter(s0, d, cs, nd, restored)
  {
    var n := |cs|;
    var del := DeleteDept(nd.id);
    if k :| 0 <= k < n && UndoneAt(d, Assigns(cs, nd.nome), k, Compensation([], cs[..k], map[], del), e) {
      restored := MoveFailedRestores(s0, d, cs, nd, e, k);
    } else {
      var m :| n < m <= |d| && MovedAll(d[..n], cs, nd.nome) && ListedOutcome(d[n..m], cs, nd, Some(e))
               && Calls(d[m..]) == Compensation([], cs, map[], del);
      restored := ListingFailedRestores(s0, d, cs, nd, e, m);
    }
  }

  lemma MoveFailedRestores(s0: State, d: seq<Entry>, cs: seq<Colaborador>, nd: DepartamentoDTO, e: Thrown, k: nat)
    returns (restored: seq<Colaborador>)
    requires k < |cs| && UndoneAt(d, Assigns(cs, nd.nome), k, Compensation([], cs[..k], map[], DeleteDept(nd.id)), e)
    requires CompensationWentThrough(d) && UniqueIds(cs)
    ensures RestoredAfter(s0, d, cs, nd, restored)
  {
    restored := cs[..k];
    assert d[0..] == d;
    FailedTail(d, 0, StepCalls(Assigns(cs, nd.nome)), k, Compensation([], cs[..k], map[], DeleteDept(nd.id)));
    assert Calls(d)[k] == StepCall(Assign(cs[k], nd.nome));
    UniquePrefix(cs, k);
    CompensatedFrom(s0, d, k + 1, restored, nd.id);
  }

  lemma ListingFailedRestores(s0: State, d: seq<Entry>, cs: seq<Colaborador>, nd: DepartamentoDTO, e: Thrown, m: nat)
    returns (restored: seq<Colaborador>)
    requires |cs| < m <= |d| && ListedOutcome(d[|cs|..m], cs, nd, Some(e))
    requires Calls(d[m..]) == Compensation([], cs, map[], DeleteDept(nd.id))
    requires CompensationWentThrough(d) && UniqueIds(cs)
    ensures RestoredAfter(s0, d, cs, nd, restored)
  {
    restored := cs;
    var n := |cs|;
    var f := FailureBefore(d[n..m], cs, nd, e);
    assert d[n..m][f] == d[n + f];
    CompensatedFrom(s0, d, m, cs, nd.id);
  }

  /** A listing or roster write that threw: the index of the failed entry. */
  lemma FailureBefore(d: seq<Entry>, cs: seq<Colaborador>, nd: DepartamentoDTO, e: Thrown) returns (f: nat)
    requires ListedOutcome(d, cs, nd, Some(e))
    ensures f < |d| && d[f].reply.Failed?
  {
    if d[0].reply.Failed? {
      f := 0;
    } else {
      var rest := d[1..];
      var P := PruneSteps(d[0].reply.depts, nd.id, cs);
      var k :| RostersUndoneAt(rest, P, k, e);
      f := k + 1;
      assert rest[k] == d[f];
    }
  }

  /** When `criarDepartamentoEAtualizarColaboradores` returns the new
      department, it is stored, the selected employees the input lists are
      in it, and every other employee keeps its department. */
  lemma CriarSucceeded(s0: State, d: seq<Entry>, r: Result<DepartamentoDTO>, input: CreateDepartamentoInput,
                       selecionados: seq<Colaborador>, newId: string, x: string)
    requires CriarOutcome(d, r, input, selecionados, newId) && r.Ok? && x in s0.colabs
    ensures newId in After(s0, d).depts
    ensures x in After(s0, d).colabs
    ensures After(s0, d).colabs[x].departamento ==
      if x in IdsOf(Selected(selecionados, input.colaboradoresIds.GetOr([]))) then input.nome else s0.colabs[x].departamento
  {
    var cs := Selected(selecionados, input.colaboradoresIds.GetOr([]));
    var e0, rest := d[0], d[1..];
    var s1 := Created(s0, d, input, newId);
    if cs != [] {
      CreateSucceededMovesEmployees(s1, rest, cs, e0.reply.dept, x);
    }
  }

  /** The state after the create entry: the department stored, the
      employees untouched; the rest of the log runs from there. */
  lemma Created(s0: State, d: seq<Entry>, input: CreateDepartamentoInput, newId: string) returns (s1: State)
    requires |d| >= 1 && d[0].call == CreateDept(ToCriarDTO(input), newId) && d[0].passed
    ensures s1.colabs == s0.colabs && newId in s1.depts
    ensures After(s0, d) == After(s1, d[1..])
  {
    s1 := Effect(s0, d[0]);
    EffectCreateDept(s0, ToCriarDTO(input), newId, true, d[0].reply);
    assert d == [d[0]] + d[1..];
    AfterAppend(s0, [d[0]], d[1..]);
    AfterStep(s0, [], d[0]);
  }

  /** When `criarDepartamentoEAtualizarColaboradores` throws: if the create
      itself threw nothing changed; otherwise, when the compensation goes
      through, the new department is gone and the employees moved before
      the error are back where they were. */
  lemma CriarFailed(s0: State, d: seq<Entry>, r: Result<DepartamentoDTO>, input: CreateDepartamentoInput,
                    selecionados: seq<Colaborador>, newId: string)
    returns (restored: seq<Colaborador>)
    requires CriarOutcome(d, r, input, selecionados, newId) && r.Fail?
    requires CompensationWentThrough(d) && UniqueIds(selecionados)
    ensures d[0].reply.Failed? ==> After(s0, d) == s0
    ensures !d[0].reply.Failed? ==>
      var cs := Selected(selecionados, input.colaboradoresIds.GetOr([]));
      && |restored| <= |cs| && restored == cs[..|restored|]
      && (|restored| < |cs| ==>
            1 + |restored| < |d| && d[1 + |restored|].call == StepCall(Assign(cs[|restored|], input.nome))
            && d[1 + |restored|].reply.Failed?)
      && newId !in After(s0, d).depts
      && (forall c :: c in restored && c.id in s0.colabs ==>
            c.id in After(s0, d).colabs && After(s0, d).colabs[c.id].departamento == c.departamento)
  {
    if d[0].reply.Failed? {
      AfterStep(s0, [], d[0]);
      assert d == [] + [d[0]];
      restored := [];
      return;
    }
    var cs := Selected(selecionados, input.colaboradoresIds.GetOr([]));
    var rest := d[1..];
    var s1 := Created(s0, d, input, newId);
    assert CompensationWentThrough(rest) by {
      forall i, j | 0 <= i < j < |rest| && rest[i].reply.Failed? ensures rest[j].passed {
        assert rest[i] == d[i + 1] && rest[j] == d[j + 1];
      }
    }
    SelectedUnique(selecionados, input.colaboradoresIds.GetOr([]));
    restored := CreateFailedRestoresEmployees(s1, rest, cs, d[0].reply.dept, r.error);
    if |restored| < |cs| {
      assert rest[|restored|] == d[1 + |restored|];
    }
  }
}

=== FILE: document_store.dfy ===
/**
 * The two collections the services talk to, as one in-memory store:
 * departments (raw Firestore documents, in listing order) and employees
 * (the in-memory repository's records, by id). Every repository call goes
 * through `Store.Perform`, which consults a failure oracle (call number
 * -> value thrown), applies the call when it does not fail, and appends
 * the call and its reply to a ghost log. A failed call has no effect; a
 * timed-out call is one more failed call.
 */
module Repositories {
  import opened Opt
  import opened Domain
  import opened Errors
  import DC = DepartamentoCollection
  import CM = ColaboradoresMock

  datatype State = State(depts: map<string, DC.Doc>, order: seq<string>, colabs: map<string, ColaboradorDTO>)

  /** The listing order names every stored department exactly once. */
  ghost predicate Valid(s: State) {
    && (forall i, j :: 0 <= i < j < |s.order| ==> s.order[i] != s.order[j])
    && (forall id :: id in s.depts <==> id in s.order)
  }

  /** The repository calls the services make. */
  datatype Call =
    | ListDepts
    | CreateDept(dto: CriarDepartamentoDTO, newId: string)
    | UpdateDept(id: string, patch: AtualizarDepartamentoDTO)
    | DeleteDept(id: string)
    | UpdateColab(colabId: string, colabPatch: AtualizarColaboradorDTO)

  datatype Reply =
    | Listed(depts: seq<DepartamentoDTO>)
    | Dept(dept: DepartamentoDTO)
    | Colab(colab: ColaboradorDTO)
    | Done
    | Failed(error: Thrown)

  /** `ids` without `x`, order kept. */
  function Without(ids: seq<string>, x: string): (r: seq<string>)
    ensures forall y :: y in r <==> y in ids && y != x
  {
    if ids == [] then [] else (if ids[0] == x then [] else [ids[0]]) + Without(ids[1..], x)
  }

  /** Removing keeps the order of what is left: it distributes over concatenation. */
  lemma {:induction false} WithoutAppend(a: seq<string>, b: seq<string>, x: string)
    ensures Without(a + b, x) == Without(a, x) + Without(b, x)
  {
    if a == [] {
      assert a + b == b;
    } else {
      assert (a + b)[1..] == a[1..] + b;
      WithoutAppend(a[1..], b, x);
    }
  }

  /** Removing an id that is not there changes nothing. */
  lemma {:induction false} WithoutAbsent(ids: seq<string>, x: string)
    requires x !in ids
    ensures Without(ids, x) == ids
  {
    if ids != [] {
      WithoutAbsent(ids[1..], x);
      assert ids == [ids[0]] + ids[1..];
    }
  }

  /** The document map with one department's roster replaced (when it is there). */
  function WithRoster(depts: map<string, DC.Doc>, x: string, ids: seq<string>): map<string, DC.Doc> {
    if x in depts then depts[x := depts[x][DC.ColaboradoresIds := DC.JArray(ids)]] else depts
  }

  /** One call that the oracle lets through: the new state and the reply.
      `CreateDept` names the id Firestore assigns to the new document. The
      model appends that id to the listing order; Firestore lists by document
      id, so the new department's true position is not modelled. */
  function Exec(s: State, c: Call): (State, Reply) {
    match c
    case ListDepts =>
      var l := DC.Listar(s.order, s.depts);
      (s, if l.Ok? then Listed(l.value) else Failed(l.error))
    case CreateDept(dto, newId) =>
      var order := if newId in s.depts then s.order else s.order + [newId];
      (s.(depts := s.depts[newId := DC.CriarPayload(dto)], order := order), Dept(DC.CriarReply(newId, dto)))
    case UpdateDept(id, patch) =>
      var u := DC.Atualizar(if id in s.depts then Some(s.depts[id]) else None, id, patch);
      if u.Ok? then (s.(depts := s.depts[id := u.value.0]), Dept(u.value.1)) else (s, Failed(u.error))
    case DeleteDept(id) =>
      (s.(depts := s.depts - {id}, order := Without(s.order, id)), Done)
    case UpdateColab(id, patch) =>
      if id in s.colabs then
        var merged := CM.Merge(s.colabs[id], patch);
        (s.(colabs := s.colabs[id := merged]), Colab(merged))
      else (s, Failed(PlainError(CM.NotFoundMessage(id))))
  }

  /** A call that reports an error changes nothing. */
  lemma FailedCallChangesNothing(s: State, c: Call)
    ensures Exec(s, c).1.Failed? ==> Exec(s, c).0 == s
  {
  }

  lemma WithoutKeepsDistinct(ids: seq<string>, x: string)
    requires forall i, j :: 0 <= i < j < |ids| ==> ids[i] != ids[j]
    ensures var r := Without(ids, x); forall i, j :: 0 <= i < j < |r| ==> r[i] != r[j]
  {
    if ids != [] {
      WithoutKeepsDistinct(ids[1..], x);
      var rest := Without(ids[1..], x);
      assert ids[0] !in ids[1..];
      if ids[0] != x {
        assert Without(ids, x) == [ids[0]] + rest;
        assert ids[0] !in rest;
      }
    }
  }

  /** Every call keeps the listing order in step with the stored departments. */
  lemma ExecPreservesValid(s: State, c: Call)
    requires Valid(s)
    ensures Valid(Exec(s, c).0)
  {
    match c
    case DeleteDept(id) =>
      WithoutKeepsDistinct(s.order, id);
      var t := Exec(s, c).0;
      assert t.order == Without(s.order, id) && t.depts == s.depts - {id};
      forall y ensures y in t.depts <==> y in t.order {
        assert y in t.order <==> y in s.order && y != id;
      }
    case CreateDept(dto, newId) =>
      if newId !in s.depts {
        var o := s.order + [newId];
        forall i, j | 0 <= i < j < |o| ensures o[i] != o[j] {
          if j == |o| - 1 { assert o[i] in s.order; }
        }
      }
    case UpdateDept(id, patch) =>
      if id in s.depts {
        assert Exec(s, c).0.depts.Keys == s.depts.Keys;
      }
    case _ =>
  }

  /** Writing a roster touches that field of that document and nothing else. */
  lemma RosterWrite(s: State, x: string, ids: seq<string>)
    requires x in s.depts && DC.AssertDepartamentoFirestore(s.depts[x])
    ensures Exec(s, UpdateDept(x, RosterPatch(ids))).0 == s.(depts := WithRoster(s.depts, x, ids))
    ensures Exec(s, UpdateDept(x, RosterPatch(ids))).1.Dept?
  {
    var u := DC.Updates(RosterPatch(ids));
    assert u == map[DC.ColaboradoresIds := DC.JArray(ids)];
    assert s.depts[x] + u == s.depts[x][DC.ColaboradoresIds := DC.JArray(ids)];
  }

  /** One logged call: whether the oracle let it through, and its reply. */
  datatype Entry = Entry(call: Call, passed: bool, reply: Reply)

  function Calls(es: seq<Entry>): (r: seq<Call>)
    ensures |r| == |es| && forall i :: 0 <= i < |es| ==> r[i] == es[i].call
  {
    seq(|es|, i requires 0 <= i < |es| => es[i].call)
  }

  lemma CallsAppend(a: seq<Entry>, b: seq<Entry>)
    ensures Calls(a + b) == Calls(a) + Calls(b)
  {
  }

  lemma CallsSnoc(d: seq<Entry>, e: Entry, cs: seq<Call>)
    requires Calls(d) == cs
    ensures Calls(d + [e]) == cs + [e.call]
  {
    CallsAppend(d, [e]);
  }

  /** The replies of `es[lo..hi]` are all successes. */
  ghost predicate SucceededBetween(es: seq<Entry>, lo: int, hi: int) {
    forall j :: lo <= j < hi && 0 <= j < |es| ==> !es[j].reply.Failed?
  }

  /** The calls `es[lo..hi]` all got past the oracle. */
  ghost predicate PassedBetween(es: seq<Entry>, lo: int, hi: int) {
    forall j :: lo <= j < hi && 0 <= j < |es| ==> es[j].passed
  }

  /** The log `d` holds `plan` up to and including its first failed call
      `k`, then `rollback`. */
  ghost predicate FailedAt(d: seq<Entry>, plan: seq<Call>, k: int, rollback: seq<Call>) {
    && 0 <= k < |plan|
    && Calls(d) == plan[..k + 1] + rollback
    && d[k].reply.Failed?
    && SucceededBetween(d, 0, k)
  }

  /** The effect of one logged call: none when the oracle failed it. */
  function Effect(s: State, e: Entry): State {
    if e.passed then Exec(s, e.call).0 else s
  }

  /** The state a log leads to, call by call. */
  function After(s: State, d: seq<Entry>): State
    decreases |d|
  {
    if d == [] then s else Effect(After(s, d[..|d| - 1]), d[|d| - 1])
  }

  lemma AfterStep(s: State, d: seq<Entry>, e: Entry)
    ensures After(s, d + [e]) == Effect(After(s, d), e)
  {
    assert (d + [e])[..|d|] == d;
  }

  /** Running two logs one after the other is running their concatenation. */
  lemma {:induction false} AfterAppend(s: State, a: seq<Entry>, b: seq<Entry>)
    ensures After(s, a + b) == After(After(s, a), b)
    decreases |b|
  {
    if b == [] {
      assert a + b == a;
    } else {
      var b0 := b[..|b| - 1];
      AfterAppend(s, a, b0);
      assert a + b == (a + b0) + [b[|b| - 1]];
      assert b == b0 + [b[|b| - 1]];
      AfterStep(s, a + b0, b[|b| - 1]);
      AfterStep(After(s, a), b0, b[|b| - 1]);
    }
  }

  /** A call the oracle lets through but that reports an error still has no effect. */
  lemma EffectOfFailure(s: State, e: Entry)
    requires e.passed && e.reply == Exec(s, e.call).1 && e.reply.Failed?
    ensures Effect(s, e) == s
  {
    FailedCallChangesNothing(s, e.call);
  }

  /** The effect of an employee write, as `Store.AtualizarColaborador` states it. */
  lemma EffectUpdateColab(s: State, id: string, patch: AtualizarColaboradorDTO, p: bool, w: Reply)
    ensures Effect(s, Entry(UpdateColab(id, patch), p, w)) ==
      if p && id in s.colabs then s.(colabs := s.colabs[id := CM.Merge(s.colabs[id], patch)]) else s
  {
  }

  /** The effect of a department write, as `Store.Atualizar` states it. */
  lemma EffectUpdateDept(s: State, id: string, patch: AtualizarDepartamentoDTO, p: bool, w: Reply)
    ensures Effect(s, Entry(UpdateDept(id, patch), p, w)) ==
      var u := DC.Atualizar(if id in s.depts then Some(s.depts[id]) else None, id, patch);
      if p && u.Ok? then s.(depts := s.depts[id := u.value.0]) else s
  {
  }

  /** A listing has no effect. */
  lemma EffectListDepts(s: State, p: bool, w: Reply)
    ensures Effect(s, Entry(ListDepts, p, w)) == s
  {
  }

  /** The effect of a create, as `Store.Criar` states it. */
  lemma EffectCreateDept(s: State, dto: CriarDepartamentoDTO, newId: string, p: bool, w: Reply)
    ensures Effect(s, Entry(CreateDept(dto, newId), p, w)) ==
      if p then s.(depts := s.depts[newId := DC.CriarPayload(dto)],
                   order := if newId in s.depts then s.order else s.order + [newId])
      else s
  {
  }

  /** The effect of a delete, as `Store.Remover` states it. */
  lemma EffectDeleteDept(s: State, id: string, p: bool, w: Reply)
    ensures Effect(s, Entry(DeleteDept(id), p, w)) ==
      if p then s.(depts := s.depts - {id}, order := Without(s.order, id)) else s
  {
  }

  /** `cur` differs from `base` at most in the rosters of the departments in `t`. */
  ghost predicate RostersOnlyDiffer(cur: map<string, DC.Doc>, base: map<string, DC.Doc>, t: set<string>) {
    && cur.Keys == base.Keys
    && (forall x :: x in base && x !in t ==> cur[x] == base[x])
    && (forall x :: x in base && x in t ==>
          DC.ColaboradoresIds in cur[x] && cur[x][DC.ColaboradoresIds].JArray? && DC.ColaboradoresIds in base[x]
          && cur[x] == base[x][DC.ColaboradoresIds := cur[x][DC.ColaboradoresIds]])
  }

  lemma RostersOnlyDifferStart(base: map<string, DC.Doc>, t: set<string>)
    requires forall x :: x in base && x in t ==> DC.ColaboradoresIds in base[x] && base[x][DC.ColaboradoresIds].JArray?
    ensures RostersOnlyDiffer(base, base, t)
  {
    forall x | x in base && x in t ensures base[x] == base[x][DC.ColaboradoresIds := base[x][DC.ColaboradoresIds]] {
      var a := base[x];
      assert a[DC.ColaboradoresIds := a[DC.ColaboradoresIds]] == a;
    }
  }

  /** Writing the roster of a tracked department keeps the difference in `t`. */
  lemma RostersOnlyDifferWrite(cur: map<string, DC.Doc>, base: map<string, DC.Doc>, t: set<string>, x: string, ids: seq<string>)
    requires RostersOnlyDiffer(cur, base, t) && x in t
    ensures RostersOnlyDiffer(WithRoster(cur, x, ids), base, t)
  {
    if x in cur {
      var a := base[x];
      assert cur[x][DC.ColaboradoresIds := DC.JArray(ids)] == a[DC.ColaboradoresIds := DC.JArray(ids)];
    }
  }

  /** Writing back a tracked department's original roster takes it out of `t`. */
  lemma RostersOnlyDifferRestore(cur: map<string, DC.Doc>, base: map<string, DC.Doc>, t: set<string>, x: string, ids: seq<string>)
    requires RostersOnlyDiffer(cur, base, t) && x in t && x in base
    requires base[x][DC.ColaboradoresIds] == DC.JArray(ids)
    ensures RostersOnlyDiffer(WithRoster(cur, x, ids), base, t - {x})
  {
    var a := base[x];
    assert cur[x][DC.ColaboradoresIds := DC.JArray(ids)] == a;
  }

  /** A department that passed the shape check still passes it while only
      its roster differs. */
  lemma RostersOnlyDifferShape(cur: map<string, DC.Doc>, base: map<string, DC.Doc>, t: set<string>, x: string)
    requires RostersOnlyDiffer(cur, base, t) && x in base && DC.AssertDepartamentoFirestore(base[x])
    ensures x in cur && DC.AssertDepartamentoFirestore(cur[x])
  {
  }

  lemma RostersOnlyDifferNone(cur: map<string, DC.Doc>, base: map<string, DC.Doc>)
    requires RostersOnlyDiffer(cur, base, {})
    ensures cur == base
  {
  }

  /** Appending to a log that already holds `log0 + d`. */
  /** The department set by the last let-through employee write to `x`
      in `d` that names one, if any. */
  function LastDept(d: seq<Entry>, x: string): Option<string>
    decreases |d|
  {
    if d == [] then None
    else
      var e := d[|d| - 1];
      if e.passed && e.call.UpdateColab? && e.call.colabId == x && e.call.colabPatch.departamento.Some?
      then e.call.colabPatch.departamento
      else LastDept(d[..|d| - 1], x)
  }

  /** In two logs run one after the other, the later one's write wins. */
  lemma {:induction false} LastDeptAppend(a: seq<Entry>, b: seq<Entry>, x: string)
    ensures LastDept(a + b, x) == if LastDept(b, x).Some? then LastDept(b, x) else LastDept(a, x)
    decreases |b|
  {
    if b == [] {
      assert a + b == a;
    } else {
      assert (a + b)[..|a + b| - 1] == a + b[..|b| - 1];
      LastDeptAppend(a, b[..|b| - 1], x);
    }
  }

  /** No call in `d` deletes a department. */
  ghost predicate NoDeletes(d: seq<Entry>) {
    forall i :: 0 <= i < |d| ==> !d[i].call.DeleteDept?
  }

  lemma NoDeletesAppend(a: seq<Entry>, b: seq<Entry>)
    requires NoDeletes(a) && NoDeletes(b)
    ensures NoDeletes(a + b)
  {
    forall i | 0 <= i < |a + b| ensures !(a + b)[i].call.DeleteDept? {
      if i >= |a| { assert (a + b)[i] == b[i - |a|]; }
    }
  }

  /** A stored department stays stored through a log that deletes none. */
  lemma {:induction false} AfterKeepsDept(s: State, d: seq<Entry>, x: string)
    requires x in s.depts && NoDeletes(d)
    ensures x in After(s, d).depts
    decreases |d|
  {
    if d != [] {
      var d0 := d[..|d| - 1];
      assert NoDeletes(d0) by {
        forall i | 0 <= i < |d0| ensures !d0[i].call.DeleteDept? {
          assert d0[i] == d[i];
        }
      }
      AfterKeepsDept(s, d0, x);
      assert !d[|d| - 1].call.DeleteDept?;
    }
  }

  /** Only employee writes touch the employee records. */
  lemma ExecKeepsColabs(s: State, c: Call)
    requires !c.UpdateColab?
    ensures Exec(s, c).0.colabs == s.colabs
  {
  }

  /** An employee on record stays on record, and its department is the one
      the last let-through write to it set, or the one it had. */
  lemma {:induction false} AfterColabDept(s: State, d: seq<Entry>, x: string)
    requires x in s.colabs
    ensures x in After(s, d).colabs
    ensures After(s, d).colabs[x].departamento == LastDept(d, x).GetOr(s.colabs[x].departamento)
    decreases |d|
  {
    if d != [] {
      var d0 := d[..|d| - 1];
      var e := d[|d| - 1];
      AfterColabDept(s, d0, x);
      var t := After(s, d0);
      assert After(s, d) == Effect(t, e);
      if e.passed {
        match e.call
        case UpdateColab(y, patch) =>
          EffectUpdateColab(t, y, patch, e.passed, e.reply);
        case _ =>
          ExecKeepsColabs(t, e.call);
      }
    }
  }

  lemma LogGrows(log0: seq<Entry>, d: seq<Entry>, e: seq<Entry>)
    ensures (log0 + d) + e == log0 + (d + e)
  {
  }

  class Store {
    var state: State
    var calls: nat
    const failures: map<nat, Thrown>
    ghost var log: seq<Entry>

    constructor(init: State, failures: map<nat, Thrown>)
      ensures state == init && calls == 0 && log == [] && this.failures == failures
    {
      state := init;
      calls := 0;
      this.failures := failures;
      log := [];
    }

    /** Issue one call: the oracle decides whether it throws; otherwise the
        call runs against the current state. */
    method Perform(c: Call) returns (r: Reply)
      modifies this
      ensures calls == old(calls) + 1
      ensures old(calls) in failures ==> r == Failed(failures[old(calls)]) && state == old(state)
      ensures old(calls) !in failures ==> (state, r) == Exec(old(state), c)
      ensures log == old(log) + [Entry(c, old(calls) !in failures, r)]
      ensures Valid(old(state)) ==> Valid(state)
    {
      if calls in failures {
        r := Failed(failures[calls]);
      } else {
        if Valid(state) { ExecPreservesValid(state, c); }
        var next := Exec(state, c);
        state := next.0;
        r := next.1;
      }
      log := log + [Entry(c, old(calls) !in failures, r)];
      calls := calls + 1;
    }

    /** `departamentoRepository.listar()`: nothing changes. */
    method Listar() returns (r: Reply)
      modifies this
      ensures calls == old(calls) + 1 && state == old(state)
      ensures log == old(log) + [Entry(ListDepts, old(calls) !in failures, r)]
      ensures old(calls) in failures ==> r == Failed(failures[old(calls)])
      ensures old(calls) !in failures ==>
        var l := DC.Listar(state.order, state.depts);
        r == if l.Ok? then Listed(l.value) else Failed(l.error)
    {
      r := Perform(ListDepts);
    }

    /** `departamentoRepository.criar(dto)`; `addDoc` names a new document
        `newId`, never one already stored. */
    method Criar(dto: CriarDepartamentoDTO, newId: string) returns (r: Reply)
      requires newId !in state.depts
      modifies this
      ensures calls == old(calls) + 1
      ensures log == old(log) + [Entry(CreateDept(dto, newId), old(calls) !in failures, r)]
      ensures old(calls) in failures ==> r == Failed(failures[old(calls)]) && state == old(state)
      ensures old(calls) !in failures ==>
        && r == Dept(DC.CriarReply(newId, dto))
        && state == old(state).(depts := old(state).depts[newId := DC.CriarPayload(dto)],
                                order := old(state).order + [newId])
    {
      r := Perform(CreateDept(dto, newId));
    }

    /** `departamentoRepository.atualizar(id, patch)`. */
    method Atualizar(id: string, patch: AtualizarDepartamentoDTO) returns (r: Reply)
      modifies this
      ensures calls == old(calls) + 1
      ensures log == old(log) + [Entry(UpdateDept(id, patch), old(calls) !in failures, r)]
      ensures old(calls) in failures ==> r == Failed(failures[old(calls)]) && state == old(state)
      ensures old(calls) !in failures ==>
        var u := DC.Atualizar(if id in old(state).depts then Some(old(state).depts[id]) else None, id, patch);
        && (u.Fail? ==> r == Failed(u.error) && state == old(state))
        && (u.Ok? ==> r == Dept(u.value.1) && state == old(state).(depts := old(state).depts[id := u.value.0]))
    {
      r := Perform(UpdateDept(id, patch));
    }

    /** `atualizar(x, { colaboradoresIds: ids })` on a department that passes
        the shape check: only that roster changes. */
    method AtualizarRoster(x: string, ids: seq<string>) returns (r: Reply)
      requires x in state.depts && DC.AssertDepartamentoFirestore(state.depts[x])
      modifies this
      ensures calls == old(calls) + 1
      ensures log == old(log) + [Entry(UpdateDept(x, RosterPatch(ids)), old(calls) !in failures, r)]
      ensures old(calls) in failures ==> r == Failed(failures[old(calls)]) && state == old(state)
      ensures old(calls) !in failures ==>
        r.Dept? && state == old(state).(depts := WithRoster(old(state).depts, x, ids))
    {
      RosterWrite(state, x, ids);
      r := Perform(UpdateDept(x, RosterPatch(ids)));
    }

    /** `departamentoRepository.remover(id)`. */
    method Remover(id: string) returns (r: Reply)
      modifies this
      ensures calls == old(calls) + 1
      ensures log == old(log) + [Entry(DeleteDept(id), old(calls) !in failures, r)]
      ensures old(calls) in failures ==> r == Failed(failures[old(calls)]) && state == old(state)
      ensures old(calls) !in failures ==>
        r == Done && state == old(state).(depts := old(state).depts - {id}, order := Without(old(state).order, id))
    {
      r := Perform(DeleteDept(id));
    }

    /** `colaboradorRepository.atualizar(id, patch)`. */
    method AtualizarColaborador(id: string, patch: AtualizarColaboradorDTO) returns (r: Reply)
      modifies this
      ensures calls == old(calls) + 1
      ensures log == old(log) + [Entry(UpdateColab(id, patch), old(calls) !in failures, r)]
      ensures old(calls) in failures ==> r == Failed(failures[old(calls)]) && state == old(state)
      ensures old(calls) !in failures && id !in old(state).colabs ==>
        r == Failed(PlainError(CM.NotFoundMessage(id))) && state == old(state)
      ensures old(calls) !in failures && id in old(state).colabs ==>
        var merged := CM.Merge(old(state).colabs[id], patch);
        r == Colab(merged) && state == old(state).(colabs := old(state).colabs[id := merged])
    {
      r := Perform(UpdateColab(id, patch));
    }
  }
}

=== FILE: domain.dfy ===
/**
 * Records exchanged between the pages, the services and the repositories:
 * employees (colaboradores), departments (departamentos) and the
 * create/update payloads of each. An optional TypeScript field
 * (`field?: T`) is an `Option<T>`; `None` is `undefined`.
 */
module Domain {
  import opened Opt

  datatype Status = Ativo | Inativo

  /** An employee as the employee repository stores and returns it. */
  datatype ColaboradorDTO = ColaboradorDTO(
    id: string, nome: string, email: string, departamento: string, status: Status)

  datatype CriarColaboradorDTO = CriarColaboradorDTO(
    nome: string, email: string, departamento: string, status: Status)

  /** A partial employee update: only the fields that are `Some` are written. */
  datatype AtualizarColaboradorDTO = AtualizarColaboradorDTO(
    nome: Option<string>, email: Option<string>, departamento: Option<string>, status: Option<Status>)

  /** An employee as the pages hold it: the stored record plus the level
      used to pick managers. */
  datatype Colaborador = Colaborador(
    id: string, nome: string, email: string, departamento: string, status: Status,
    nivelHierarquico: string)

  /** A department; the service layer's `Departamento` is a field-by-field copy. */
  datatype DepartamentoDTO = DepartamentoDTO(
    id: string, nome: string, gestorResponsavelId: string, colaboradoresIds: seq<string>,
    descricao: Option<string>, sigla: Option<string>)

  datatype CriarDepartamentoDTO = CriarDepartamentoDTO(
    nome: string, gestorResponsavelId: string, colaboradoresIds: seq<string>,
    descricao: Option<string>, sigla: Option<string>)

  datatype AtualizarDepartamentoDTO = AtualizarDepartamentoDTO(
    nome: Option<string>, gestorResponsavelId: Option<string>, colaboradoresIds: Option<seq<string>>,
    descricao: Option<string>, sigla: Option<string>)

  /** What the create-department page hands to the service. */
  datatype CreateDepartamentoInput = CreateDepartamentoInput(
    nome: string, gestorResponsavelId: string, colaboradoresIds: Option<seq<string>>,
    descricao: Option<string>, sigla: Option<string>)

  /** What the edit-department page hands to the service. */
  datatype UpdateDepartamentoInput = UpdateDepartamentoInput(
    nome: Option<string>, gestorResponsavelId: Option<string>, colaboradoresIds: Option<seq<string>>,
    descricao: Option<string>, sigla: Option<string>)

  /** A patch that only replaces a department's roster. */
  function RosterPatch(ids: seq<string>): AtualizarDepartamentoDTO {
    AtualizarDepartamentoDTO(None, None, Some(ids), None, None)
  }
}

/**
 * Values a failed call throws. `NonError` is a thrown value that is not an
 * `Error` instance (a string, `undefined`, ...).
 */
module Errors {
  import opened Opt

  /** The application-level codes of the authentication service. */
  datatype ServiceCode =
    | InvalidCredentials | EmailAlreadyInUse | InvalidEmail | WeakPassword | TooManyRequests
    | NetworkRequestFailed | UserDisabled | OperationNotAllowed | Unknown

  /** The `cause` of an authentication error: absent or not an object, an
      object without a `code` key, or an object with one (whose value may
      be missing or not a string, `None`). */
  datatype Cause = NoCause | CauseWithoutCode | CauseWithCode(code: Option<string>)

  datatype Thrown =
    | RepositoryError(message: string)
    | AuthError(message: string, cause: Cause)
    | AuthServiceError(message: string, code: ServiceCode)
    | PlainError(message: string)
    | NonError

  /** `result` of an awaited call: the value, or what it threw. */
  datatype Result<T> = Ok(value: T) | Fail(error: Thrown)
}

=== FILE: editar_departamento.dfy ===
/**
 * The "edit department" page (`EditarDepartamento.tsx`): the other
 * departments a removed employee can go to, the count of employees taken
 * off the roster, the form check, and the input and destination handed to
 * the edit service. The page's state hooks are the fields of
 * `EditarDepartamentoPage`; loading and saving are I/O, so their outcomes
 * are parameters.
 */
module EditarDepartamento {
  import opened Opt
  import opened Strings
  import opened Domain
  import opened Errors
  import opened Lists
  import NovoDepartamento
  import DS = DepartamentosService

  const NomeRequired := "Nome é obrigatório"
  const GestorRequired := "Selecione o gestor responsável"
  const NoOtherDepartment := "Cadastre outro departamento para transferir os colaboradores removidos."
  const ChooseDestino := "Selecione o departamento de destino para os colaboradores removidos."
  const LoadFailed := "Não foi possível carregar os dados. Tente novamente."
  const SaveFailed := "Não foi possível salvar as alterações. Tente novamente."

  /** `outrosDepartamentos`: every department but the one being edited, in order. */
  function Outros(ds: seq<DepartamentoDTO>, id: string): seq<DepartamentoDTO> {
    WithoutId(ds, id)
  }

  /** The names of a list of departments, in order. */
  function Nomes(ds: seq<DepartamentoDTO>): (r: seq<string>)
    ensures |r| == |ds|
    ensures forall i :: 0 <= i < |ds| ==> r[i] == ds[i].nome
  {
    if ds == [] then [] else [ds[0].nome] + Nomes(ds[1..])
  }

  /** The roster ids that are not among the selected employees, in roster order. */
  function Removidos(roster: seq<string>, selecionados: seq<Colaborador>): seq<string> {
    DS.Keep(roster, set x | x in Ids(selecionados))
  }

  /** `colaboradoresRemovidosCount`. */
  function RemovidosCount(departamento: Option<DepartamentoDTO>, selecionados: seq<Colaborador>): (n: nat)
    ensures departamento.None? ==> n == 0
    ensures departamento.Some? ==> n <= |departamento.value.colaboradoresIds|
  {
    if departamento.None? then 0 else |Removidos(departamento.value.colaboradoresIds, selecionados)|
  }

  /** Nothing is removed exactly when every id of the roster is selected. */
  lemma RemovidosCountZero(atual: DepartamentoDTO, selecionados: seq<Colaborador>)
    ensures RemovidosCount(Some(atual), selecionados) == 0
      <==> forall x :: x in atual.colaboradoresIds ==> x in Ids(selecionados)
  {
    var r := Removidos(atual.colaboradoresIds, selecionados);
    if r != [] {
      assert r[0] in r;
    }
  }

  /** The `errors` record. */
  datatype FormErrors = FormErrors(nome: Option<string>, gestorResponsavelId: Option<string>,
                                   destinoRemovidos: Option<string>)

  const NoErrors := FormErrors(None, None, None)

  /** `validate` as written: the blank-destination check runs after the
      no-other-department check and overwrites its message. */
  function ValidateAsWritten(nome: string, gestor: string, removidos: nat, outros: seq<DepartamentoDTO>,
                             destino: string): (r: FormErrors)
    ensures r.nome.None? <==> !IsBlank(nome)
    ensures r.nome.Some? ==> r.nome.value == NomeRequired
    ensures r.gestorResponsavelId.None? <==> !IsBlank(gestor)
    ensures r.gestorResponsavelId.Some? ==> r.gestorResponsavelId.value == GestorRequired
    ensures r.destinoRemovidos.None? <==> removidos == 0 || (outros != [] && !IsBlank(destino))
    ensures removidos > 0 && IsBlank(destino) ==> r.destinoRemovidos == Some(ChooseDestino)
    ensures removidos > 0 && outros == [] && !IsBlank(destino) ==> r.destinoRemovidos == Some(NoOtherDepartment)
  {
    var destinoErr :=
      if removidos > 0 && IsBlank(destino) then Some(ChooseDestino)
      else if removidos > 0 && outros == [] then Some(NoOtherDepartment)
      else None;
    FormErrors(if IsBlank(nome) then Some(NomeRequired) else None,
               if IsBlank(gestor) then Some(GestorRequired) else None,
               destinoErr)
  }

  /** `validate` as meant: with no other department the page says so, and
      asks for a destination only when there is one to choose. */
  function Validate(nome: string, gestor: string, removidos: nat, outros: seq<DepartamentoDTO>,
                    destino: string): (r: FormErrors)
    ensures r.nome.None? <==> !IsBlank(nome)
    ensures r.nome.Some? ==> r.nome.value == NomeRequired
    ensures r.gestorResponsavelId.None? <==> !IsBlank(gestor)
    ensures r.gestorResponsavelId.Some? ==> r.gestorResponsavelId.value == GestorRequired
    ensures r.destinoRemovidos.None? <==> removidos == 0 || (outros != [] && !IsBlank(destino))
    ensures removidos > 0 && outros == [] ==> r.destinoRemovidos == Some(NoOtherDepartment)
    ensures removidos > 0 && outros != [] && IsBlank(destino) ==> r.destinoRemovidos == Some(ChooseDestino)
  {
    var destinoErr :=
      if removidos > 0 && outros == [] then Some(NoOtherDepartment)
      else if removidos > 0 && IsBlank(destino) then Some(ChooseDestino)
      else None;
    FormErrors(if IsBlank(nome) then Some(NomeRequired) else None,
               if IsBlank(gestor) then Some(GestorRequired) else None,
               destinoErr)
  }

  /** As written, the no-other-department message is never shown: the
      destination is only ever chosen among the other departments, so with
      none it stays empty and the blank-destination message replaces it. */
  lemma NoOtherDepartmentNeverShown(nome: string, gestor: string, removidos: nat,
                                    outros: seq<DepartamentoDTO>, destino: string)
    requires destino == "" || destino in Nomes(outros)
    ensures ValidateAsWritten(nome, gestor, removidos, outros, destino).destinoRemovidos != Some(NoOtherDepartment)
  {
    assert destino == "" ==> IsBlank(destino);
  }

  /** The correction changes messages only: both reject the same forms. */
  lemma CorrectionKeepsDecision(nome: string, gestor: string, removidos: nat,
                                outros: seq<DepartamentoDTO>, destino: string)
    ensures Validate(nome, gestor, removidos, outros, destino) == NoErrors
      <==> ValidateAsWritten(nome, gestor, removidos, outros, destino) == NoErrors
  {
  }

  /** The input built in `handleSubmit`. */
  function Input(nome: string, gestor: string, selecionados: seq<Colaborador>): (r: UpdateDepartamentoInput)
    ensures r.nome == Some(Trim(nome)) && r.gestorResponsavelId == Some(Trim(gestor))
    ensures r.colaboradoresIds == Some(Ids(selecionados))
    ensures r.descricao.None? && r.sigla.None?
  {
    UpdateDepartamentoInput(Some(Trim(nome)), Some(Trim(gestor)), Some(Ids(selecionados)), None, None)
  }

  /** The destination handed on: the trimmed choice when an employee was
      removed, the department's own name otherwise. */
  function Destino(removidos: nat, escolhido: string, atual: DepartamentoDTO): (r: string)
    ensures removidos > 0 ==> r == Trim(escolhido)
    ensures removidos == 0 ==> r == atual.nome
  {
    if removidos > 0 then Trim(escolhido) else atual.nome
  }

  /** The page and the edit service agree on whether employees leave the
      roster: the page counts them over the roster as it is, the service
      over the roster without repeats. */
  lemma PageAndServiceAgreeOnRemovals(atual: DepartamentoDTO, nome: string, gestor: string,
                                      selecionados: seq<Colaborador>)
    ensures RemovidosCount(Some(atual), selecionados) > 0
      <==> |DS.RemovedIds(Input(nome, gestor, selecionados), atual)| > 0
  {
    var input := Input(nome, gestor, selecionados);
    RemovidosCountZero(atual, selecionados);
    var svc := DS.RemovedIds(input, atual);
    if svc != [] {
      DS.AddedRemovedAreDifferences(input, atual, svc[0]);
    }
    if RemovidosCount(Some(atual), selecionados) > 0 {
      var x :| x in atual.colaboradoresIds && x !in Ids(selecionados);
      DS.AddedRemovedAreDifferences(input, atual, x);
    }
  }

  /** A form the page accepts passes the service's own check that removed
      employees have somewhere to go. */
  lemma AcceptedPassesServiceGuard(atual: DepartamentoDTO, nome: string, gestor: string,
                                   selecionados: seq<Colaborador>, outros: seq<DepartamentoDTO>,
                                   escolhido: string)
    requires ValidateAsWritten(nome, gestor, RemovidosCount(Some(atual), selecionados), outros, escolhido) == NoErrors
    ensures !DS.NeedsDestino(Input(nome, gestor, selecionados), atual,
                             Destino(RemovidosCount(Some(atual), selecionados), escolhido, atual))
  {
    CorrectionKeepsDecision(nome, gestor, RemovidosCount(Some(atual), selecionados), outros, escolhido);
    PageAndServiceAgreeOnRemovals(atual, nome, gestor, selecionados);
    TrimIdempotent(escolhido);
  }

  /** `find` on a list of departments by id. */
  function FindDepartamento(ds: seq<DepartamentoDTO>, id: string): (r: Option<DepartamentoDTO>)
    ensures r.Some? ==> r.value in ds && r.value.id == id
    ensures r.None? <==> forall d :: d in ds ==> d.id != id
  {
    if ds == [] then None
    else if ds[0].id == id then Some(ds[0])
    else
      assert forall d :: d in ds <==> d == ds[0] || d in ds[1..];
      FindDepartamento(ds[1..], id)
  }

  /** `find` on a list of employees by id. */
  function FindColaborador(cs: seq<Colaborador>, id: string): (r: Option<Colaborador>)
    ensures r.Some? ==> r.value in cs && r.value.id == id
    ensures r.None? <==> forall c :: c in cs ==> c.id != id
  {
    if cs == [] then None
    else if cs[0].id == id then Some(cs[0])
    else
      assert forall c :: c in cs <==> c == cs[0] || c in cs[1..];
      FindColaborador(cs[1..], id)
  }

  /** `vinculados`: the roster's employees that were loaded, in roster order. */
  function Vinculados(roster: seq<string>, cs: seq<Colaborador>): (r: seq<Colaborador>)
    ensures forall c :: c in r ==> c in cs
  {
    if roster == [] then []
    else
      match FindColaborador(cs, roster[0])
      case Some(c) => [c] + Vinculados(roster[1..], cs)
      case None => Vinculados(roster[1..], cs)
  }

  /** An id is among the loaded selection exactly when it is on the roster
      and names a loaded employee. */
  lemma {:induction false} VinculadosIds(roster: seq<string>, cs: seq<Colaborador>, x: string)
    ensures x in Ids(Vinculados(roster, cs)) <==> x in roster && FindColaborador(cs, x).Some?
  {
    if roster != [] {
      VinculadosIds(roster[1..], cs, x);
      var rest := Vinculados(roster[1..], cs);
      match FindColaborador(cs, roster[0])
      case Some(c) =>
        assert Ids([c] + rest) == [c.id] + Ids(rest);
      case None =>
    }
  }

  /** Right after loading, the employees counted as removed are exactly the
      roster ids no loaded employee carries. */
  lemma LoadedRemovalsAreUnknownIds(atual: DepartamentoDTO, cs: seq<Colaborador>, x: string)
    ensures x in Removidos(atual.colaboradoresIds, Vinculados(atual.colaboradoresIds, cs))
      <==> x in atual.colaboradoresIds && forall c :: c in cs ==> c.id != x
  {
    VinculadosIds(atual.colaboradoresIds, cs, x);
  }

  /** The text of the toast after a failed save. */
  function SaveErrorMessage(err: Thrown): (r: string)
    ensures r != ""
    ensures !err.NonError? && err.message != "" ==> r == err.message
    ensures err.NonError? || err.message == "" ==> r == SaveFailed
  {
    if !err.NonError? && err.message != "" then err.message else SaveFailed
  }

  /** What the page hands to `updateDepartamentoEAtualizarColaboradores`
      (besides the loaded employees and departments). */
  datatype Request = Request(id: string, input: UpdateDepartamentoInput, atual: DepartamentoDTO, destino: string)

  /** A request the page sends: a non-blank trimmed name and manager, and
      one the service's destination check lets through. */
  ghost predicate WellFormedRequest(r: Request) {
    && r.input.nome.Some? && r.input.nome.value != "" && Trim(r.input.nome.value) == r.input.nome.value
    && r.input.gestorResponsavelId.Some? && r.input.gestorResponsavelId.value != ""
    && Trim(r.input.gestorResponsavelId.value) == r.input.gestorResponsavelId.value
    && !DS.NeedsDestino(r.input, r.atual, r.destino)
  }

  ghost predicate AllWellFormed(rs: seq<Request>) {
    forall i :: 0 <= i < |rs| ==> WellFormedRequest(rs[i])
  }

  lemma AllWellFormedSnoc(rs: seq<Request>, r: Request)
    requires AllWellFormed(rs) && WellFormedRequest(r)
    ensures AllWellFormed(rs + [r])
  {
    assert forall i :: 0 <= i < |rs| ==> (rs + [r])[i] == rs[i];
  }

  /** A department's name is among the names of a list that holds it. */
  lemma NomeInNomes(ds: seq<DepartamentoDTO>, d: DepartamentoDTO)
    requires d in ds
    ensures d.nome in Nomes(ds)
  {
    var k :| 0 <= k < |ds| && ds[k] == d;
    assert Nomes(ds)[k] == d.nome;
  }

  /** All the page's state, for stating what a handler leaves alone. */
  datatype PageState = PageState(
    departamento: Option<DepartamentoDTO>, nome: string, gestorResponsavelId: string,
    selecionados: seq<Colaborador>, destino: string, colaboradores: seq<Colaborador>,
    departamentos: seq<DepartamentoDTO>, loading: bool, submitting: bool, errors: FormErrors,
    toastOpen: bool, toastMessage: string, left: bool, requests: seq<Request>)

  /** The state once the department list `ds` and the employee list `cs`
      are in: the form is filled from the department with this id, if any,
      and the first other department is the default destination. */
  function AfterLoad(s: PageState, id: string, ds: seq<DepartamentoDTO>, cs: seq<Colaborador>): PageState {
    var dep := FindDepartamento(ds, id);
    var outros := Outros(ds, id);
    var s1 := s.(departamentos := ds, colaboradores := cs, departamento := dep, loading := false);
    if dep.None? then s1
    else s1.(nome := dep.value.nome, gestorResponsavelId := dep.value.gestorResponsavelId,
             selecionados := Vinculados(dep.value.colaboradoresIds, cs),
             destino := if outros != [] then outros[0].nome else s.destino)
  }

  /** Nothing is shown but a spinner while loading; the destination is
      empty or the name of another department; every request sent is
      well-formed. */
  ghost predicate ValidState(s: PageState, id: string) {
    && (s.loading ==> s.destino == "" && s.departamento.None? && s.requests == [])
    && (s.destino == "" || s.destino in Nomes(Outros(s.departamentos, id)))
    && AllWellFormed(s.requests)
  }

  /** Loading keeps the page state valid. */
  lemma AfterLoadValid(s: PageState, id: string, ds: seq<DepartamentoDTO>, cs: seq<Colaborador>)
    requires ValidState(s, id) && s.loading
    ensures ValidState(AfterLoad(s, id, ds, cs), id)
  {
    var outros := Outros(ds, id);
    if FindDepartamento(ds, id).Some? && outros != [] {
      assert Nomes(outros)[0] == outros[0].nome;
    }
  }

  class EditarDepartamentoPage {
    /** The `:id` route parameter ("" when missing). */
    const id: string
    var departamento: Option<DepartamentoDTO>
    var nome: string
    var gestorResponsavelId: string
    var selecionados: seq<Colaborador>
    /** `departamentoDestinoRemovidos`. */
    var destino: string
    var colaboradores: seq<Colaborador>
    var departamentos: seq<DepartamentoDTO>
    var loading: bool
    var submitting: bool
    var errors: FormErrors
    var toastOpen: bool
    var toastMessage: string
    /** The page went back to the department list. */
    var left: bool
    /** The calls made to the edit service, oldest first. */
    var requests: seq<Request>

    function State(): PageState
      reads this
    {
      PageState(departamento, nome, gestorResponsavelId, selecionados, destino, colaboradores,
                departamentos, loading, submitting, errors, toastOpen, toastMessage, left, requests)
    }

    /** `colaboradoresRemovidosCount` of the current state. */
    function Removed(): nat
      reads this
    {
      RemovidosCount(departamento, selecionados)
    }

    /** See `ValidState`. */
    ghost predicate Valid()
      reads this
    {
      ValidState(State(), id)
    }

    /** Mounting the page: it loads unless the route has no id. */
    constructor(routeId: string)
      ensures Valid() && id == routeId
      ensures State() == PageState(None, "", "", [], "", [], [], routeId != "", false, NoErrors,
                                   false, "", false, [])
    {
      id := routeId;
      departamento, nome, gestorResponsavelId, selecionados, destino := None, "", "", [], "";
      colaboradores, departamentos, loading, submitting, errors := [], [], routeId != "", false, NoErrors;
      toastOpen, toastMessage, left, requests := false, "", false, [];
    }

    /** Both lists arrived: fill the form from the department with this
        id, if any, and pick the first other department as the default
        destination. */
    method LoadSucceeded(ds: seq<DepartamentoDTO>, cs: seq<Colaborador>)
      requires Valid() && loading
      modifies this
      ensures Valid()
      ensures State() == AfterLoad(old(State()), id, ds, cs)
    {
      AfterLoadValid(State(), id, ds, cs);
      var dep := FindDepartamento(ds, id);
      StoreLists(ds, cs, dep);
      if dep.Some? {
        FillForm(dep.value, cs, Outros(ds, id));
      }
    }

    /** The lists and the department found are stored and loading ends. */
    method StoreLists(ds: seq<DepartamentoDTO>, cs: seq<Colaborador>, dep: Option<DepartamentoDTO>)
      modifies this
      ensures State() == old(State()).(departamentos := ds, colaboradores := cs, departamento := dep, loading := false)
    {
      departamentos, colaboradores, departamento, loading := ds, cs, dep, false;
    }

    /** The form fields a found department fills in. */
    method FillForm(dep: DepartamentoDTO, cs: seq<Colaborador>, outros: seq<DepartamentoDTO>)
      modifies this
      ensures State() == old(State()).(nome := dep.nome, gestorResponsavelId := dep.gestorResponsavelId,
        selecionados := Vinculados(dep.colaboradoresIds, cs),
        destino := if outros != [] then outros[0].nome else old(destino))
    {
      nome, gestorResponsavelId, selecionados := dep.nome, dep.gestorResponsavelId, Vinculados(dep.colaboradoresIds, cs);
      destino := if outros != [] then outros[0].nome else destino;
    }

    /** One of the loads failed. */
    method LoadRejected()
      requires Valid() && loading
      modifies this
      ensures Valid()
      ensures State() == old(State()).(loading := false, toastOpen := true, toastMessage := LoadFailed)
    {
      toastMessage := LoadFailed;
      toastOpen := true;
      loading := false;
    }

    /** The effect that fills in the default destination once there is a
        department and another one to send removed employees to. */
    method DefaultDestinoEffect()
      requires Valid()
      modifies this
      ensures Valid()
      ensures var outros := Outros(departamentos, id);
        State() == old(State()).(destino :=
          if departamento.Some? && outros != [] && old(destino) == "" then outros[0].nome else old(destino))
    {
      var outros := Outros(departamentos, id);
      if departamento.Some? && outros != [] && destino == "" {
        destino := outros[0].nome;
        assert Nomes(outros)[0] == destino;
      }
    }

    method EditNome(s: string)
      requires Valid() && !loading
      modifies this
      ensures Valid()
      ensures State() == old(State()).(nome := s, errors := old(errors).(nome := None))
    {
      nome := s;
      if errors.nome.Some? {
        errors := errors.(nome := None);
      }
    }

    method SelectGestor(g: Colaborador)
      requires Valid() && !loading && g in NovoDepartamento.Gestores(colaboradores)
      modifies this
      ensures Valid()
      ensures State() == old(State()).(gestorResponsavelId := g.id,
                                       errors := old(errors).(gestorResponsavelId := None))
    {
      gestorResponsavelId := g.id;
      if errors.gestorResponsavelId.Some? {
        errors := errors.(gestorResponsavelId := None);
      }
    }

    method SetSelecionados(sel: seq<Colaborador>)
      requires Valid() && !loading && forall c :: c in sel ==> c in colaboradores
      modifies this
      ensures Valid()
      ensures State() == old(State()).(selecionados := sel)
    {
      selecionados := sel;
    }

    /** The destination select offers the other departments by name. */
    method SelectDestino(d: DepartamentoDTO)
      requires Valid() && !loading && d in Outros(departamentos, id)
      modifies this
      ensures Valid()
      ensures State() == old(State()).(destino := d.nome,
                                       errors := old(errors).(destinoRemovidos := None))
    {
      NomeInNomes(Outros(departamentos, id), d);
      destino, errors := d.nome, errors.(destinoRemovidos := None);
    }

    /** `handleSubmit`: store the errors; with none, a route id and a loaded
        department, call the edit service. */
    method HandleSubmit()
      requires Valid()
      modifies this
      ensures Valid()
      ensures var errs := ValidateAsWritten(nome, gestorResponsavelId, Removed(), Outros(departamentos, id), destino);
        if errs == NoErrors && id != "" && departamento.Some? then
          State() == old(State()).(errors := NoErrors, submitting := true,
            requests := old(requests) + [Request(id, Input(nome, gestorResponsavelId, selecionados),
                                                 departamento.value,
                                                 Destino(Removed(), destino, departamento.value))])
        else
          State() == old(State()).(errors := errs)
    {
      var removed := Removed();
      errors := ValidateAsWritten(nome, gestorResponsavelId, removed, Outros(departamentos, id), destino);
      if errors != NoErrors || id == "" || departamento.None? {
        return;
      }
      var atual := departamento.value;
      var input := Input(nome, gestorResponsavelId, selecionados);
      var dest := Destino(removed, destino, atual);
      var r := Request(id, input, atual, dest);
      assert WellFormedRequest(r) by {
        AcceptedPassesServiceGuard(atual, nome, gestorResponsavelId, selecionados, Outros(departamentos, id), destino);
        TrimIdempotent(nome);
        TrimIdempotent(gestorResponsavelId);
      }
      Send(r);
    }

    /** A well-formed request goes to the edit service. */
    method Send(r: Request)
      requires Valid() && !loading && WellFormedRequest(r)
      modifies this
      ensures Valid()
      ensures State() == old(State()).(submitting := true, requests := old(requests) + [r])
    {
      AllWellFormedSnoc(requests, r);
      requests, submitting := requests + [r], true;
    }

    /** The end of the call: back to the list, or the error toast. */
    method RequestSettled(outcome: Option<Thrown>)
      requires Valid()
      modifies this
      ensures Valid()
      ensures outcome.None? ==> State() == old(State()).(submitting := false, left := true)
      ensures outcome.Some? ==> State() == old(State()).(submitting := false, toastOpen := true,
                                                         toastMessage := SaveErrorMessage(outcome.value))
    {
      if outcome.None? {
        left := true;
      } else {
        toastMessage := SaveErrorMessage(outcome.value);
        toastOpen := true;
      }
      submitting := false;
    }
  }
}

=== FILE: format_br.dfy ===
/**
 * Brazilian currency text (`formatBr.ts`): amounts shown as `1.000,00`,
 * typed input masked as cents, and masked text read back. Amounts are
 * whole numbers of cents; a JavaScript `NaN` is a value of its own.
 */
module FormatBr {
  import opened Strings

  /** A JavaScript number that is a whole number of cents, or `NaN`. */
  datatype Amount = NaN | Cents(cents: int)

  /** The integer part of a number's decimal form with a '.' before every
      group of three digits counted from the right, as the replacement
      `/\B(?=(\d{3})+(?!\d))/g` does to a run of digits. */
  function GroupThousands(s: string): string
    decreases |s|
  {
    if |s| <= 3 then s else GroupThousands(s[..|s| - 3]) + "." + s[|s| - 3..]
  }

  /** A grouped run of digits has a '.' exactly at the positions a multiple
      of four characters from the end (never first), and digits elsewhere. */
  lemma {:induction false} GroupThousandsShape(s: string)
    requires AllDigits(s) && s != []
    ensures var r := GroupThousands(s);
      && |r| == |s| + (|s| - 1) / 3
      && (forall i :: 0 <= i < |r| ==> (r[i] == '.' <==> 0 < i && (|r| - i) % 4 == 0))
      && (forall i :: 0 <= i < |r| && r[i] != '.' ==> IsDigit(r[i]))
    decreases |s|
  {
    if |s| > 3 {
      var h, t := s[..|s| - 3], s[|s| - 3..];
      assert AllDigits(h) && AllDigits(t) by {
        assert forall i :: 0 <= i < |h| ==> h[i] == s[i];
        assert forall i :: 0 <= i < 3 ==> t[i] == s[|s| - 3 + i];
      }
      GroupThousandsShape(h);
      var g := GroupThousands(h);
      var r := g + "." + t;
      assert |r| == |g| + 4;
      forall i | 0 <= i < |r|
        ensures r[i] == '.' <==> 0 < i && (|r| - i) % 4 == 0
        ensures r[i] != '.' ==> IsDigit(r[i])
      {
        if i < |g| {
          assert r[i] == g[i];
          assert (|r| - i) % 4 == (|g| - i) % 4 by {
            assert |r| - i == (|g| - i) + 4;
          }
        } else if i > |g| {
          assert r[i] == t[i - |g| - 1];
          assert 0 < |r| - i < 4;
        }
      }
    }
  }

  /** Two digits for a number of cents below one real. */
  function TwoDigits(n: nat): (r: string)
    requires n < 100
    ensures |r| == 2 && AllDigits(r) && DigitsValue(r) == n
  {
    var r := [DigitChar(n / 10), DigitChar(n % 10)];
    var h := r[..1];
    assert h == [DigitChar(n / 10)] && h[..0] == [];
    assert DigitsValue(h) == n / 10;
    assert DigitsValue(r) == DigitsValue(h) * 10 + n % 10;
    r
  }

  /** `formatBrCurrency(value)`: '0,00' for `NaN` or a negative amount,
      otherwise the grouped reais, ',' and two digits of cents. */
  function FormatBrCurrency(a: Amount): (r: string)
    ensures a.NaN? || a.cents < 0 ==> r == "0,00"
    ensures a.Cents? && a.cents >= 0 ==>
      |r| >= 4 && r[|r| - 3] == ',' && AllDigits(r[|r| - 2..])
  {
    if a.NaN? || a.cents < 0 then "0,00"
    else
      var g := GroupThousands(NatToString(a.cents / 100));
      var r := g + "," + TwoDigits(a.cents % 100);
      assert r[|r| - 2..] == TwoDigits(a.cents % 100);
      r
  }

  /** `parseBrCurrency(value)`: every non-digit ignored, the digits read as
      cents; `NaN` when there is none. */
  function ParseBrCurrency(s: string): (r: Amount)
    ensures r.NaN? <==> Digits(s) == []
    ensures r.Cents? ==> r.cents >= 0
  {
    var digits := Digits(s);
    if digits == [] then NaN else Cents(DigitsValue(digits))
  }

  /** `maskBrCurrencyInput(value)`: '' when the input has no digit,
      otherwise its digits read as cents and formatted. */
  function MaskBrCurrencyInput(s: string): (r: string)
    ensures Digits(s) == [] <==> r == []
  {
    var digits := Digits(s);
    if digits == [] then "" else FormatBrCurrency(Cents(DigitsValue(digits)))
  }

  /** Dropping the dots of a grouped number gives the number back. */
  lemma {:induction false} GroupThousandsDigits(s: string)
    requires AllDigits(s)
    ensures Digits(GroupThousands(s)) == s
    decreases |s|
  {
    if |s| <= 3 {
      DigitsOfDigits(s);
    } else {
      var h, t := s[..|s| - 3], s[|s| - 3..];
      assert AllDigits(h) && AllDigits(t) by {
        assert forall i :: 0 <= i < |h| ==> h[i] == s[i];
        assert forall i :: 0 <= i < 3 ==> t[i] == s[|s| - 3 + i];
      }
      GroupThousandsDigits(h);
      DigitsOfDigits(t);
      DigitsAppend(GroupThousands(h) + ".", t);
      DigitsAppend(GroupThousands(h), ".");
      assert Digits(".") == [];
      assert s == h + t;
    }
  }

  /** The digits of a formatted amount are its reais followed by its two
      digits of cents. */
  lemma FormatDigits(c: nat)
    ensures Digits(FormatBrCurrency(Cents(c))) == NatToString(c / 100) + TwoDigits(c % 100)
  {
    var n := NatToString(c / 100);
    var g := GroupThousands(n);
    var t := TwoDigits(c % 100);
    assert FormatBrCurrency(Cents(c)) == g + "," + t;
    GroupThousandsDigits(n);
    DigitsOfDigits(t);
    DigitsAppend(g + ",", t);
    DigitsAppend(g, ",");
    assert Digits(",") == [];
  }

  /** Round trip: reading back a formatted non-negative amount gives it. */
  lemma ParseFormat(c: nat)
    ensures ParseBrCurrency(FormatBrCurrency(Cents(c))) == Cents(c)
  {
    var n := NatToString(c / 100);
    var t := TwoDigits(c % 100);
    FormatDigits(c);
    DigitsValueAppend(n, t);
    NatToStringValue(c / 100);
    assert DigitsValue(n + t) == c / 100 * 100 + c % 100;
  }

  /** Round trip: reading back masked input gives the input's digits read
      as cents. */
  lemma ParseMask(s: string)
    requires Digits(s) != []
    ensures ParseBrCurrency(MaskBrCurrencyInput(s)) == Cents(DigitsValue(Digits(s)))
  {
    ParseFormat(DigitsValue(Digits(s)));
  }

  /** Masking masked input changes nothing. */
  lemma MaskIdempotent(s: string)
    ensures MaskBrCurrencyInput(MaskBrCurrencyInput(s)) == MaskBrCurrencyInput(s)
  {
    if Digits(s) != [] {
      var c := DigitsValue(Digits(s));
      ParseFormat(c);
      assert Digits(FormatBrCurrency(Cents(c))) != [];
    }
  }
}

=== FILE: lists.dfy ===
/**
 * Small list notions the pages share: the ids of a list of employees, in
 * order (`list.map((c) => c.id)`), and "kept in order" (a subsequence).
 */
module Lists {
  import opened Domain

  /** `cs.map((c) => c.id)`. */
  function Ids(cs: seq<Colaborador>): (r: seq<string>)
    ensures |r| == |cs|
    ensures forall i :: 0 <= i < |cs| ==> r[i] == cs[i].id
  {
    seq(|cs|, i requires 0 <= i < |cs| => cs[i].id)
  }

  /** The ids of a non-empty list end with the last employee's. */
  lemma IdsSnoc(cs: seq<Colaborador>)
    requires cs != []
    ensures Ids(cs) == Ids(cs[..|cs| - 1]) + [cs[|cs| - 1].id]
  {
    var init := cs[..|cs| - 1];
    assert forall i :: 0 <= i < |init| ==> init[i] == cs[i];
  }

  lemma IdsMember(c: Colaborador, cs: seq<Colaborador>)
    requires c in cs
    ensures c.id in Ids(cs)
  {
    var i :| 0 <= i < |cs| && cs[i] == c;
    assert Ids(cs)[i] == c.id;
  }

  /** `ds.filter((d) => d.id !== id)`: the departments without that id, in order. */
  function WithoutId(ds: seq<DepartamentoDTO>, id: string): (r: seq<DepartamentoDTO>)
    ensures forall d :: d in r <==> d in ds && d.id != id
    ensures IsSubsequence(r, ds)
    ensures forall d :: multiset(r)[d] == if d.id != id then multiset(ds)[d] else 0
  {
    if ds == [] then []
    else
      var rest := WithoutId(ds[1..], id);
      assert forall d :: d in ds <==> d == ds[0] || d in ds[1..];
      assert ds == [ds[0]] + ds[1..];
      if ds[0].id != id then [ds[0]] + rest else rest
  }

  /** `a` is `b` with some elements left out, the rest kept in order. */
  predicate IsSubsequence<T(==)>(a: seq<T>, b: seq<T>)
    decreases |b|
  {
    a == [] || (b != [] && ((a[0] == b[0] && IsSubsequence(a[1..], b[1..])) || IsSubsequence(a, b[1..])))
  }

  /** Every element of a subsequence comes from the sequence. */
  lemma {:induction false} SubsequenceMembers<T>(a: seq<T>, b: seq<T>)
    requires IsSubsequence(a, b)
    ensures forall x :: x in a ==> x in b
    decreases |b|
  {
    if a != [] {
      if a[0] == b[0] && IsSubsequence(a[1..], b[1..]) {
        SubsequenceMembers(a[1..], b[1..]);
        assert forall x :: x in a ==> x == a[0] || x in a[1..];
      } else {
        SubsequenceMembers(a, b[1..]);
      }
    }
  }

  /** A sequence is a subsequence of itself. */
  lemma {:induction false} SubsequenceRefl<T>(a: seq<T>)
    ensures IsSubsequence(a, a)
    decreases |a|
  {
    if a != [] {
      SubsequenceRefl(a[1..]);
    }
  }
}

=== FILE: login.dfy ===
/**
 * The sign-in page (`Login.tsx`): the form check and the text shown when
 * signing in fails.
 */
module Login {
  import opened Opt
  import opened Strings
  import opened Errors
  import AuthService
  import Cadastro

  const PasswordRequired := "Senha é obrigatória"
  const IncorrectCredentials := "E-mail ou senha incorretos."
  const LoginFailed := "Não foi possível entrar. Tente novamente."

  datatype Form = Form(email: string, password: string)

  datatype FormErrors = FormErrors(email: Option<string>, password: Option<string>)

  /** `validate`: the e-mail rule of the sign-up form, and a password that
      is only required to be non-empty (no length rule here). */
  function Validate(f: Form): (r: FormErrors)
    ensures r.email == Cadastro.EmailError(f.email)
    ensures r.password == Some(PasswordRequired) <==> f.password == ""
    ensures r.password.None? <==> f.password != ""
  {
    FormErrors(Cadastro.EmailError(f.email), if f.password == "" then Some(PasswordRequired) else None)
  }

  /** `handleSubmit`: what is passed to `login`, or `None`. */
  function Submit(f: Form): (r: Option<(string, string)>)
    ensures r.Some? <==> Validate(f).email.None? && Validate(f).password.None?
    ensures r.Some? ==> r.value == (Trim(f.email), f.password)
  {
    var e := Validate(f);
    if e.email.None? && e.password.None? then Some((Trim(f.email), f.password)) else None
  }

  /** A submitted sign-in carries a well-formed address and some password. */
  lemma SubmittedIsWellFormed(f: Form)
    requires Submit(f).Some?
    ensures EmailShape(Submit(f).value.0) && Submit(f).value.1 != ""
  {
    MatchesEmailIffShape(Trim(f.email));
  }

  const KnownOtherCodes: set<string> := {"auth/invalid-email", "auth/too-many-requests", "auth/network-request-failed"}

  /** The fixed text for a Firebase code, when the page has one. */
  function FirebaseCodeText(code: Option<string>): (r: Option<string>)
    ensures code.Some? && code.value in AuthService.CredentialCodes ==> r == Some(IncorrectCredentials)
    ensures r.Some? ==>
      code.Some? && (code.value in AuthService.CredentialCodes || code.value in KnownOtherCodes)
  {
    match code
    case Some("auth/invalid-credential") => Some(IncorrectCredentials)
    case Some("auth/user-not-found") => Some(IncorrectCredentials)
    case Some("auth/wrong-password") => Some(IncorrectCredentials)
    case Some("auth/invalid-email") => Some("E-mail inválido.")
    case Some("auth/too-many-requests") => Some("Muitas tentativas. Tente novamente mais tarde.")
    case Some("auth/network-request-failed") => Some("Erro de conexão. Verifique sua rede.")
    case _ => None
  }

  /** `toLoginErrorMessage(err)`: an `AuthError` whose cause carries a code
      the page knows gives that code's text; otherwise any `Error` with a
      message gives the message, and anything else the fixed default. */
  function ToLoginErrorMessage(err: Thrown): (r: string)
    ensures r != ""
    ensures err.AuthError? && err.cause.CauseWithCode? && FirebaseCodeText(err.cause.code).Some? ==>
      r == FirebaseCodeText(err.cause.code).value
    ensures !(err.AuthError? && err.cause.CauseWithCode? && FirebaseCodeText(err.cause.code).Some?) ==>
      r == (if err.NonError? || err.message == "" then LoginFailed else err.message)
  {
    if err.AuthError? && err.cause.CauseWithCode? && FirebaseCodeText(err.cause.code).Some? then
      FirebaseCodeText(err.cause.code).value
    else if err.NonError? || err.message == "" then LoginFailed
    else err.message
  }

  /** As written, the page never shows a code's text for a failed sign-in:
      `login` rethrows every gateway error as an `AuthServiceError`, which is
      not an `AuthError`, so the page shows the wrapped message. A wrong
      password reported by the gateway as `AuthError('Erro ao autenticar',
      {code: 'auth/wrong-password'})` is shown as 'Erro ao autenticar'. */
  lemma SignInFailureShowsWrappedMessage(e: Thrown)
    ensures var w := AuthService.WrapAuthError(e, AuthService.LoginDefault);
      ToLoginErrorMessage(w) == (if w.message == "" then LoginFailed else w.message)
  {
  }

  lemma WrongPasswordShownAsGatewayMessage()
    ensures ToLoginErrorMessage(AuthService.WrapAuthError(
      AuthError("Erro ao autenticar", CauseWithCode(Some("auth/wrong-password"))), AuthService.LoginDefault))
      == "Erro ao autenticar"
  {
    SignInFailureShowsWrappedMessage(AuthError("Erro ao autenticar", CauseWithCode(Some("auth/wrong-password"))));
  }

  /** The text for a service code, when the sign-in page means to show one:
      the same four cases as `FirebaseCodeText`, read from the code the
      service has already mapped. */
  function ServiceCodeText(c: ServiceCode): (r: Option<string>)
    ensures r.Some? <==> c in {InvalidCredentials, InvalidEmail, TooManyRequests, NetworkRequestFailed}
  {
    match c
    case InvalidCredentials => Some(IncorrectCredentials)
    case InvalidEmail => Some("E-mail inválido.")
    case TooManyRequests => Some("Muitas tentativas. Tente novamente mais tarde.")
    case NetworkRequestFailed => Some("Erro de conexão. Verifique sua rede.")
    case _ => None
  }

  /** The sign-in message read from what the service actually throws. */
  function ToLoginServiceErrorMessage(err: Thrown): (r: string)
    ensures r != ""
    ensures err.AuthServiceError? && ServiceCodeText(err.code).Some? ==> r == ServiceCodeText(err.code).value
    ensures !(err.AuthServiceError? && ServiceCodeText(err.code).Some?) ==>
      r == (if err.NonError? || err.message == "" then LoginFailed else err.message)
  {
    if err.AuthServiceError? && ServiceCodeText(err.code).Some? then ServiceCodeText(err.code).value
    else if err.NonError? || err.message == "" then LoginFailed
    else err.message
  }

  /** Read after the service's wrapping, the corrected message is the one the
      page gives for the gateway's own error whenever that error carries a
      message: in particular a wrong password shows 'E-mail ou senha
      incorretos.'. */
  lemma ServiceMessageMatchesPageIntent(e: Thrown)
    requires e.AuthError? && e.message != ""
    ensures ToLoginServiceErrorMessage(AuthService.WrapAuthError(e, AuthService.LoginDefault)) == ToLoginErrorMessage(e)
  {
    var code := AuthService.CauseCode(e.cause);
    var c := AuthService.FirebaseCodeToServiceCode(code);
    if e.cause.CauseWithCode? && FirebaseCodeText(e.cause.code).Some? {
      assert code == e.cause.code;
      if code.value in AuthService.CredentialCodes {
        assert c == InvalidCredentials;
      } else if code.value == "auth/invalid-email" {
        assert c == InvalidEmail;
      } else if code.value == "auth/too-many-requests" {
        assert c == TooManyRequests;
      } else {
        assert c == NetworkRequestFailed;
      }
    } else {
      assert ServiceCodeText(c).None?;
    }
  }
}

=== FILE: novo_colaborador.dfy ===
/**
 * The two-step "new employee" page (`NovoColaborador.tsx`): basic data
 * (name, e-mail, active switch) on step 0, the department on step 1, and
 * the creation request sent when step 1 is confirmed. The page's state
 * hooks are the fields of `NovoColaboradorPage`; the request itself is
 * recorded in `requests` (sending it is I/O, not part of this model).
 */
module NovoColaborador {
  import opened Opt
  import opened Strings
  import opened Domain
  import Cadastro

  /** The number of steps (`STEPS.length`). */
  const StepCount: nat := 2

  /** The departments the select offers. */
  const Departamentos: seq<string> := ["Design", "TI", "Marketing", "Produto", "RH", "Financeiro"]

  const NomeRequired := "Nome é obrigatório"
  const DepartamentoRequired := "Departamento é obrigatório"

  /** The `errors` state: one optional message per field. */
  datatype StepErrors = StepErrors(nome: Option<string>, email: Option<string>, departamento: Option<string>)

  const NoErrors := StepErrors(None, None, None)

  function NomeError(nome: string): (r: Option<string>)
    ensures r.None? <==> !IsBlank(nome)
  {
    if IsBlank(nome) then Some(NomeRequired) else None
  }

  /** Step 0 accepts a non-blank name and a well-formed e-mail. */
  predicate Step0Ok(nome: string, email: string) {
    NomeError(nome).None? && Cadastro.EmailError(email).None?
  }

  /** A creation request as the page builds it. */
  ghost predicate WellFormedRequest(c: CriarColaboradorDTO) {
    c.nome != "" && Trim(c.nome) == c.nome && EmailShape(c.email) && Trim(c.email) == c.email
    && c.departamento != ""
  }

  /** The input built at the last step: trimmed name and e-mail, the chosen
      department, and the status the switch selects. */
  function Request(nome: string, email: string, departamento: string, ativar: bool): (r: CriarColaboradorDTO)
    ensures r.status == Ativo <==> ativar
  {
    CriarColaboradorDTO(Trim(nome), Trim(email), departamento, if ativar then Ativo else Inativo)
  }

  /** Requests built from accepted fields are well-formed. */
  lemma RequestWellFormed(nome: string, email: string, departamento: string, ativar: bool)
    requires Step0Ok(nome, email) && departamento != ""
    ensures WellFormedRequest(Request(nome, email, departamento, ativar))
  {
    TrimIdempotent(nome);
    TrimIdempotent(email);
    MatchesEmailIffShape(Trim(email));
  }

  class NovoColaboradorPage {
    var activeStep: nat
    var nome: string
    var email: string
    var ativarAoCriar: bool
    var departamento: string
    var submitting: bool
    var errors: StepErrors
    var toastOpen: bool
    /** The page was left (`navigate('/colaboradores')`). */
    var leftPage: bool
    /** The inputs handed to `criarColaborador`, oldest first. */
    var requests: seq<CriarColaboradorDTO>

    /** The step is a real step; step 1 is only reached with accepted step-0
        fields (which are only editable on step 0); every request sent is
        well-formed. */
    ghost predicate Valid()
      reads this
    {
      && activeStep < StepCount
      && (activeStep == 1 ==> Step0Ok(nome, email))
      && forall i :: 0 <= i < |requests| ==> WellFormedRequest(requests[i])
    }

    constructor()
      ensures Valid()
      ensures activeStep == 0 && nome == "" && email == "" && ativarAoCriar && departamento == ""
      ensures !submitting && errors == NoErrors && !toastOpen && !leftPage && requests == []
    {
      activeStep := 0;
      nome := "";
      email := "";
      ativarAoCriar := true;
      departamento := "";
      submitting := false;
      errors := NoErrors;
      toastOpen := false;
      leftPage := false;
      requests := [];
    }

    /** `progress`: the share of steps done, in percent. */
    function Progress(): (p: nat)
      reads this
      requires Valid()
      ensures p == 0 || p == 50
      ensures p == 50 <==> activeStep == 1
    {
      activeStep * 100 / StepCount
    }

    /** Typing in the name field (shown on step 0) clears its error. */
    method EditNome(s: string)
      requires Valid() && activeStep == 0
      modifies this
      ensures Valid()
      ensures nome == s && errors == old(errors).(nome := None)
      ensures activeStep == old(activeStep) && email == old(email) && departamento == old(departamento)
      ensures ativarAoCriar == old(ativarAoCriar) && requests == old(requests) && submitting == old(submitting)
      ensures toastOpen == old(toastOpen) && leftPage == old(leftPage)
    {
      nome := s;
      errors := errors.(nome := None);
    }

    /** Typing in the e-mail field (shown on step 0) clears its error. */
    method EditEmail(s: string)
      requires Valid() && activeStep == 0
      modifies this
      ensures Valid()
      ensures email == s && errors == old(errors).(email := None)
      ensures activeStep == old(activeStep) && nome == old(nome) && departamento == old(departamento)
      ensures ativarAoCriar == old(ativarAoCriar) && requests == old(requests) && submitting == old(submitting)
      ensures toastOpen == old(toastOpen) && leftPage == old(leftPage)
    {
      email := s;
      errors := errors.(email := None);
    }

    /** The "activate on creation" switch (shown on step 0). */
    method SetAtivar(b: bool)
      requires Valid() && activeStep == 0
      modifies this
      ensures Valid()
      ensures ativarAoCriar == b
      ensures activeStep == old(activeStep) && nome == old(nome) && email == old(email)
      ensures departamento == old(departamento) && errors == old(errors) && requests == old(requests)
      ensures submitting == old(submitting) && toastOpen == old(toastOpen) && leftPage == old(leftPage)
    {
      ativarAoCriar := b;
    }

    /** Choosing a department in the select (shown on step 1) clears its error. */
    method SelectDepartamento(d: string)
      requires Valid() && activeStep == 1 && d in Departamentos
      modifies this
      ensures Valid()
      ensures departamento == d && errors == old(errors).(departamento := None)
      ensures activeStep == old(activeStep) && nome == old(nome) && email == old(email)
      ensures ativarAoCriar == old(ativarAoCriar) && requests == old(requests) && submitting == old(submitting)
      ensures toastOpen == old(toastOpen) && leftPage == old(leftPage)
    {
      departamento := d;
      errors := errors.(departamento := None);
    }

    /** `validateStep0`: merges the name and e-mail errors it finds into
        `errors` (a field without an error keeps its old message) and
        reports whether it found none. */
    method ValidateStep0() returns (ok: bool)
      requires Valid()
      modifies this
      ensures Valid()
      ensures ok <==> Step0Ok(nome, email)
      ensures errors.nome == (if NomeError(nome).Some? then NomeError(nome) else old(errors).nome)
      ensures errors.email == (if Cadastro.EmailError(email).Some? then Cadastro.EmailError(email) else old(errors).email)
      ensures errors.departamento == old(errors).departamento
      ensures activeStep == old(activeStep) && nome == old(nome) && email == old(email)
      ensures departamento == old(departamento) && ativarAoCriar == old(ativarAoCriar) && requests == old(requests)
      ensures submitting == old(submitting) && toastOpen == old(toastOpen) && leftPage == old(leftPage)
    {
      var nomeErr := NomeError(nome);
      var emailErr := Cadastro.EmailError(email);
      errors := StepErrors(
        if nomeErr.Some? then nomeErr else errors.nome,
        if emailErr.Some? then emailErr else errors.email,
        errors.departamento);
      ok := nomeErr.None? && emailErr.None?;
    }

    /** `validateStep1`: a department must be chosen. */
    method ValidateStep1() returns (ok: bool)
      requires Valid()
      modifies this
      ensures Valid()
      ensures ok <==> departamento != ""
      ensures errors == old(errors).(departamento := if ok then None else Some(DepartamentoRequired))
      ensures activeStep == old(activeStep) && nome == old(nome) && email == old(email)
      ensures departamento == old(departamento) && ativarAoCriar == old(ativarAoCriar) && requests == old(requests)
      ensures submitting == old(submitting) && toastOpen == old(toastOpen) && leftPage == old(leftPage)
    {
      if departamento == "" {
        errors := errors.(departamento := Some(DepartamentoRequired));
        return false;
      }
      errors := errors.(departamento := None);
      return true;
    }

    /** `handleNext`: validate the current step; when it passes, clear the
        errors and either move to step 1 or, on step 1, send the request. */
    method HandleNext()
      requires Valid()
      modifies this
      ensures Valid()
      ensures nome == old(nome) && email == old(email) && departamento == old(departamento)
      ensures ativarAoCriar == old(ativarAoCriar) && toastOpen == old(toastOpen) && leftPage == old(leftPage)
      ensures old(activeStep) == 0 && !Step0Ok(nome, email) ==>
        activeStep == 0 && requests == old(requests) && submitting == old(submitting)
        && errors.departamento == old(errors).departamento
        && errors.nome == (if NomeError(nome).Some? then NomeError(nome) else old(errors).nome)
        && errors.email == (if Cadastro.EmailError(email).Some? then Cadastro.EmailError(email) else old(errors).email)
      ensures old(activeStep) == 0 && Step0Ok(nome, email) ==>
        activeStep == 1 && requests == old(requests) && submitting == old(submitting) && errors == NoErrors
      ensures old(activeStep) == 1 && departamento == "" ==>
        activeStep == 1 && requests == old(requests) && submitting == old(submitting)
        && errors == old(errors).(departamento := Some(DepartamentoRequired))
      ensures old(activeStep) == 1 && departamento != "" ==>
        activeStep == 1 && submitting && errors == NoErrors
        && requests == old(requests) + [Request(nome, email, departamento, ativarAoCriar)]
    {
      if activeStep == 0 {
        var ok := ValidateStep0();
        if !ok {
          return;
        }
      }
      if activeStep == 1 {
        var ok := ValidateStep1();
        if !ok {
          return;
        }
      }
      errors := NoErrors;
      if activeStep < StepCount - 1 {
        activeStep := activeStep + 1;
      } else {
        var input := Request(nome, email, departamento, ativarAoCriar);
        RequestWellFormed(nome, email, departamento, ativarAoCriar);
        requests := requests + [input];
        submitting := true;
      }
    }

    /** The end of a sent request: the page is left on success, the toast
        opens on failure, and `submitting` goes back to false either way. */
    method RequestSettled(succeeded: bool)
      requires Valid()
      modifies this
      ensures Valid()
      ensures !submitting && leftPage == (old(leftPage) || succeeded) && toastOpen == (old(toastOpen) || !succeeded)
      ensures activeStep == old(activeStep) && nome == old(nome) && email == old(email)
      ensures departamento == old(departamento) && ativarAoCriar == old(ativarAoCriar)
      ensures errors == old(errors) && requests == old(requests)
    {
      if succeeded {
        leftPage := true;
      } else {
        toastOpen := true;
      }
      submitting := false;
    }

    /** `handleBack`: one step back, or leave the page from step 0. */
    method HandleBack()
      requires Valid()
      modifies this
      ensures Valid()
      ensures old(activeStep) > 0 ==> activeStep == old(activeStep) - 1 && leftPage == old(leftPage)
      ensures old(activeStep) == 0 ==> activeStep == 0 && leftPage
      ensures nome == old(nome) && email == old(email) && departamento == old(departamento)
      ensures ativarAoCriar == old(ativarAoCriar) && errors == old(errors) && requests == old(requests)
      ensures submitting == old(submitting) && toastOpen == old(toastOpen)
    {
      if activeStep > 0 {
        activeStep := activeStep - 1;
      } else {
        leftPage := true;
      }
    }
  }
}

=== FILE: novo_departamento.dfy ===
/**
 * The "new department" page (`NovoDepartamento.tsx`): the manager options,
 * the form check, the input handed to the create-department service, and
 * the message carried back to the department list. The page's state hooks
 * are the fields of `NovoDepartamentoPage`; loading the employees and
 * sending the request are I/O, so their outcomes are parameters.
 */
module NovoDepartamento {
  import opened Opt
  import opened Strings
  import opened Domain
  import opened Errors
  import opened Lists
  import DepartamentosService

  const NomeRequired := "Nome é obrigatório"
  const GestorRequired := "Selecione o gestor responsável"
  const Created := "Departamento criado."

  /** `gestores`: the employees whose level is 'gestor', in list order. */
  function Gestores(cs: seq<Colaborador>): (r: seq<Colaborador>)
    ensures forall c :: c in r <==> c in cs && c.nivelHierarquico == "gestor"
    ensures IsSubsequence(r, cs)
  {
    if cs == [] then []
    else
      var rest := Gestores(cs[1..]);
      assert forall c :: c in cs <==> c == cs[0] || c in cs[1..];
      if cs[0].nivelHierarquico == "gestor" then [cs[0]] + rest else rest
  }

  /** The `errors` record. */
  datatype FormErrors = FormErrors(nome: Option<string>, gestorResponsavelId: Option<string>)

  const NoErrors := FormErrors(None, None)

  /** The record `validate` stores. */
  function Validate(nome: string, gestor: string): (r: FormErrors)
    ensures r.nome.None? <==> !IsBlank(nome)
    ensures r.nome.Some? ==> r.nome.value == NomeRequired
    ensures r.gestorResponsavelId.None? <==> !IsBlank(gestor)
    ensures r.gestorResponsavelId.Some? ==> r.gestorResponsavelId.value == GestorRequired
  {
    FormErrors(if IsBlank(nome) then Some(NomeRequired) else None,
               if IsBlank(gestor) then Some(GestorRequired) else None)
  }

  /** The input built in `handleSubmit`. */
  function Input(nome: string, gestor: string, selecionados: seq<Colaborador>): (r: CreateDepartamentoInput)
    ensures r.colaboradoresIds == Some(Ids(selecionados))
    ensures r.descricao.None? && r.sigla.None?
  {
    CreateDepartamentoInput(Trim(nome), Trim(gestor), Some(Ids(selecionados)), None, None)
  }

  /** A department is created with the name and manager as typed, without
      the white space around them, and with the selected employees, in the
      order they were selected, as its roster. */
  lemma InputReachesService(nome: string, gestor: string, selecionados: seq<Colaborador>)
    requires Validate(nome, gestor) == NoErrors
    ensures var dto := DepartamentosService.ToCriarDTO(Input(nome, gestor, selecionados));
      && dto.nome != "" && Trim(dto.nome) == dto.nome
      && dto.gestorResponsavelId != "" && Trim(dto.gestorResponsavelId) == dto.gestorResponsavelId
      && |dto.colaboradoresIds| == |selecionados|
      && forall i :: 0 <= i < |selecionados| ==> dto.colaboradoresIds[i] == selecionados[i].id
  {
    TrimIdempotent(nome);
    TrimIdempotent(gestor);
  }

  /** The success message: the count of linked employees when there are any. */
  function SuccessMessage(n: nat): (r: string)
    ensures |r| >= |Created| && r[..|Created|] == Created
    ensures r == Created <==> n == 0
  {
    if n > 0 then Created + " " + NatToString(n) + " colaborador(es) vinculado(s)." else Created
  }

  /** Different counts give different messages: the count can be read back. */
  lemma SuccessMessageInjective(m: nat, n: nat)
    requires SuccessMessage(m) == SuccessMessage(n)
    ensures m == n
  {
    if m > 0 && n > 0 {
      var p := Created + " ";
      var sfx := " colaborador(es) vinculado(s).";
      var a, b := NatToString(m), NatToString(n);
      assert p + a + sfx == p + b + sfx;
      assert |a| == |b|;
      assert a == (p + a + sfx)[|p|..|p| + |a|];
      assert b == (p + b + sfx)[|p|..|p| + |b|];
      NatToStringValue(m);
      NatToStringValue(n);
    }
  }

  /** Where the page went: still on it, or back to the department list with
      an optional success message. */
  datatype Exit = Stayed | Left(successMessage: Option<string>)

  /** A request the page sends: a non-blank trimmed name and manager, and a
      roster of loaded employees. */
  ghost predicate WellFormedInput(x: CreateDepartamentoInput, cs: seq<Colaborador>) {
    && x.nome != "" && Trim(x.nome) == x.nome
    && x.gestorResponsavelId != "" && Trim(x.gestorResponsavelId) == x.gestorResponsavelId
    && x.colaboradoresIds.Some? && x.descricao.None? && x.sigla.None?
    && forall i :: 0 <= i < |x.colaboradoresIds.value| ==> x.colaboradoresIds.value[i] in Ids(cs)
  }

  /** All the page's state, for stating what a handler leaves alone. */
  datatype PageState = PageState(
    nome: string, gestorResponsavelId: string, selecionados: seq<Colaborador>,
    colaboradores: seq<Colaborador>, loading: bool, submitting: bool, errors: FormErrors,
    toastOpen: bool, exit: Exit, requests: seq<CreateDepartamentoInput>)

  class NovoDepartamentoPage {
    var nome: string
    var gestorResponsavelId: string
    var selecionados: seq<Colaborador>
    var colaboradores: seq<Colaborador>
    var loading: bool
    var submitting: bool
    var errors: FormErrors
    var toastOpen: bool
    var exit: Exit
    /** The inputs handed to the create-department service, oldest first. */
    var requests: seq<CreateDepartamentoInput>

    /** The number of employees the last request links. */
    function LastCount(): nat
      reads this
      requires requests != [] && requests[|requests| - 1].colaboradoresIds.Some?
    {
      |requests[|requests| - 1].colaboradoresIds.value|
    }

    function State(): PageState
      reads this
    {
      PageState(nome, gestorResponsavelId, selecionados, colaboradores, loading, submitting,
                errors, toastOpen, exit, requests)
    }

    /** The manager select and the employee picker are disabled while the
        employees load, so nothing is chosen and nothing sent before; the
        selection is made of loaded employees; every request sent is
        well-formed. */
    ghost predicate Valid()
      reads this
    {
      && (loading ==> gestorResponsavelId == "" && selecionados == [] && requests == [])
      && (forall c :: c in selecionados ==> c in colaboradores)
      && forall i :: 0 <= i < |requests| ==> WellFormedInput(requests[i], colaboradores)
    }

    constructor()
      ensures Valid()
      ensures State() == PageState("", "", [], [], true, false, NoErrors, false, Stayed, [])
    {
      nome, gestorResponsavelId, selecionados, colaboradores := "", "", [], [];
      loading, submitting, errors, toastOpen, exit, requests := true, false, NoErrors, false, Stayed, [];
    }

    /** The employee list arrived, or failed to (an empty list). */
    method Loaded(result: Result<seq<Colaborador>>)
      requires Valid() && loading
      modifies this
      ensures Valid()
      ensures State() == old(State()).(colaboradores := if result.Ok? then result.value else [], loading := false)
    {
      colaboradores := if result.Ok? then result.value else [];
      loading := false;
    }

    /** Typing a name clears the name error. */
    method EditNome(s: string)
      requires Valid()
      modifies this
      ensures Valid()
      ensures State() == old(State()).(nome := s, errors := old(errors).(nome := None))
    {
      nome := s;
      if errors.nome.Some? {
        errors := errors.(nome := None);
      }
    }

    /** Choosing a manager among the loaded ones clears the manager error. */
    method SelectGestor(g: Colaborador)
      requires Valid() && !loading && g in Gestores(colaboradores)
      modifies this
      ensures Valid()
      ensures State() == old(State()).(gestorResponsavelId := g.id,
                                       errors := old(errors).(gestorResponsavelId := None))
    {
      gestorResponsavelId := g.id;
      if errors.gestorResponsavelId.Some? {
        errors := errors.(gestorResponsavelId := None);
      }
    }

    /** The employee picker's new value. */
    method SetSelecionados(sel: seq<Colaborador>)
      requires Valid() && !loading && forall c :: c in sel ==> c in colaboradores
      modifies this
      ensures Valid()
      ensures State() == old(State()).(selecionados := sel)
    {
      selecionados := sel;
    }

    /** `handleSubmit`: store the errors; when there are none, send the input
        built from the current fields. */
    method HandleSubmit()
      requires Valid()
      modifies this
      ensures Valid()
      ensures Validate(nome, gestorResponsavelId) != NoErrors ==>
        State() == old(State()).(errors := Validate(nome, gestorResponsavelId))
      ensures Validate(nome, gestorResponsavelId) == NoErrors ==>
        State() == old(State()).(errors := NoErrors, submitting := true,
          requests := old(requests) + [Input(nome, gestorResponsavelId, selecionados)])
    {
      errors := Validate(nome, gestorResponsavelId);
      if errors != NoErrors {
        return;
      }
      var input := Input(nome, gestorResponsavelId, selecionados);
      InputReachesService(nome, gestorResponsavelId, selecionados);
      forall i | 0 <= i < |selecionados|
        ensures selecionados[i].id in Ids(colaboradores)
      {
        IdsMember(selecionados[i], colaboradores);
      }
      requests := requests + [input];
      submitting := true;
    }

    /** The end of the last request: back to the list with the success
        message (counting the employees it linked) or the error toast. */
    method RequestSettled(succeeded: bool)
      requires Valid() && requests != []
      modifies this
      ensures Valid()
      ensures succeeded ==> State() == old(State()).(submitting := false,
        exit := Left(Some(SuccessMessage(old(LastCount())))))
      ensures !succeeded ==> State() == old(State()).(submitting := false, toastOpen := true)
    {
      assert WellFormedInput(requests[|requests| - 1], colaboradores);
      if succeeded {
        exit := Left(Some(SuccessMessage(LastCount())));
      } else {
        toastOpen := true;
      }
      submitting := false;
    }

    /** The breadcrumb and the cancel button: back to the list, no message. */
    method Cancel()
      requires Valid()
      modifies this
      ensures Valid()
      ensures State() == old(State()).(exit := Left(None))
    {
      exit := Left(None);
    }
  }
}

=== FILE: strings.dfy ===
/**
 * Small string toolkit shared by the whole model: JavaScript's notion of
 * white space (`\s`, `String.prototype.trim`), ASCII/Latin-1 lower-casing,
 * `String.prototype.includes`, the e-mail pattern used by every form
 * (`/^[^\s@]+@[^\s@]+\.[^\s@]+$/`) and decimal digits.
 */
module Strings {

  /** The characters JavaScript's `\s` and `trim` treat as white space
      (WhiteSpace and LineTerminator of ECMA-262). */
  predicate IsSpace(c: char) {
    c == ' ' || c == '\t' || c == '\n' || c == '\r' || c == '\U{B}' || c == '\U{C}'
    || c == '\U{A0}' || c == '\U{1680}' || ('\U{2000}' <= c <= '\U{200A}')
    || c == '\U{2028}' || c == '\U{2029}' || c == '\U{202F}' || c == '\U{205F}'
    || c == '\U{3000}' || c == '\U{FEFF}'
  }

  predicate AllSpace(s: string) {
    forall i :: 0 <= i < |s| ==> IsSpace(s[i])
  }

  predicate NoSpace(s: string) {
    forall i :: 0 <= i < |s| ==> !IsSpace(s[i])
  }

  /** `s.trimStart()` */
  function TrimStart(s: string): (r: string)
    ensures |r| <= |s| && r == s[|s| - |r|..]
    ensures AllSpace(s[..|s| - |r|])
    ensures r == [] || !IsSpace(r[0])
  {
    if s == [] || !IsSpace(s[0]) then s else TrimStart(s[1..])
  }

  /** `s.trimEnd()` */
  function TrimEnd(s: string): (r: string)
    ensures |r| <= |s| && r == s[..|r|]
    ensures AllSpace(s[|r|..])
    ensures r == [] || !IsSpace(r[|r| - 1])
    ensures s != [] && !IsSpace(s[0]) ==> r != []
  {
    if s == [] || !IsSpace(s[|s| - 1]) then s else TrimEnd(s[..|s| - 1])
  }

  /** `r` is `s` with only white space removed before index `i` and after `r`. */
  predicate TrimmedAt(s: string, r: string, i: int) {
    0 <= i <= |s| - |r| && r == s[i..i + |r|] && AllSpace(s[..i]) && AllSpace(s[i + |r|..])
  }

  /** `s.trim()`: drop leading and trailing white space. */
  function Trim(s: string): string
    decreases |s|
  {
    if s != [] && IsSpace(s[0]) then Trim(s[1..])
    else if s != [] && IsSpace(s[|s| - 1]) then Trim(s[..|s| - 1])
    else s
  }

  lemma TrimmedAfterSpace(s: string, r: string, j: int)
    requires s != [] && IsSpace(s[0]) && TrimmedAt(s[1..], r, j)
    ensures TrimmedAt(s, r, j + 1)
  {
    assert r == s[1..][j..j + |r|] == s[j + 1..j + 1 + |r|];
    var p := s[..j + 1];
    assert AllSpace(p) by {
      forall k | 0 <= k < |p| ensures IsSpace(p[k]) {
        if k > 0 { assert p[k] == s[1..][..j][k - 1]; }
      }
    }
    assert s[j + 1 + |r|..] == s[1..][j + |r|..];
  }

  lemma TrimmedBeforeSpace(s: string, r: string, i: int)
    requires s != [] && IsSpace(s[|s| - 1]) && TrimmedAt(s[..|s| - 1], r, i)
    ensures TrimmedAt(s, r, i)
  {
    var t := s[..|s| - 1];
    assert r == t[i..i + |r|] == s[i..i + |r|];
    assert s[..i] == t[..i];
    var q := s[i + |r|..];
    assert AllSpace(q) by {
      forall k | 0 <= k < |q| ensures IsSpace(q[k]) {
        if k < |t| - i - |r| { assert q[k] == t[i + |r|..][k]; }
      }
    }
  }

  /** The trimmed string is a slice of the original with only white space
      around it. */
  lemma {:induction false} TrimShape(s: string) returns (i: nat)
    ensures TrimmedAt(s, Trim(s), i)
    decreases |s|
  {
    if s != [] && IsSpace(s[0]) {
      var j := TrimShape(s[1..]);
      TrimmedAfterSpace(s, Trim(s), j);
      i := j + 1;
    } else if s != [] && IsSpace(s[|s| - 1]) {
      i := TrimShape(s[..|s| - 1]);
      TrimmedBeforeSpace(s, Trim(s), i);
    } else {
      i := 0;
      assert s[..0] == [] && s[|s|..] == [];
    }
  }

  /** The trimmed string neither starts nor ends with white space. */
  lemma {:induction false} TrimEnds(s: string)
    ensures Trim(s) == [] || (!IsSpace(Trim(s)[0]) && !IsSpace(Trim(s)[|Trim(s)| - 1]))
    decreases |s|
  {
    if s != [] && IsSpace(s[0]) {
      TrimEnds(s[1..]);
    } else if s != [] && IsSpace(s[|s| - 1]) {
      TrimEnds(s[..|s| - 1]);
    }
  }

  /** `!s.trim()` in the source: the string is empty or white space only. */
  predicate IsBlank(s: string) {
    Trim(s) == ""
  }

  /** A string is blank exactly when every character is white space. */
  lemma {:induction false} BlankIffAllSpace(s: string)
    ensures IsBlank(s) <==> AllSpace(s)
  {
    var i := TrimShape(s);
    TrimEnds(s);
    if Trim(s) == "" {
      assert s == s[..i] + s[i..];
    }
  }

  /** Trimming twice is trimming once. */
  lemma TrimIdempotent(s: string)
    ensures Trim(Trim(s)) == Trim(s)
  {
    TrimEnds(s);
  }

  /** Lower-case one character: ASCII and the Latin-1 capitals (the accented
      letters of Portuguese). */
  function LowerChar(c: char): (r: char)
    ensures 'A' <= c <= 'Z' ==> r == (c as int + 32) as char
    ensures !('A' <= c <= 'Z') && !('À' <= c <= 'Þ') ==> r == c
  {
    if 'A' <= c <= 'Z' || ('À' <= c <= 'Þ' && c != '×')
    then (c as int + 32) as char
    else c
  }

  /** `s.toLowerCase()` */
  function ToLower(s: string): (r: string)
    ensures |r| == |s|
    ensures forall i :: 0 <= i < |s| ==> r[i] == LowerChar(s[i])
  {
    if s == [] then [] else [LowerChar(s[0])] + ToLower(s[1..])
  }

  /** `s.includes(sub)`: `sub` occurs in `s` at some index. */
  predicate OccursAt(s: string, sub: string, i: int) {
    0 <= i && i + |sub| <= |s| && s[i..i + |sub|] == sub
  }

  function Includes(s: string, sub: string): bool
    decreases |s|
  {
    if |sub| > |s| then false else s[..|sub|] == sub || Includes(s[1..], sub)
  }

  lemma {:induction false} IncludesIff(s: string, sub: string)
    ensures Includes(s, sub) <==> exists i :: OccursAt(s, sub, i)
    decreases |s|
  {
    if |sub| <= |s| {
      if s[..|sub|] == sub {
        assert OccursAt(s, sub, 0);
      } else {
        IncludesIff(s[1..], sub);
        if Includes(s[1..], sub) {
          var j :| OccursAt(s[1..], sub, j);
          assert s[j + 1..j + 1 + |sub|] == s[1..][j..j + |sub|];
          assert OccursAt(s, sub, j + 1);
        }
        forall i | OccursAt(s, sub, i) ensures OccursAt(s[1..], sub, i - 1) {
          assert s[1..][i - 1..i - 1 + |sub|] == s[i..i + |sub|];
        }
      }
    }
  }

  /** Position of the first occurrence of `c`, or |s| when it does not occur. */
  function IndexOf(s: string, c: char): (k: nat)
    ensures k <= |s|
    ensures forall j :: 0 <= j < k ==> s[j] != c
    ensures k < |s| ==> s[k] == c
  {
    if s == [] then 0 else if s[0] == c then 0 else 1 + IndexOf(s[1..], c)
  }

  /** One `[^\s@]` character. */
  predicate EmailChar(c: char) {
    !IsSpace(c) && c != '@'
  }

  predicate EmailChars(s: string) {
    forall i :: 0 <= i < |s| ==> EmailChar(s[i])
  }

  /** `/^[^\s@]+@[^\s@]+\.[^\s@]+$/.test(s)`, computed: one '@' that is not
      first, no white space, and a '.' in the domain neither first nor last. */
  predicate MatchesEmail(s: string) {
    var at := IndexOf(s, '@');
    && 0 < at < |s|
    && EmailChars(s[..at])
    && EmailChars(s[at + 1..])
    && exists j :: at + 1 < j < |s| - 1 && s[j] == '.'
  }

  /** The regular expression read literally: local part, '@', host, '.', suffix. */
  ghost predicate EmailShape(s: string) {
    exists l, h, t :: |l| > 0 && |h| > 0 && |t| > 0
      && EmailChars(l) && EmailChars(h) && EmailChars(t)
      && s == l + "@" + h + "." + t
  }

  lemma MatchesEmailHasShape(s: string)
    requires MatchesEmail(s)
    ensures EmailShape(s)
  {
    var at := IndexOf(s, '@');
    var j :| at + 1 < j < |s| - 1 && s[j] == '.';
    var l, h, t := s[..at], s[at + 1..j], s[j + 1..];
    assert EmailChars(h) by {
      forall i | 0 <= i < |h| ensures EmailChar(h[i]) {
        assert h[i] == s[at + 1 + i];
      }
    }
    assert EmailChars(t) by {
      forall i | 0 <= i < |t| ensures EmailChar(t[i]) {
        assert t[i] == s[j + 1 + i];
      }
    }
    assert s == l + "@" + h + "." + t;
  }

  lemma ShapeMatchesEmail(s: string, l: string, h: string, t: string)
    requires |l| > 0 && |h| > 0 && |t| > 0
    requires EmailChars(l) && EmailChars(h) && EmailChars(t)
    requires s == l + "@" + h + "." + t
    ensures MatchesEmail(s)
  {
    var at := |l|;
    assert s[at] == '@';
    assert forall m :: 0 <= m < at ==> s[m] == l[m] && s[m] != '@';
    assert IndexOf(s, '@') == at;
    assert s[..at] == l;
    var rest := h + "." + t;
    assert s[at + 1..] == rest;
    assert EmailChars(rest) by {
      forall i | 0 <= i < |rest| ensures EmailChar(rest[i]) {
        if i < |h| { assert rest[i] == h[i]; }
        else if i > |h| { assert rest[i] == t[i - |h| - 1]; }
      }
    }
    var j := at + 1 + |h|;
    assert s[j] == '.';
  }

  /** The computed check accepts exactly the strings of the regular expression. */
  lemma MatchesEmailIffShape(s: string)
    ensures MatchesEmail(s) <==> EmailShape(s)
  {
    if MatchesEmail(s) {
      MatchesEmailHasShape(s);
    }
    if EmailShape(s) {
      var l, h, t :| |l| > 0 && |h| > 0 && |t| > 0
        && EmailChars(l) && EmailChars(h) && EmailChars(t)
        && s == l + "@" + h + "." + t;
      ShapeMatchesEmail(s, l, h, t);
    }
  }

  predicate IsDigit(c: char) {
    '0' <= c <= '9'
  }

  predicate AllDigits(s: string) {
    forall i :: 0 <= i < |s| ==> IsDigit(s[i])
  }

  function DigitChar(d: nat): (c: char)
    requires d < 10
    ensures IsDigit(c)
  {
    ('0' as int + d) as char
  }

  function DigitValue(c: char): (d: nat)
    requires IsDigit(c)
    ensures d < 10 && DigitChar(d) == c
  {
    c as int - '0' as int
  }

  /** `s.replace(/\D/g, '')`: keep the decimal digits, in order. */
  function Digits(s: string): (r: string)
    ensures AllDigits(r) && |r| <= |s|
  {
    if s == [] then []
    else if IsDigit(s[|s| - 1]) then Digits(s[..|s| - 1]) + [s[|s| - 1]]
    else Digits(s[..|s| - 1])
  }

  lemma {:induction false} DigitsAppend(a: string, b: string)
    ensures Digits(a + b) == Digits(a) + Digits(b)
    decreases |b|
  {
    if b == [] {
      assert a + b == a;
    } else {
      var b' := b[..|b| - 1];
      assert (a + b)[..|a + b| - 1] == a + b';
      DigitsAppend(a, b');
    }
  }

  lemma {:induction false} DigitsOfDigits(s: string)
    requires AllDigits(s)
    ensures Digits(s) == s
  {
    if s != [] {
      DigitsOfDigits(s[..|s| - 1]);
    }
  }

  /** `parseInt(s, 10)` of a string made only of digits (leading zeros allowed). */
  function DigitsValue(s: string): nat
    requires AllDigits(s)
  {
    if s == [] then 0 else DigitsValue(s[..|s| - 1]) * 10 + DigitValue(s[|s| - 1])
  }

  function Pow10(k: nat): (p: nat)
    ensures p >= 1
  {
    if k == 0 then 1 else 10 * Pow10(k - 1)
  }

  lemma AllDigitsAppend(a: string, b: string)
    requires AllDigits(a) && AllDigits(b)
    ensures AllDigits(a + b)
  {
    forall i | 0 <= i < |a + b| ensures IsDigit((a + b)[i]) {
      if i < |a| { assert (a + b)[i] == a[i]; } else { assert (a + b)[i] == b[i - |a|]; }
    }
  }

  /** Reading a concatenation of digit strings: the left part is shifted. */
  lemma {:induction false} DigitsValueAppend(a: string, b: string)
    requires AllDigits(a) && AllDigits(b)
    ensures AllDigits(a + b)
    ensures DigitsValue(a + b) == DigitsValue(a) * Pow10(|b|) + DigitsValue(b)
    decreases |b|
  {
    AllDigitsAppend(a, b);
    if b == [] {
      assert a + b == a;
    } else {
      var b' := b[..|b| - 1];
      var d := DigitValue(b[|b| - 1]);
      assert (a + b)[..|a + b| - 1] == a + b';
      assert (a + b)[|a + b| - 1] == b[|b| - 1];
      DigitsValueAppend(a, b');
      var va, vb' := DigitsValue(a), DigitsValue(b');
      assert DigitsValue(a + b) == DigitsValue(a + b') * 10 + d;
      assert DigitsValue(b) == vb' * 10 + d;
      assert Pow10(|b|) == 10 * Pow10(|b'|);
      ShiftDigit(va, Pow10(|b'|), vb', d);
    }
  }

  /** One more digit on the right shifts the left part one more place. */
  lemma ShiftDigit(va: int, p: int, vb: int, d: int)
    ensures (va * p + vb) * 10 + d == va * (10 * p) + (vb * 10 + d)
  {
    assert (va * p) * 10 == va * (10 * p);
  }

  /** `String(n)` for a natural number. */
  function NatToString(n: nat): (r: string)
    ensures AllDigits(r) && |r| >= 1
    ensures r[0] != '0' || n == 0
  {
    if n < 10 then [DigitChar(n)] else NatToString(n / 10) + [DigitChar(n % 10)]
  }

  /** Reading the decimal form back gives the number: `parseInt(String(n)) == n`. */
  lemma {:induction false} NatToStringValue(n: nat)
    ensures DigitsValue(NatToString(n)) == n
  {
    if n >= 10 {
      NatToStringValue(n / 10);
      var r := NatToString(n);
      assert r[..|r| - 1] == NatToString(n / 10);
    }
  }
}

/** The usual optional value (a JavaScript `undefined`-able field). */
module Opt {
  datatype Option<+T> = None | Some(value: T) {
    function GetOr(default: T): T {
      match this
      case Some(v) => v
      case None => default
    }
  }
}

=== FILE: use_colaboradores.dfy ===
/**
 * The employee list's state (`useColaboradores.ts`): the local name/e-mail
 * filters, the column sort, the row selection, the draft and applied
 * filters, the bulk delete behind the confirmation dialog and the check of
 * the edit drawer. The hook's state is the fields of `ColaboradoresState`;
 * the calls to the services are I/O, so their outcomes are parameters.
 */
module UseColaboradores {
  import opened Opt
  import opened Strings
  import opened Domain
  import opened Errors
  import opened Lists
  import Cadastro
  import NovoColaborador
  import DS = DepartamentosService

  /** The sortable columns (`OrderByKey`). */
  datatype OrderByKey = Nome | Email | Departamento | StatusKey

  datatype Order = Asc | Desc

  /** `ColaboradoresFilter`: each key may be absent (`None`). */
  datatype Filter = Filter(name: Option<string>, email: Option<string>, department: Option<string>)

  const NoFilter := Filter(None, None, None)

  // ---------------------------------------------------------------------
  // Ordering

  function StatusText(s: Status): string {
    match s
    case Ativo => "Ativo"
    case Inativo => "Inativo"
  }

  /** `a[orderBy]`: the compared field, the status as its text. */
  function Key(c: Colaborador, k: OrderByKey): string {
    match k
    case Nome => c.nome
    case Email => c.email
    case Departamento => c.departamento
    case StatusKey => StatusText(c.status)
  }

  /** JavaScript's `a < b` on strings: lexicographic on characters, a proper
      prefix before the longer string. */
  predicate LexLess(a: string, b: string)
    decreases |a|
  {
    if a == [] then b != []
    else b != [] && (a[0] < b[0] || (a[0] == b[0] && LexLess(a[1..], b[1..])))
  }

  lemma {:induction false} LexLessIrreflexive(a: string)
    ensures !LexLess(a, a)
    decreases |a|
  {
    if a != [] {
      LexLessIrreflexive(a[1..]);
    }
  }

  /** Two strings are equal or one is before the other, and not both ways. */
  lemma {:induction false} LexLessTrichotomy(a: string, b: string)
    ensures a == b || LexLess(a, b) || LexLess(b, a)
    ensures !(LexLess(a, b) && LexLess(b, a))
    decreases |a|
  {
    if a != [] && b != [] && a[0] == b[0] {
      LexLessTrichotomy(a[1..], b[1..]);
      if a[1..] == b[1..] {
        assert a == [a[0]] + a[1..] && b == [b[0]] + b[1..];
      }
    }
  }

  lemma {:induction false} LexLessTransitive(a: string, b: string, c: string)
    requires LexLess(a, b) && LexLess(b, c)
    ensures LexLess(a, c)
    decreases |a|
  {
    if a != [] && a[0] == b[0] && b[0] == c[0] {
      LexLessTransitive(a[1..], b[1..], c[1..]);
    }
  }

  /** `compare`: -1, 0 or 1 as the first row's field is before, equal to or
      after the second's. */
  function Compare(a: Colaborador, b: Colaborador, k: OrderByKey): (r: int)
    ensures r == -1 <==> LexLess(Key(a, k), Key(b, k))
    ensures r == 1 <==> LexLess(Key(b, k), Key(a, k))
    ensures r == 0 <==> Key(a, k) == Key(b, k)
  {
    LexLessTrichotomy(Key(a, k), Key(b, k));
    LexLessIrreflexive(Key(a, k));
    if LexLess(Key(a, k), Key(b, k)) then -1
    else if LexLess(Key(b, k), Key(a, k)) then 1
    else 0
  }

  /** The comparator handed to `sort`: `compare`, negated when descending. */
  function Cmp(a: Colaborador, b: Colaborador, k: OrderByKey, o: Order): int {
    if o == Asc then Compare(a, b, k) else -Compare(a, b, k)
  }

  /** `a` may come before `b` in the sorted list. */
  predicate Le(a: Colaborador, b: Colaborador, k: OrderByKey, o: Order) {
    Cmp(a, b, k, o) <= 0
  }

  /** Swapping the rows negates the comparator. */
  lemma CmpAntisymmetric(a: Colaborador, b: Colaborador, k: OrderByKey, o: Order)
    ensures Cmp(a, b, k, o) == -Cmp(b, a, k, o)
  {
    LexLessTrichotomy(Key(a, k), Key(b, k));
  }

  /** The comparator orders every pair of rows. */
  lemma LeTotal(a: Colaborador, b: Colaborador, k: OrderByKey, o: Order)
    ensures Le(a, b, k, o) || Le(b, a, k, o)
  {
    CmpAntisymmetric(a, b, k, o);
  }

  lemma KeyLeTransitive(x: string, y: string, z: string)
    requires x == y || LexLess(x, y)
    requires y == z || LexLess(y, z)
    ensures x == z || LexLess(x, z)
  {
    if x != y && y != z {
      LexLessTransitive(x, y, z);
    }
  }

  lemma LeTransitive(a: Colaborador, b: Colaborador, c: Colaborador, k: OrderByKey, o: Order)
    requires Le(a, b, k, o) && Le(b, c, k, o)
    ensures Le(a, c, k, o)
  {
    if o == Asc {
      KeyLeTransitive(Key(a, k), Key(b, k), Key(c, k));
    } else {
      KeyLeTransitive(Key(c, k), Key(b, k), Key(a, k));
    }
  }

  /** Every row is before or level with every later row. */
  predicate Sorted(s: seq<Colaborador>, k: OrderByKey, o: Order) {
    forall p, q :: 0 <= p < q < |s| ==> Le(s[p], s[q], k, o)
  }

  /** `s[..i + 1]` is sorted except that the row at `j` may be out of
      place, and that row is before or level with every row after it. */
  predicate SinkInv(s: seq<Colaborador>, j: nat, i: nat, k: OrderByKey, o: Order)
    requires j <= i < |s|
  {
    && (forall p, q :: 0 <= p < q <= i && p != j && q != j ==> Le(s[p], s[q], k, o))
    && (forall q :: j < q <= i ==> Le(s[j], s[q], k, o))
  }

  /** Swapping the out-of-place row with a later-sorting left neighbour
      moves it one place left and keeps the invariant. */
  lemma SinkStep(s: seq<Colaborador>, t: seq<Colaborador>, j: nat, i: nat, k: OrderByKey, o: Order)
    requires 0 < j <= i < |s|
    requires SinkInv(s, j, i, k, o) && Cmp(s[j], s[j - 1], k, o) < 0
    requires t == s[j - 1 := s[j]][j := s[j - 1]]
    ensures SinkInv(t, j - 1, i, k, o)
    ensures multiset(t) == multiset(s)
  {
    assert t[j - 1] == s[j] && t[j] == s[j - 1];
    assert forall p :: 0 <= p < |s| && p != j - 1 && p != j ==> t[p] == s[p];
    forall p, q | 0 <= p < q <= i && p != j - 1 && q != j - 1
      ensures Le(t[p], t[q], k, o)
    {
      if q == j {
        assert Le(s[p], s[j - 1], k, o);
      } else if p == j {
        assert Le(s[j - 1], s[q], k, o);
      } else {
        assert Le(s[p], s[q], k, o);
      }
    }
    forall q | j - 1 < q <= i
      ensures Le(t[j - 1], t[q], k, o)
    {
      if q > j {
        assert Le(s[j], s[q], k, o);
      }
    }
  }

  /** Once the row is level with or after its left neighbour, the prefix
      is sorted. */
  lemma SinkDone(s: seq<Colaborador>, j: nat, i: nat, k: OrderByKey, o: Order)
    requires j <= i < |s|
    requires SinkInv(s, j, i, k, o) && (j == 0 || Cmp(s[j], s[j - 1], k, o) >= 0)
    ensures forall p, q :: 0 <= p < q <= i ==> Le(s[p], s[q], k, o)
  {
    if j > 0 {
      CmpAntisymmetric(s[j], s[j - 1], k, o);
      forall p | 0 <= p < j - 1
        ensures Le(s[p], s[j], k, o)
      {
        LeTransitive(s[p], s[j - 1], s[j], k, o);
      }
    }
  }

  /** Moves `a[i]` left past the rows that sort after it, so that
      `a[..i + 1]` is sorted when `a[..i]` was: one pass of the insertion sort. */
  method Sink(a: array<Colaborador>, i: nat, k: OrderByKey, o: Order)
    requires i < a.Length
    requires forall p, q :: 0 <= p < q < i ==> Le(a[p], a[q], k, o)
    modifies a
    ensures forall p, q :: 0 <= p < q <= i ==> Le(a[p], a[q], k, o)
    ensures multiset(a[..]) == multiset(old(a[..]))
  {
    var j := i;
    while j > 0 && Cmp(a[j], a[j - 1], k, o) < 0
      invariant 0 <= j <= i
      invariant multiset(a[..]) == multiset(old(a[..]))
      invariant SinkInv(a[..], j, i, k, o)
    {
      ghost var s := a[..];
      a[j - 1], a[j] := a[j], a[j - 1];
      assert a[..] == s[j - 1 := s[j]][j := s[j - 1]];
      SinkStep(s, a[..], j, i, k, o);
      j := j - 1;
    }
    SinkDone(a[..], j, i, k, o);
  }

  /** `sortedColaboradores`: a copy of the rows sorted in place with the
      comparator (an insertion sort by adjacent swaps). */
  method SortRows(rows: seq<Colaborador>, k: OrderByKey, o: Order) returns (r: seq<Colaborador>)
    ensures Sorted(r, k, o)
    ensures multiset(r) == multiset(rows)
  {
    var a := new Colaborador[|rows|](i requires 0 <= i < |rows| => rows[i]);
    assert a[..] == rows;
    var i := 0;
    while i < a.Length
      invariant 0 <= i <= a.Length
      invariant multiset(a[..]) == multiset(rows)
      invariant forall p, q :: 0 <= p < q < i ==> Le(a[p], a[q], k, o)
    {
      Sink(a, i, k, o);
      i := i + 1;
    }
    r := a[..];
  }

  // ---------------------------------------------------------------------
  // Local filters

  /** `(f.name?.trim() ?? '').toLowerCase()`. */
  function Needle(f: Option<string>): (r: string)
    ensures r == "" <==> f.None? || IsBlank(f.value)
  {
    ToLower(Trim(f.GetOr("")))
  }

  /** The row test of `applyLocalFilters` (an empty needle tests nothing). */
  predicate Matches(c: Colaborador, nameLower: string, emailLower: string) {
    && (nameLower == "" || Includes(ToLower(c.nome), nameLower))
    && (emailLower == "" || Includes(ToLower(c.email), emailLower))
  }

  /** `list.filter(...)` with that test. */
  function FilterRows(list: seq<Colaborador>, nameLower: string, emailLower: string): (r: seq<Colaborador>)
    ensures forall c :: c in r <==> c in list && Matches(c, nameLower, emailLower)
    ensures IsSubsequence(r, list)
    ensures forall c :: multiset(r)[c] == if Matches(c, nameLower, emailLower) then multiset(list)[c] else 0
  {
    if list == [] then []
    else
      var rest := FilterRows(list[1..], nameLower, emailLower);
      assert forall c :: c in list <==> c == list[0] || c in list[1..];
      assert list == [list[0]] + list[1..];
      if Matches(list[0], nameLower, emailLower) then [list[0]] + rest else rest
  }

  /** `applyLocalFilters`: the rows whose lower-cased name and e-mail contain
      the lower-cased, trimmed filters, in list order; the list itself when
      both filters are empty. */
  function ApplyLocalFilters(list: seq<Colaborador>, name: Option<string>, email: Option<string>): (r: seq<Colaborador>)
    ensures Needle(name) == "" && Needle(email) == "" ==> r == list
    ensures forall c :: c in r <==> c in list && Matches(c, Needle(name), Needle(email))
    ensures IsSubsequence(r, list)
  {
    var nameLower := Needle(name);
    var emailLower := Needle(email);
    if nameLower == "" && emailLower == "" then
      SubsequenceRefl(list);
      list
    else FilterRows(list, nameLower, emailLower)
  }

  lemma {:induction false} FilterRowsIdempotent(list: seq<Colaborador>, nameLower: string, emailLower: string)
    ensures FilterRows(FilterRows(list, nameLower, emailLower), nameLower, emailLower)
         == FilterRows(list, nameLower, emailLower)
  {
    if list != [] {
      FilterRowsIdempotent(list[1..], nameLower, emailLower);
      var rest := FilterRows(list[1..], nameLower, emailLower);
      if Matches(list[0], nameLower, emailLower) {
        assert ([list[0]] + rest)[1..] == rest;
      }
    }
  }

  /** Filtering the filtered list changes nothing. */
  lemma ApplyLocalFiltersIdempotent(list: seq<Colaborador>, name: Option<string>, email: Option<string>)
    ensures ApplyLocalFilters(ApplyLocalFilters(list, name, email), name, email) == ApplyLocalFilters(list, name, email)
  {
    if Needle(name) != "" || Needle(email) != "" {
      FilterRowsIdempotent(list, Needle(name), Needle(email));
    }
  }

  // ---------------------------------------------------------------------
  // Sort and selection transitions

  /** `handleRequestSort(key)`: the next column and direction. */
  function NextSort(orderBy: OrderByKey, order: Order, key: OrderByKey): (r: (OrderByKey, Order))
    ensures r.0 == key
    ensures r.1 == Desc <==> orderBy == key && order == Asc
  {
    (key, if orderBy == key && order == Asc then Desc else Asc)
  }

  /** Asking for the same column again reverses the direction. */
  lemma NextSortAlternates(orderBy: OrderByKey, order: Order, key: OrderByKey)
    ensures var s := NextSort(orderBy, order, key);
      NextSort(s.0, s.1, key) == (key, if s.1 == Asc then Desc else Asc)
  {
  }

  /** `toggleRow(id)`: the id changes side, no other id does. */
  function Toggle(s: set<string>, id: string): (r: set<string>)
    ensures id in r <==> id !in s
    ensures forall x :: x != id ==> (x in r <==> x in s)
  {
    if id in s then s - {id} else s + {id}
  }

  lemma ToggleTwice(s: set<string>, id: string)
    ensures Toggle(Toggle(s, id), id) == s
  {
    var t := Toggle(Toggle(s, id), id);
    assert forall x :: x in t <==> x in s;
  }

  /** Every visible id (there is at least one) is selected. */
  predicate AllSelected(selected: set<string>, visible: seq<string>) {
    |visible| > 0 && forall id :: id in visible ==> id in selected
  }

  /** `toggleSelectAll`: clear when all visible rows are selected, otherwise
      select exactly the visible rows. */
  function SelectAll(selected: set<string>, visible: seq<string>): (r: set<string>)
    ensures AllSelected(selected, visible) ==> r == {}
    ensures !AllSelected(selected, visible) ==> forall x :: x in r <==> x in visible
  {
    if AllSelected(selected, visible) then {} else set id | id in visible
  }

  /** With a row on screen, selecting all twice from a partial selection
      clears it again. */
  lemma SelectAllTwice(selected: set<string>, visible: seq<string>)
    requires |visible| > 0 && !AllSelected(selected, visible)
    ensures AllSelected(SelectAll(selected, visible), visible)
    ensures SelectAll(SelectAll(selected, visible), visible) == {}
  {
  }

  /** The ids of two lists with the same rows select the same set. */
  lemma SelectAllSameRows(selected: set<string>, a: seq<Colaborador>, b: seq<Colaborador>)
    requires multiset(a) == multiset(b)
    ensures SelectAll(selected, Ids(a)) == SelectAll(selected, Ids(b))
  {
    assert |a| == |multiset(a)| == |b|;
    forall x
      ensures x in Ids(a) <==> x in Ids(b)
    {
      if x in Ids(a) {
        var i :| 0 <= i < |a| && Ids(a)[i] == x;
        assert a[i] in multiset(b);
        IdsMember(a[i], b);
      }
      if x in Ids(b) {
        var i :| 0 <= i < |b| && Ids(b)[i] == x;
        assert b[i] in multiset(a);
        IdsMember(b[i], a);
      }
    }
  }

  /** The `Partial<ColaboradoresFilter>` handed to `onFilterChange`: `None`
      is a key not passed, `Some(None)` a key passed as `undefined`. */
  datatype FilterPatch = FilterPatch(name: Option<Option<string>>, email: Option<Option<string>>,
                                     department: Option<Option<string>>)

  const NoPatch := FilterPatch(None, None, None)

  /** `{ ...prev, ...next }`: every key passed replaces the draft's, even
      when it is passed as `undefined`; the keys not passed stay. */
  function Merge(prev: Filter, next: FilterPatch): (r: Filter)
    ensures next == NoPatch ==> r == prev
    ensures next.name.Some? ==> r.name == next.name.value
    ensures next.name.None? ==> r.name == prev.name
    ensures next.email.Some? ==> r.email == next.email.value
    ensures next.email.None? ==> r.email == prev.email
    ensures next.department.Some? ==> r.department == next.department.value
    ensures next.department.None? ==> r.department == prev.department
  {
    Filter(if next.name.Some? then next.name.value else prev.name,
           if next.email.Some? then next.email.value else prev.email,
           if next.department.Some? then next.department.value else prev.department)
  }

  /** Merging the same patch again changes nothing. */
  lemma MergeIdempotent(prev: Filter, next: FilterPatch)
    ensures Merge(Merge(prev, next), next) == Merge(prev, next)
  {
  }

  /** The filter fields of the drawer. */
  datatype FilterKey = NameKey | EmailKey | DepartmentKey

  /** `value || undefined`: an empty field is no filter. */
  function OrUndefined(value: string): (r: Option<string>)
    ensures r.None? <==> value == ""
    ensures r.Some? ==> r.value == value
  {
    if value == "" then None else Some(value)
  }

  /** The patch each drawer field sends when it changes: only its own key,
      always passed. */
  function FieldChange(key: FilterKey, value: string): (r: FilterPatch)
    ensures (r.name.Some? <==> key == NameKey) && (r.email.Some? <==> key == EmailKey)
            && (r.department.Some? <==> key == DepartmentKey)
    ensures r.name.Some? ==> r.name.value == OrUndefined(value)
    ensures r.email.Some? ==> r.email.value == OrUndefined(value)
    ensures r.department.Some? ==> r.department.value == OrUndefined(value)
  {
    match key
    case NameKey => FilterPatch(Some(OrUndefined(value)), None, None)
    case EmailKey => FilterPatch(None, Some(OrUndefined(value)), None)
    case DepartmentKey => FilterPatch(None, None, Some(OrUndefined(value)))
  }

  /** Emptying a field, or choosing "all departments" (the empty value),
      clears that key of the draft and leaves the others. */
  lemma EmptyFieldClears(prev: Filter, key: FilterKey)
    ensures var r := Merge(prev, FieldChange(key, ""));
      && (key == NameKey ==> r == prev.(name := None))
      && (key == EmailKey ==> r == prev.(email := None))
      && (key == DepartmentKey ==> r == prev.(department := None))
  {
  }

  // ---------------------------------------------------------------------
  // Edit drawer

  const EditNomeRequired := "Nome é obrigatório"
  const EditDepartamentoRequired := "Departamento é obrigatório"

  /** The `editErrors` record. */
  datatype EditErrors = EditErrors(nome: Option<string>, email: Option<string>, departamento: Option<string>)

  const NoEditErrors := EditErrors(None, None, None)

  /** `validateEdit`: the record it stores. The e-mail rule is the sign-up
      page's (same messages, same pattern); the department is only checked
      for being empty. */
  function ValidateEdit(nome: string, email: string, departamento: string): (r: EditErrors)
    ensures r.nome.None? <==> !IsBlank(nome)
    ensures r.nome.Some? ==> r.nome.value == EditNomeRequired
    ensures r.email == Cadastro.EmailError(email)
    ensures r.departamento.None? <==> departamento != ""
    ensures r.departamento.Some? ==> r.departamento.value == EditDepartamentoRequired
  {
    EditErrors(if IsBlank(nome) then Some(EditNomeRequired) else None,
               Cadastro.EmailError(email),
               if departamento == "" then Some(EditDepartamentoRequired) else None)
  }

  /** An accepted edit sends a trimmed, non-empty name, a trimmed e-mail of
      the pattern's shape and a chosen department: what a creation request
      carries. */
  lemma AcceptedEditWellFormed(nome: string, email: string, departamento: string, status: Status)
    requires ValidateEdit(nome, email, departamento) == NoEditErrors
    ensures NovoColaborador.WellFormedRequest(CriarColaboradorDTO(Trim(nome), Trim(email), departamento, status))
  {
    TrimIdempotent(nome);
    TrimIdempotent(email);
    MatchesEmailIffShape(Trim(email));
  }

  /** The toast after a bulk delete of `n` employees. */
  function BulkDeletedMessage(n: nat): (r: string)
    ensures n == 1 <==> r == "1 colaborador excluído."
    ensures n != 1 ==> (|r| > |" colaboradores excluídos."|
      && r[|r| - |" colaboradores excluídos."|..] == " colaboradores excluídos.")
  {
    if n == 1 then "1 colaborador excluído."
    else
      assert |NatToString(n)| > 0;
      NatToString(n) + " colaboradores excluídos."
  }

  /** The toast tells how many employees were deleted. */
  lemma BulkDeletedMessageInjective(m: nat, n: nat)
    requires BulkDeletedMessage(m) == BulkDeletedMessage(n)
    ensures m == n
  {
    if m != 1 && n != 1 {
      var t := " colaboradores excluídos.";
      var a, b := NatToString(m), NatToString(n);
      assert a + t == b + t;
      assert a == (a + t)[..|a|];
      assert |a| == |b|;
      assert b == (b + t)[..|b|];
      NatToStringValue(m);
      NatToStringValue(n);
    }
  }

  // ---------------------------------------------------------------------
  // The hook's state

  /** All the hook's state modelled, for stating what a handler leaves alone. */
  datatype HookState = HookState(
    colaboradores: seq<Colaborador>, loading: bool, toastOpen: bool, orderBy: OrderByKey, order: Order,
    selectedIds: set<string>, confirmOpen: bool, deleting: bool, toastBulkOpen: bool,
    toastBulkMessage: string, filters: Filter, appliedFilters: Filter, bulkDeletes: seq<set<string>>)

  class ColaboradoresState {
    var colaboradores: seq<Colaborador>
    var loading: bool
    var toastOpen: bool
    var orderBy: OrderByKey
    var order: Order
    var selectedIds: set<string>
    var confirmOpen: bool
    var deleting: bool
    var toastBulkOpen: bool
    var toastBulkMessage: string
    var filters: Filter
    var appliedFilters: Filter
    /** The id sets handed to `bulkDeleteColaboradores`, oldest first. */
    var bulkDeletes: seq<set<string>>

    function State(): HookState
      reads this
    {
      HookState(colaboradores, loading, toastOpen, orderBy, order, selectedIds, confirmOpen, deleting,
                toastBulkOpen, toastBulkMessage, filters, appliedFilters, bulkDeletes)
    }

    /** A bulk delete is under way only after one was issued, and none is
        issued with an empty selection. */
    ghost predicate Valid()
      reads this
    {
      && (deleting ==> bulkDeletes != [])
      && forall i :: 0 <= i < |bulkDeletes| ==> bulkDeletes[i] != {}
    }

    constructor()
      ensures Valid()
      ensures State() == HookState([], true, false, Nome, Asc, {}, false, false, false, "",
                                   NoFilter, NoFilter, [])
    {
      colaboradores, loading, toastOpen, orderBy, order, selectedIds := [], true, false, Nome, Asc, {};
      confirmOpen, deleting, toastBulkOpen, toastBulkMessage := false, false, false, "";
      filters, appliedFilters, bulkDeletes := NoFilter, NoFilter, [];
    }

    /** `remoteFilters`: the department filter goes to the repository. */
    function RemoteFilter(): Option<string>
      reads this
    {
      appliedFilters.department
    }

    /** `filteredColaboradores`. */
    function Filtered(): seq<Colaborador>
      reads this
    {
      ApplyLocalFilters(colaboradores, appliedFilters.name, appliedFilters.email)
    }

    /** `sortedColaboradores`: the filtered rows, sorted by the chosen column
        and direction. */
    method SortedColaboradores() returns (r: seq<Colaborador>)
      ensures Sorted(r, orderBy, order)
      ensures multiset(r) == multiset(Filtered())
      ensures forall c :: c in r <==> c in colaboradores && Matches(c, Needle(appliedFilters.name), Needle(appliedFilters.email))
    {
      r := SortRows(Filtered(), orderBy, order);
      assert forall c :: c in r <==> c in multiset(Filtered());
    }

    /** `load` as it starts: loading is shown and the list is asked for
        with the applied department filter. */
    method StartLoad() returns (remote: Option<string>)
      requires Valid()
      modifies this
      ensures Valid()
      ensures State() == old(State()).(loading := true)
      ensures remote == appliedFilters.department
    {
      loading := true;
      remote := appliedFilters.department;
    }

    /** `load`, once the list (filtered by `RemoteFilter()`) arrived or failed. */
    method LoadSettled(result: Result<seq<Colaborador>>)
      requires Valid()
      modifies this
      ensures Valid()
      ensures result.Ok? ==> State() == old(State()).(colaboradores := result.value, loading := false)
      ensures result.Fail? ==> State() == old(State()).(colaboradores := [], toastOpen := true, loading := false)
    {
      if result.Ok? {
        colaboradores := result.value;
      } else {
        colaboradores := [];
        toastOpen := true;
      }
      loading := false;
    }

    method HandleRequestSort(key: OrderByKey)
      requires Valid()
      modifies this
      ensures Valid()
      ensures State() == old(State()).(orderBy := NextSort(old(orderBy), old(order), key).0,
                                       order := NextSort(old(orderBy), old(order), key).1)
    {
      var isAsc := orderBy == key && order == Asc;
      orderBy := key;
      order := if isAsc then Desc else Asc;
    }

    method ToggleRow(id: string)
      requires Valid()
      modifies this
      ensures Valid()
      ensures State() == old(State()).(selectedIds := Toggle(old(selectedIds), id))
    {
      if id in selectedIds {
        selectedIds := selectedIds - {id};
      } else {
        selectedIds := selectedIds + {id};
      }
    }

    /** Selects or clears the rows on screen: the sort order does not matter,
        only which rows pass the filters. */
    method ToggleSelectAll()
      requires Valid()
      modifies this
      ensures Valid()
      ensures State() == old(State()).(selectedIds := SelectAll(old(selectedIds), Ids(old(Filtered()))))
    {
      var rows := SortedColaboradores();
      SelectAllSameRows(selectedIds, rows, Filtered());
      selectedIds := SelectAll(selectedIds, Ids(rows));
    }

    /** `onFilterChange(next)`: the patch is merged into the draft. */
    method OnFilterChange(next: FilterPatch)
      requires Valid()
      modifies this
      ensures Valid()
      ensures State() == old(State()).(filters := Merge(old(filters), next))
    {
      filters := Merge(filters, next);
    }

    /** Applying the draft; `reload` tells whether `remoteFilters` changed,
        which makes the list load again. */
    method OnApplyFilters() returns (reload: bool)
      requires Valid()
      modifies this
      ensures Valid()
      ensures State() == old(State()).(appliedFilters := old(filters))
      ensures reload <==> RemoteFilter() != old(RemoteFilter())
    {
      reload := filters.department != appliedFilters.department;
      appliedFilters := filters;
    }

    /** Clearing both; the list loads again when a department was applied. */
    method OnClearFilters() returns (reload: bool)
      requires Valid()
      modifies this
      ensures Valid()
      ensures State() == old(State()).(filters := NoFilter, appliedFilters := NoFilter)
      ensures reload <==> old(RemoteFilter()).Some?
    {
      reload := appliedFilters.department.Some?;
      filters := NoFilter;
      appliedFilters := NoFilter;
    }

    /** Opening the filter drawer starts from the applied filters. */
    method SyncFiltersFromApplied()
      requires Valid()
      modifies this
      ensures Valid()
      ensures State() == old(State()).(filters := old(appliedFilters))
    {
      filters := appliedFilters;
    }

    /** `handleBulkDelete` up to the call: nothing with an empty selection. */
    method StartBulkDelete()
      requires Valid()
      modifies this
      ensures Valid()
      ensures old(selectedIds) == {} ==> State() == old(State())
      ensures old(selectedIds) != {} ==>
        State() == old(State()).(deleting := true, bulkDeletes := old(bulkDeletes) + [old(selectedIds)])
    {
      if selectedIds == {} {
        return;
      }
      deleting := true;
      bulkDeletes := bulkDeletes + [selectedIds];
    }

    /** `handleBulkDelete` after the call: on success the selection is
        cleared, the list reloads and the toast counts the deleted rows; on
        failure (`failure` is what the call threw) only the toast, with the
        error's user message, and the dialog change. The employee service's
        `toUserMessage` is the same function as the department service's,
        `DS.ToUserMessage`. */
    method BulkDeleteSettled(failure: Option<Thrown>)
      requires Valid() && deleting
      modifies this
      ensures Valid()
      ensures var n := |old(bulkDeletes)[|old(bulkDeletes)| - 1]|;
        failure.None? ==> State() == old(State()).(selectedIds := {}, loading := true, confirmOpen := false,
          toastBulkMessage := BulkDeletedMessage(n), toastBulkOpen := true, deleting := false)
      ensures failure.Some? ==> State() == old(State()).(confirmOpen := false,
          toastBulkMessage := DS.ToUserMessage(failure.value), toastBulkOpen := true, deleting := false)
    {
      var n := |bulkDeletes[|bulkDeletes| - 1]|;
      if failure.None? {
        selectedIds, loading := {}, true;
        CloseBulk(BulkDeletedMessage(n));
      } else {
        CloseBulk(DS.ToUserMessage(failure.value));
      }
    }

    /** The bulk delete ends: its dialog closes and its toast shows `message`. */
    method CloseBulk(message: string)
      requires Valid()
      modifies this
      ensures Valid()
      ensures State() == old(State()).(confirmOpen := false, toastBulkMessage := message,
                                       toastBulkOpen := true, deleting := false)
    {
      confirmOpen, toastBulkMessage, toastBulkOpen, deleting := false, message, true, false;
    }
  }
}

=== FILE: use_departamentos.dfy ===
/**
 * The department list's state (`useDepartamentos.ts`): loading the list
 * and the manager names, and the guarded delete behind the confirmation
 * dialog. The hook's state is the fields of `DepartamentosState`; the calls
 * to the services are I/O, so their outcomes are parameters.
 */
module UseDepartamentos {
  import opened Opt
  import opened Domain
  import opened Errors
  import opened Lists
  import DS = DepartamentosService

  const HasColaboradores := "Não é possível excluir: o departamento ainda possui colaboradores. Transfira ou remova os colaboradores antes de excluir."
  const Deleted := "Departamento excluído com sucesso."

  /** The `names` record built in `load`: each employee's id mapped to the
      name of the last employee in the list with that id. */
  function NamesOf(cs: seq<Colaborador>): (m: map<string, string>)
    ensures forall k :: k in m <==> k in Ids(cs)
  {
    if cs == [] then map[]
    else
      var init := cs[..|cs| - 1];
      IdsSnoc(cs);
      NamesOf(init)[cs[|cs| - 1].id := cs[|cs| - 1].nome]
  }

  /** An employee's id maps to that employee's name unless a later
      employee in the list has the same id and another name. */
  lemma {:induction false} NamesOfLastWins(cs: seq<Colaborador>, i: nat)
    requires i < |cs|
    requires forall j :: i < j < |cs| && cs[j].id == cs[i].id ==> cs[j].nome == cs[i].nome
    ensures cs[i].id in NamesOf(cs) && NamesOf(cs)[cs[i].id] == cs[i].nome
  {
    var init := cs[..|cs| - 1];
    assert Ids(cs)[i] == cs[i].id;
    if i < |cs| - 1 && cs[|cs| - 1].id != cs[i].id {
      assert forall j :: i < j < |init| ==> init[j] == cs[j];
      NamesOfLastWins(init, i);
    }
  }

  /** With distinct ids, each employee's id maps to its own name. */
  lemma NamesOfDistinct(cs: seq<Colaborador>, c: Colaborador)
    requires DS.UniqueIds(cs) && c in cs
    ensures c.id in NamesOf(cs) && NamesOf(cs)[c.id] == c.nome
  {
    var i :| 0 <= i < |cs| && cs[i] == c;
    NamesOfLastWins(cs, i);
  }

  /** The loop of `load` that fills the `names` record. */
  method BuildNames(cs: seq<Colaborador>) returns (names: map<string, string>)
    ensures names == NamesOf(cs)
  {
    names := map[];
    var i := 0;
    while i < |cs|
      invariant 0 <= i <= |cs|
      invariant names == NamesOf(cs[..i])
    {
      assert cs[..i + 1][..i] == cs[..i];
      names := names[cs[i].id := cs[i].nome];
      i := i + 1;
    }
    assert cs[..|cs|] == cs;
  }

  /** All the hook's state, for stating what a handler leaves alone. */
  datatype HookState = HookState(
    departamentos: seq<DepartamentoDTO>, loading: bool, toastOpen: bool, toastMessage: string,
    confirmDeleteOpen: bool, departamentoToDelete: Option<DepartamentoDTO>, deleting: bool,
    gestorNames: map<string, string>, deletes: seq<DepartamentoDTO>)

  class DepartamentosState {
    var departamentos: seq<DepartamentoDTO>
    var loading: bool
    var toastOpen: bool
    var toastMessage: string
    var confirmDeleteOpen: bool
    var departamentoToDelete: Option<DepartamentoDTO>
    var deleting: bool
    var gestorNames: map<string, string>
    /** The departments handed to `deleteDepartamento`, oldest first. */
    var deletes: seq<DepartamentoDTO>

    function State(): HookState
      reads this
    {
      HookState(departamentos, loading, toastOpen, toastMessage, confirmDeleteOpen,
                departamentoToDelete, deleting, gestorNames, deletes)
    }

    /** A delete is under way only after one was issued, and only a
        department without employees is ever deleted. */
    ghost predicate Valid()
      reads this
    {
      && (deleting ==> deletes != [])
      && forall i :: 0 <= i < |deletes| ==> deletes[i].colaboradoresIds == []
    }

    constructor()
      ensures Valid()
      ensures State() == HookState([], true, false, "", false, None, false, map[], [])
    {
      departamentos, loading, toastOpen, toastMessage := [], true, false, "";
      confirmDeleteOpen, departamentoToDelete, deleting, gestorNames, deletes := false, None, false, map[], [];
    }

    /** `canDelete`: a department is chosen and it has no employees. */
    function CanDelete(): (r: bool)
      reads this
      ensures r <==> departamentoToDelete.Some? && departamentoToDelete.value.colaboradoresIds == []
    {
      match departamentoToDelete
      case Some(d) => |d.colaboradoresIds| == 0
      case None => false
    }

    /** `load` as it starts: the page shows it is loading until both lists
        arrive or one of them fails. */
    method StartLoad()
      requires Valid()
      modifies this
      ensures Valid()
      ensures State() == old(State()).(loading := true)
    {
      loading := true;
    }

    /** `load`, once both lists arrived or one of them failed. */
    method Load(result: Result<(seq<DepartamentoDTO>, seq<Colaborador>)>)
      requires Valid()
      modifies this
      ensures Valid()
      ensures result.Ok? ==> State() == old(State()).(departamentos := result.value.0,
                                                     gestorNames := NamesOf(result.value.1), loading := false)
      ensures result.Fail? ==> State() == old(State()).(toastMessage := DS.ToUserMessage(result.error),
                                                       toastOpen := true, loading := false)
    {
      if result.Fail? {
        toastMessage := DS.ToUserMessage(result.error);
        toastOpen := true;
        loading := false;
        return;
      }
      var names := BuildNames(result.value.1);
      departamentos, gestorNames, loading := result.value.0, names, false;
    }

    /** `openConfirmDelete(dep)`. */
    method OpenConfirmDelete(dep: DepartamentoDTO)
      requires Valid()
      modifies this
      ensures Valid()
      ensures State() == old(State()).(departamentoToDelete := Some(dep), confirmDeleteOpen := true)
    {
      departamentoToDelete := Some(dep);
      confirmDeleteOpen := true;
    }

    /** `closeConfirmDelete`: does nothing while a delete is under way. */
    method CloseConfirmDelete()
      requires Valid()
      modifies this
      ensures Valid()
      ensures old(deleting) ==> State() == old(State())
      ensures !old(deleting) ==> State() == old(State()).(confirmDeleteOpen := false, departamentoToDelete := None)
    {
      if !deleting {
        confirmDeleteOpen := false;
        departamentoToDelete := None;
      }
    }

    /** `handleDelete` up to the call: nothing without a chosen department;
        a department that still has employees is refused without any call;
        otherwise the delete is issued. */
    method StartDelete()
      requires Valid()
      modifies this
      ensures Valid()
      ensures old(departamentoToDelete).None? ==> State() == old(State())
      ensures old(departamentoToDelete).Some? && !old(CanDelete()) ==>
        State() == old(State()).(confirmDeleteOpen := false, departamentoToDelete := None,
                                 toastMessage := HasColaboradores, toastOpen := true)
      ensures old(CanDelete()) ==>
        State() == old(State()).(deleting := true, deletes := old(deletes) + [old(departamentoToDelete).value])
    {
      if departamentoToDelete.None? {
        return;
      }
      var dep := departamentoToDelete.value;
      if |dep.colaboradoresIds| > 0 {
        confirmDeleteOpen := false;
        departamentoToDelete := None;
        toastMessage := HasColaboradores;
        toastOpen := true;
        return;
      }
      deleting := true;
      deletes := deletes + [dep];
    }

    /** `handleDelete` after the call: on success the department with that id
        leaves the list and the dialog closes; on failure the list stays. */
    method DeleteSettled(outcome: Option<Thrown>)
      requires Valid() && deleting
      modifies this
      ensures Valid()
      ensures var id := old(deletes)[|old(deletes)| - 1].id;
        outcome.None? ==> State() == old(State()).(departamentos := WithoutId(old(departamentos), id),
          confirmDeleteOpen := false, departamentoToDelete := None, toastMessage := Deleted,
          toastOpen := true, deleting := false)
      ensures outcome.Some? ==> State() == old(State()).(toastMessage := DS.ToUserMessage(outcome.value),
                                                         toastOpen := true, deleting := false)
    {
      var id := deletes[|deletes| - 1].id;
      if outcome.None? {
        departamentos, confirmDeleteOpen, departamentoToDelete := WithoutId(departamentos, id), false, None;
        EndDelete(Deleted);
      } else {
        EndDelete(DS.ToUserMessage(outcome.value));
      }
    }

    /** Either way the delete ends with a toast showing `message`. */
    method EndDelete(message: string)
      requires Valid()
      modifies this
      ensures Valid()
      ensures State() == old(State()).(toastMessage := message, toastOpen := true, deleting := false)
    {
      toastMessage, toastOpen, deleting := message, true, false;
    }
  }
}

=== FILE: validation.dfy ===
/**
 * The employee form schema (`validation.ts`): one rule per field, the rule
 * tying the manager to the hierarchy level, and `getFieldErrors`, which
 * turns a failed parse into one message per field. The create and the
 * update schema are the same schema, so `Issues` stands for both.
 */
module Validation {
  import opened Opt
  import opened Strings

  /** The values a form hands to `safeParse`. A `salarioBase` that is not a
      number is `None`; the other fields arrive as text. */
  datatype FormValues = FormValues(
    nome: string, email: string, departamento: string, status: string,
    cargo: string, dataAdmissao: string, nivelHierarquico: string,
    gestorId: Option<string>, salarioBase: Option<real>)

  /** The fields of the schema, in declaration order, the refinement last. */
  datatype Field = Nome | Email | Departamento | StatusField | Cargo | DataAdmissao
                 | NivelHierarquico | SalarioBase | GestorId

  const Fields: seq<Field> := [Nome, Email, Departamento, StatusField, Cargo, DataAdmissao, NivelHierarquico, SalarioBase, GestorId]

  function FieldName(f: Field): string {
    match f
    case Nome => "nome"
    case Email => "email"
    case Departamento => "departamento"
    case StatusField => "status"
    case Cargo => "cargo"
    case DataAdmissao => "dataAdmissao"
    case NivelHierarquico => "nivelHierarquico"
    case SalarioBase => "salarioBase"
    case GestorId => "gestorId"
  }

  const Niveis: set<string> := {"junior", "pleno", "senior", "gestor"}
  const Statuses: set<string> := {"Ativo", "Inativo"}

  const GestorRequired := "Informe o gestor. Obrigatório para níveis que não sejam gestor."

  /** A manager is required exactly for the levels other than 'gestor'. */
  predicate NeedsGestor(v: FormValues) {
    v.nivelHierarquico != "gestor" && IsBlank(v.gestorId.GetOr(""))
  }

  /** A field fails in a way that stops the object's refinement from running:
      a value outside its enum, or a salary that is not a number. A short
      text or a non-positive salary does not stop it. */
  predicate Aborted(v: FormValues) {
    v.status !in Statuses || v.nivelHierarquico !in Niveis || v.salarioBase.None?
  }

  /** The message the schema reports for a field, if its rule fails. */
  function RuleError(v: FormValues, f: Field): Option<string> {
    match f
    case Nome => if IsBlank(v.nome) then Some("Informe o nome.") else None
    case Email =>
      if v.email == "" then Some("Informe o e-mail.")
      else if !MatchesEmail(Trim(v.email)) then Some("Informe um e-mail válido.")
      else None
    case Departamento => if v.departamento == "" then Some("Selecione o departamento.") else None
    case StatusField => if v.status !in Statuses then Some("Selecione o status.") else None
    case Cargo => if v.cargo == "" then Some("Informe o cargo.") else None
    case DataAdmissao => if v.dataAdmissao == "" then Some("Informe a data de admissão.") else None
    case NivelHierarquico => if v.nivelHierarquico !in Niveis then Some("Selecione o nível hierárquico.") else None
    case SalarioBase =>
      if v.salarioBase.None? then Some("Informe o salário base.")
      else if v.salarioBase.value <= 0.0 then Some("O salário base deve ser maior que zero.")
      else None
    case GestorId => if NeedsGestor(v) && !Aborted(v) then Some(GestorRequired) else None
  }

  /** The rules one by one: a non-blank name (after trimming), a non-empty
      e-mail that matches the pattern once trimmed (so a blank one fails the
      pattern), non-empty department, position and hiring date, a known
      status and level, a positive salary, and the manager rule, which is
      only checked when no field aborted the object. */
  lemma RulesMeaning(v: FormValues)
    ensures RuleError(v, Nome).Some? <==> IsBlank(v.nome)
    ensures RuleError(v, Email).Some? <==> !MatchesEmail(Trim(v.email))
    ensures RuleError(v, Email) == Some("Informe o e-mail.") <==> v.email == ""
    ensures RuleError(v, Departamento).Some? <==> v.departamento == ""
    ensures RuleError(v, StatusField).Some? <==> v.status !in Statuses
    ensures RuleError(v, Cargo).Some? <==> v.cargo == ""
    ensures RuleError(v, DataAdmissao).Some? <==> v.dataAdmissao == ""
    ensures RuleError(v, NivelHierarquico).Some? <==> v.nivelHierarquico !in Niveis
    ensures RuleError(v, SalarioBase).Some? <==> v.salarioBase.None? || v.salarioBase.value <= 0.0
    ensures RuleError(v, GestorId).Some? <==> NeedsGestor(v) && !Aborted(v)
  {
    if v.email == "" {
      assert Trim(v.email) == "";
    }
  }

  /** One element of an issue's path: a key or an array index. */
  datatype PathPart = Name(name: string) | Index(index: nat)

  datatype Issue = Issue(path: seq<PathPart>, message: string)

  /** The result of `safeParse`: the parsed values, or the issues. */
  datatype Parsed = Parsed(nome: string, email: string, values: FormValues)
  datatype ParseResult = Success(data: Parsed) | Failure(issues: seq<Issue>)

  /** The rules of the schema, as a table from field to verdict. */
  function Rules(v: FormValues): Field -> Option<string> {
    f => RuleError(v, f)
  }

  /** The issues of the fields in `fs` under `rules`, in that order, one
      per failing rule. */
  function IssuesOf(rules: Field -> Option<string>, fs: seq<Field>): seq<Issue>
  {
    if fs == [] then []
    else
      var rest := IssuesOf(rules, fs[1..]);
      match rules(fs[0])
      case Some(m) => [Issue([Name(FieldName(fs[0]))], m)] + rest
      case None => rest
  }

  function Issues(v: FormValues): seq<Issue> {
    IssuesOf(Rules(v), Fields)
  }

  /** `createColaboradorSchema.safeParse(v)` (and the update schema's). */
  function SafeParse(v: FormValues): (r: ParseResult)
    ensures r.Success? <==> Issues(v) == []
    ensures r.Success? ==> r.data == Parsed(Trim(v.nome), Trim(v.email), v)
    ensures r.Failure? ==> r.issues == Issues(v)
  {
    var issues := Issues(v);
    if issues == [] then Success(Parsed(Trim(v.nome), Trim(v.email), v)) else Failure(issues)
  }

  lemma {:induction false} IssuesEmpty(rules: Field -> Option<string>, fs: seq<Field>)
    ensures IssuesOf(rules, fs) == [] <==> forall f :: f in fs ==> rules(f).None?
  {
    if fs != [] {
      IssuesEmpty(rules, fs[1..]);
      assert forall f :: f in fs <==> f == fs[0] || f in fs[1..];
    }
  }

  /** Every rule of the schema holds. */
  predicate RulesHold(v: FormValues) {
    forall f :: f in Fields ==> Rules(v)(f).None?
  }

  /** The parse succeeds exactly when every rule holds. */
  lemma ParsesIffRulesHold(v: FormValues)
    ensures SafeParse(v).Success? <==> RulesHold(v)
  {
    IssuesEmpty(Rules(v), Fields);
  }

  /** What a successful parse hands on: a trimmed non-blank name, a trimmed
      well-formed e-mail address, a known level and status, a positive
      salary, and a manager whenever the level is not 'gestor'. */
  lemma ParsedIsWellFormed(v: FormValues)
    requires SafeParse(v).Success?
    ensures var d := SafeParse(v).data;
      && d.nome != "" && d.nome == Trim(v.nome)
      && EmailShape(d.email) && d.email == Trim(v.email)
      && v.nivelHierarquico in Niveis && v.status in Statuses
      && v.salarioBase.Some? && v.salarioBase.value > 0.0
      && (v.nivelHierarquico != "gestor" ==> !IsBlank(v.gestorId.GetOr("")))
  {
    ParsesIffRulesHold(v);
    RulesMeaning(v);
    assert Rules(v)(Nome).None? && Rules(v)(Email).None? && Rules(v)(StatusField).None?;
    assert Rules(v)(NivelHierarquico).None? && Rules(v)(SalarioBase).None? && Rules(v)(GestorId).None?;
    MatchesEmailIffShape(Trim(v.email));
  }

  /** `String(part)`. */
  function PartString(p: PathPart): string {
    match p
    case Name(s) => s
    case Index(n) => NatToString(n)
  }

  /** `path.map(String).join('.')`. */
  function JoinPath(path: seq<PathPart>): (r: string)
    ensures |path| == 0 ==> r == ""
    ensures |path| == 1 ==> r == PartString(path[0])
    ensures |path| >= 2 ==> r != ""
  {
    if path == [] then ""
    else if |path| == 1 then PartString(path[0])
    else JoinPath(path[..|path| - 1]) + "." + PartString(path[|path| - 1])
  }

  function Key(i: Issue): string {
    JoinPath(i.path)
  }

  /** Issue `i` is the first one with the non-empty key `k`. */
  predicate FirstWithKey(issues: seq<Issue>, i: int, k: string) {
    0 <= i < |issues| && k != "" && Key(issues[i]) == k
    && forall j :: 0 <= j < i ==> Key(issues[j]) != k
  }

  /** The errors record `getFieldErrors` builds from a failed parse: each
      issue, in order, files its message under its key unless the key is
      empty or already taken. */
  function FieldErrors(issues: seq<Issue>): map<string, string>
    decreases |issues|
  {
    if issues == [] then map[]
    else
      var m := FieldErrors(issues[..|issues| - 1]);
      var k := Key(issues[|issues| - 1]);
      if k != "" && k !in m then m[k := issues[|issues| - 1].message] else m
  }

  /** Its keys are exactly the non-empty keys of the issues. */
  lemma {:induction false} FieldErrorsKeys(issues: seq<Issue>, k: string)
    ensures k in FieldErrors(issues) <==> k != "" && exists i :: 0 <= i < |issues| && Key(issues[i]) == k
    decreases |issues|
  {
    if issues != [] {
      var init := issues[..|issues| - 1];
      FieldErrorsKeys(init, k);
      assert forall i :: 0 <= i < |init| ==> issues[i] == init[i];
      if k != "" && Key(issues[|issues| - 1]) == k {
        assert Key(issues[|issues| - 1]) == k;
      }
    }
  }

  /** Under each key sits the message of the first issue with that key. */
  lemma {:induction false} FieldErrorsFirst(issues: seq<Issue>, k: string) returns (i: nat)
    requires k in FieldErrors(issues)
    ensures FirstWithKey(issues, i, k) && FieldErrors(issues)[k] == issues[i].message
    decreases |issues|
  {
    var init := issues[..|issues| - 1];
    assert forall j :: 0 <= j < |init| ==> issues[j] == init[j];
    if k in FieldErrors(init) {
      i := FieldErrorsFirst(init, k);
    } else {
      i := |issues| - 1;
      FieldErrorsKeys(init, k);
    }
  }

  /** One more issue: its key is filed if it is new and not empty. */
  lemma FieldErrorsSnoc(issues: seq<Issue>, i: nat)
    requires i < |issues|
    ensures FieldErrors(issues[..i + 1]) ==
      var m := FieldErrors(issues[..i]);
      var k := Key(issues[i]);
      if k != "" && k !in m then m[k := issues[i].message] else m
  {
    assert issues[..i + 1][..i] == issues[..i];
  }

  /** `getFieldErrors(result)`. */
  method GetFieldErrors(result: ParseResult) returns (errors: map<string, string>)
    ensures result.Success? ==> errors == map[]
    ensures result.Failure? ==> errors == FieldErrors(result.issues)
  {
    errors := map[];
    if result.Success? {
      return;
    }
    var issues := result.issues;
    var i := 0;
    while i < |issues|
      invariant 0 <= i <= |issues|
      invariant errors == FieldErrors(issues[..i])
    {
      var path := JoinPath(issues[i].path);
      FieldErrorsSnoc(issues, i);
      if path != "" && path !in errors {
        errors := errors[path := issues[i].message];
      }
      i := i + 1;
    }
    assert issues[..i] == issues;
  }

  /** Later issues never override earlier ones: the errors of `a + b` are
      those of `a`, and those of `b` under keys `a` does not have. */
  lemma {:induction false} FieldErrorsAppend(a: seq<Issue>, b: seq<Issue>)
    ensures FieldErrors(a + b) == FieldErrors(b) + FieldErrors(a)
    decreases |b|
  {
    if b != [] {
      var b' := b[..|b| - 1];
      FieldErrorsAppend(a, b');
      assert (a + b)[..|a + b| - 1] == a + b';
      assert (a + b)[|a + b| - 1] == b[|b| - 1];
    } else {
      assert a + b == a;
    }
  }

  /** The errors the form shows: the message of each failing rule of `fs`
      under the field's name. */
  function RuleErrors(rules: Field -> Option<string>, fs: seq<Field>): map<string, string> {
    if fs == [] then map[]
    else
      var rest := RuleErrors(rules, fs[1..]);
      match rules(fs[0])
      case Some(m) => rest[FieldName(fs[0]) := m]
      case None => rest
  }

  lemma FieldNameInjective(f: Field, g: Field)
    ensures FieldName(f) == FieldName(g) ==> f == g
  {
  }

  /** A field's name is a key exactly when the field is listed and its rule
      fails, and it holds that rule's message. */
  lemma {:induction false} RuleErrorsLookup(rules: Field -> Option<string>, fs: seq<Field>, f: Field)
    ensures FieldName(f) in RuleErrors(rules, fs) <==> f in fs && rules(f).Some?
    ensures FieldName(f) in RuleErrors(rules, fs) ==> RuleErrors(rules, fs)[FieldName(f)] == rules(f).value
  {
    if fs != [] {
      RuleErrorsLookup(rules, fs[1..], f);
      assert f in fs <==> f == fs[0] || f in fs[1..];
      if f != fs[0] {
        FieldNameInjective(f, fs[0]);
      }
    }
  }

  /** Every key is the name of a listed field. */
  lemma {:induction false} RuleErrorsKey(rules: Field -> Option<string>, fs: seq<Field>, k: string) returns (f: Field)
    requires k in RuleErrors(rules, fs)
    ensures f in fs && k == FieldName(f)
  {
    if k in RuleErrors(rules, fs[1..]) {
      f := RuleErrorsKey(rules, fs[1..], k);
    } else {
      f := fs[0];
    }
  }

  lemma {:induction false} IssuesOfErrors(rules: Field -> Option<string>, fs: seq<Field>)
    ensures FieldErrors(IssuesOf(rules, fs)) == RuleErrors(rules, fs)
  {
    if fs != [] {
      IssuesOfErrors(rules, fs[1..]);
      var rest := IssuesOf(rules, fs[1..]);
      match rules(fs[0])
      case Some(m) =>
        var one := [Issue([Name(FieldName(fs[0]))], m)];
        FieldErrorsAppend(one, rest);
        assert one[..0] == [];
        assert FieldErrors(one) == map[FieldName(fs[0]) := m];
      case None =>
    }
  }

  /** What the employee forms show: `getFieldErrors(schema.safeParse(v))`
      is empty on success, and otherwise holds, under each field's name,
      exactly the message of its failing rule. */
  lemma SchemaFieldErrors(v: FormValues)
    ensures SafeParse(v).Success? ==> RuleErrors(Rules(v), Fields) == map[]
    ensures SafeParse(v).Failure? ==> FieldErrors(SafeParse(v).issues) == RuleErrors(Rules(v), Fields)
  {
    IssuesOfErrors(Rules(v), Fields);
  }

  /** The manager rule: in a field list holding `gestorId` (as `Fields`
      does), `gestorId` is reported exactly when the level is not 'gestor',
      the trimmed manager id is empty, and no enum or number failure
      aborted the object. */
  lemma GestorRule(v: FormValues, fs: seq<Field>)
    requires GestorId in fs
    ensures FieldName(GestorId) in RuleErrors(Rules(v), fs) <==> NeedsGestor(v) && !Aborted(v)
  {
    RuleErrorsLookup(Rules(v), fs, GestorId);
  }
}
